=== FILE: README.md ===
# qEngine core, modelled in Dafny

qEngine is a small C++ OpenGL engine. This project models its core logic:

- the silhouette-edge pipeline that prepares shadow volumes. The steps are:
  - directed edges per triangle (`Mesh::GenEdgeList`);
  - a (p1, p2) sort (`edge_cmp_f` with `qsort`);
  - a vertex index (`R_SilIndexing`);
  - twin pruning (`R_SilPrune`);
  - neighbour lookup (`R_SilFindOtherTri`, `R_SilFillEdge`);
  - per-triangle facing bytes (`R_SilCullFacing`);
  - the `GetSilhouette` driver;
- the `qArr<T>` growable array with 16-bit size and capacity;
- the `qStr` string and path operations;
- the `LexerFile` tokenizer, `File::CreateDir`'s prefix walk and `File::Init`'s writeable flag;
- the decision logic of `Plane`, `BBox`, `Poly::Clip` and `Frustum`;
- the `Mat3`/`Mat4` layout, transpose, identity and inverse facts;
- `Entity` transform bookkeeping;
- the TGA screenshot encoding of `qEngine::Snapshot`;
- the light list and camera-path slots of `qEngine`.

The model is functional. Each entity is a `datatype`, and each operation is a function, or a method where the source loops. The source reaches undefined behaviour in several ways:

- a C `assert` that fails;
- an `operator[]` outside the list;
- a write past a buffer.

The model returns these as `Abort(fault)` results (module `Outcomes`) instead of forbidding them with a precondition. That way the defects the source contains can be stated as lemmas about concrete inputs.

Floats are modelled as reals. Unsigned shorts are the subset type `u16`, and the 16-bit truncations are written out: conversions to `u16`, `qArr`'s capacity doubling, and the capacity wrap that makes `GenEdgeList` fault at 2^15 edges.

Modules, one per file:

- `Outcomes`: Option, Result, faults, byte and u16.
- `Geometry`: Vec3, Plane, BBox, Line.
- `Clipping`: Poly, Poly::Clip and Frustum.
- `Matrix`: Mat3/Mat4 as column sequences.
- `Entities`: the Entity transforms and Bound.
- `MeshData`: edges, index bookkeeping and GenEdgeList.
- `Silhouette`: the silhouette pipeline.
- `SilhouetteCases`: concrete meshes run through the pipeline.
- `QArray`: qArr<T>.
- `QStr`: qStr.
- `Lexer`: LexerFile and the small File pieces.
- `Tga`: the Snapshot file.
- `EngineState`: lights and camera paths.

Where the code and its documentation disagree, the model follows the code:

- The comment on `Plane::Side` gives the codes "0 on, 1 inside, 2 outside", but the enum makes 0 `PS_OUT` and 2 `PS_ON` (`Geometry.SideCodesContradictComment`).
- A failed `Resize` inside `qArr::Add` does drop the element. It does not leave the array unchanged, because `nrAlloc` has already been doubled when `realloc` fails (`QArray.FailedResizeOverruns`).
- A token of 256 bytes or more overruns `ReadToken`'s buffer. The model does not forbid such tokens with a precondition. It returns `Abort(BufferOverrun)` for them (`Lexer.ReadToken`).
- `MoreToken` promises a byte, not a token. On a lexer that has not read a token yet, a remainder of white bytes makes `ReadToken` clear a token whose data pointer is still NULL (`Lexer.ReadToken`).

## Model

| member | source | states |
|---|---|---|
| Geometry.LessIsStrict | Math.h:196-198 | Vec3 `<` is irreflexive, asymmetric and transitive. |
| Geometry.NearIsTolerance | Math.h:200-208 | Vec3 `==` is reflexive and symmetric but not transitive. `!=` is its negation. |
| Geometry.Less | Math.h:196-198 | Vec3 `<`: every component strictly smaller, so no vector is below itself. The contract restates the body; its partner is Geometry.LessIsStrict. |
| Geometry.Near | Math.h:200-204 | Vec3 `==`: every component within MI_EPSILON, so equal vectors are near. The contract restates the body; its partner is Geometry.NearIsTolerance. |
| Geometry.NotNear | Math.h:206-208 | Vec3 `!=` is the negation of `==`, so near-but-different vectors are not `!=`. Its partner is Geometry.NearIsTolerance. |
| Geometry.Length | Geometry.h:30-36 | Line::Length is never negative and is 0 for a degenerate segment. |
| Geometry.LengthIsSquaredDistance | Geometry.h:30-36 | Length is direction-independent and equals the dot product of the difference with itself, i.e. the squared distance (2 along an axis gives 4). |
| Geometry.PlaneFromPoints | Geometry.cpp:5-12 | The three-point Plane keeps a zero normal, and dist is -(n . a) for the computed but unstored normal n. |
| Geometry.Side | Geometry.cpp:49-58 | The code is one of PS_OUT, PS_IN, PS_ON. PS_ON holds iff the distance is below MI_EPSILON. PS_OUT holds iff the distance is not below MI_EPSILON and d - \|d - dist\| > 0, split by the sign of d - dist. |
| Geometry.ZeroNormalNeverOut | Geometry.cpp:49-58 | With a zero normal, Side never says PS_OUT. It says PS_ON or PS_IN depending on \|dist\| alone. |
| Geometry.SideCodesContradictComment | Geometry.h:41 | The enum gives PS_OUT = 0 and PS_ON = 2, so a point on a plane reports 2, against the comment at Geometry.h:59. |
| Geometry.BoxSide | Geometry.cpp:62-71 | 0 iff the corners' codes differ. 1 iff they agree and are not PS_OUT. 2 iff both are PS_OUT. |
| Geometry.MakePlane | Geometry.h:51 | Plane(n, d) stores n and d unchanged. The constructor, so the contract restates the body; Side and ZeroNormalNeverOut are what use it. |
| Geometry.MakeBox | Geometry.h:74-77 | BBox(vmin, vmax) stores the two corners unchanged. The constructor, so the contract restates the body; Entities.Bound's contract is stated through it. |
| Geometry.Contains | Geometry.cpp:73-89 | The nested ifs as one formula: min corners close and max corners close or ordered, or min corners ordered and max corners reversed. The contract restates the body; its partner is Geometry.ContainsQuirks. |
| Geometry.ContainsQuirks | Geometry.cpp:73-89 | A box contains itself. A box "contains" a larger box sharing its min corner, and does not contain a smaller box sharing its max corner. |
| Clipping.FromVertices | Geometry.h:105 | Poly(vertices) holds the vertices, its Size is their count, and it is well formed. |
| Clipping.Size | Geometry.h:113 | Poly::Size is numVert, not the vertex count. The contract restates the body; Clipping.AddThenAssign shows the two differ after Add. |
| Clipping.EmptyPoly | Geometry.h:106 | Poly() has no vertices and size 0. |
| Clipping.AddVertex | Geometry.h:112-113 | Add appends the vertex but leaves Size unchanged. |
| Clipping.Assign | Geometry.cpp:137-141 | operator= copies the vertices and Size becomes their count. |
| Clipping.AddThenAssign | Geometry.h:112-113 | After Add, Size undercounts the vertices. operator= repairs the count. |
| Clipping.LoopKeeps | Geometry.cpp:154-166 | The loop copies vertex i iff 1 <= i < k and its distance exceeds MI_EPSILON. |
| Clipping.LoopCrossings | Geometry.cpp:154-166 | The loop takes a crossing at i iff 2 <= i < k and the previous distance times vertex 0's distance is below -MI_EPSILON. |
| Clipping.ClipKeeps | Geometry.cpp:147-177 | Poly::Clip copies exactly the vertices 1..n-1 beyond MI_EPSILON. Vertex 0 is never copied. |
| Clipping.ClipCrossings | Geometry.cpp:147-177 | Poly::Clip crosses at i < n iff the loop test holds, at n iff the closing test holds, and never beyond n. |
| Clipping.ClipStepsShape | Geometry.cpp:147-177 | Clip takes at most 2n - 2 steps, each about vertices 1..n-1 or the closing segment, in vertex order. |
| Clipping.MissedCrossing | Geometry.cpp:160-163 | For distances 1, 1, -1, the crossing between vertices 1 and 2 is missed, and only vertex 1 and the closing crossing are produced. |
| Clipping.Clip | Geometry.cpp:147-177 | The clipped polygon has size 0 (built with Add). Vertex j is step j realised: a kept vertex itself or the crossing of the segment it names. There are none when numVert <= 1. |
| Clipping.ClipAllInside | Geometry.cpp:147-177 | A polygon entirely inside comes back as every vertex but vertex 0, in order. |
| Clipping.ClipAllOutside | Geometry.cpp:147-177 | A polygon entirely outside comes back empty. |
| Clipping.AllInsideLoop | Geometry.cpp:154-166 | With every distance inside, the loop copies vertices 1..k-1 and crosses nowhere. |
| Clipping.ClipAssign | Geometry.cpp:207 | `p = p.Clip(pl)`: Clip followed by operator=, so the result is always well formed (numVert within the vertex count). |
| Clipping.StagesTakeTheClip | Geometry.cpp:202-213 | Every stage ClipPoly runs on a well-formed polygon sees a well-formed polygon, and a non-empty one takes ClipAssign's Clip branch: the fallback is never used. |
| Clipping.RunStages | Geometry.cpp:202-213 | The stage loop runs 1 to 6 stages in order. It stops at the first result of size 0 or after the sixth, and every earlier stage was non-empty. |
| Clipping.ClipPoly | Geometry.cpp:199-215 | An empty polygon is returned unchanged after no stage. Otherwise the result is the polygon after the stages run, which stop at the first empty one or after six. The result is well formed. |
| Clipping.ClipBBox | Geometry.cpp:219-238 | The box is visible iff for some plane neither corner is PS_OUT. The early return never fires. |
| MeshData.ReadTriangle | Mesh.cpp:184-193 | One triangle appends exactly its three indices, each truncated to 16 bits, and keeps the earlier ones. |
| MeshData.ReadTriangles | Mesh.cpp:113-117 | numTris triangles give 3 * numTris indices, triangle t at positions 3t .. 3t+2. |
| MeshData.MingleData | Mesh.cpp:196-228 | Nothing changes when both arrays exist. Otherwise nIndex = \|vTris\|, nVert = \|vVert\| / 3 mod 2^16, the index array is vTris and vertex i comes from floats 3i .. 3i+2. The copy overruns once vTris reaches 2^16 entries. |
| MeshData.EdgeList | Mesh.cpp:261-272 | There are 3 * floor(n / 3) edges: a->b, b->c, c->a per triangle, tagged with the triangle number, unmarked. Each edge ends where the next edge of its triangle starts. |
| MeshData.GenEdgeList | Mesh.cpp:261-272 | The edges are Added to a default qArr: the list is returned, equal to EdgeList, exactly when it has fewer than 2^15 edges. From the 2^15-th edge the capacity has wrapped and the result is a buffer overrun. |
| MeshData.EndsAreStarts | Mesh.cpp:266-269 | Every edge's end vertex is the start vertex of an edge of the list. |
| Silhouette.Cmp | qEngine.cpp:687-706 | edge_cmp_f returns -1, 0 or 1, and 0 exactly when both ends agree. Its partner is Silhouette.CmpIsLexicographic. |
| Silhouette.CmpIsLexicographic | qEngine.cpp:687-706 | edge_cmp_f returns -1, 0 or 1 with the sign of the (p1, p2) key difference. It is 0 iff both ends agree, antisymmetric and transitive, and ignores tri and marked. |
| Silhouette.InsertEdge | qEngine.cpp:791 | Inserting into a sorted list keeps it sorted and adds exactly the new edge to the multiset. |
| Silhouette.SortEdges | qEngine.cpp:791 | Every edge list has a qsort outcome: a sorted permutation of it. |
| Silhouette.Allocate | qEngine.cpp:730-733 | The index block is maxIndex zeroed ints followed by the two uncleared words after the block. |
| Silhouette.IndexLoop | qEngine.cpp:735-740 | The loop succeeds iff every origin stays within slot maxIndex, and it never writes the word after the block. |
| Silhouette.Indexing | qEngine.cpp:725-741 | An existing index is returned as is. An empty list fails at Last. Otherwise the table has maxIndex + 2 slots. |
| Silhouette.IndexLoopSlots | qEngine.cpp:735-740 | A non-zero slot keeps its value. A zero slot ends with the first position >= 1 of its origin vertex, or 0. |
| Silhouette.IndexingSorted | qEngine.cpp:727-740 | On a sorted list, each vertex other than the head gets its first position, or 0 iff it has no edge. The head vertex gets 1 or 0. A non-zero stray word survives, and the following word is untouched. |
| Silhouette.HasTwin | qEngine.cpp:757-764 | The test succeeds iff the index slots and the scanned range are in bounds. It is true iff index[p2] != 0 and the range [index[p2], index[p2 + 1]) holds an edge ending at p1. |
| Silhouette.PruneLoop | qEngine.cpp:753-770 | The loop fails iff some edge's twin test fails, and it keeps at most n edges. |
| Silhouette.PruneLoopSubsequence | qEngine.cpp:753-770 | The survivors form an order-preserving subsequence of the list. |
| Silhouette.PruneLoopMembers | qEngine.cpp:753-770 | An edge survives iff its twin test is true. |
| Silhouette.Prune | qEngine.cpp:746-771 | An empty list without an index fails at Last. The output is the twin loop's survivors (Added to the `processed` array), never longer than the input, and the index returned is the one R_SilIndexing builds. |
| Silhouette.PruneSurvivorsFit | qEngine.cpp:753-768 | For fewer than 2^15 edges the `processed` array never overflows: R_SilPrune fails only where indexing or a twin test fails. |
| Silhouette.PruneKeepsTwinned | qEngine.cpp:746-771 | R_SilPrune keeps exactly the twinned edges, in their original order. |
| Silhouette.HeadEdgeInvisible | qEngine.cpp:737 | When the first two sorted edges share an origin a, slot a reads 1, so the twin scan for an edge ending at a never sees position 0. |
| Silhouette.FindFrom | qEngine.cpp:775-783 | The scan answers the tri of the first edge in [j, hi) ending at ea.p1, or -1 when there is none. It cannot fail on an in-bounds range. |
| Silhouette.FindOtherTri | qEngine.cpp:773-784 | The scan covers [index[ea.p2], index[ea.p2 + 1]). A slot beyond the table is a buffer overrun. |
| Silhouette.FindOtherTriInRange | qEngine.cpp:773-784 | On an in-bounds range, R_SilFindOtherTri returns the first neighbouring triangle, or -1. |
| Silhouette.RecordLoop | qEngine.cpp:797-810 | The loop writes at most one record per edge and never more than there is room for. |
| Silhouette.RecordLoopOnePerEdge | qEngine.cpp:797-810 | With no marked edge, each edge yields one record in order: p1 = tri, p2 = other triangle, v1 = p1, v2 = p2. |
| Silhouette.PrunedEdges | qEngine.cpp:788-795 | A mesh with fewer than three indices has no edges and fails at Last. A mesh with 2^15 edges or more faults in GenEdgeList. Otherwise the result is R_SilPrune's on the sorted list. |
| Silhouette.FillEdge | qEngine.cpp:788-811 | R_SilFillEdge fails at Last on fewer than three indices. Success implies the pruning succeeded. |
| Silhouette.FillEdgeOneRecordPerPrunedEdge | qEngine.cpp:797-810 | R_SilFillEdge writes exactly one record per pruned edge, both directions of a shared edge included, and at most numIndex records. |
| Silhouette.PrunedEdgesUnmarked | qEngine.cpp:795-799 | The pruned list holds at most numIndex edges and none of them is marked. |
| Silhouette.SortedEdgesUnmarked | qEngine.cpp:809 | No edge reaching the record loop is marked, since marked is only set on a local copy. |
| Silhouette.FacingOf | qEngine.cpp:665-671 | The facing byte is computable iff the triangle's three vertex indices are in range. |
| Silhouette.FacingLoop | qEngine.cpp:664-672 | One facing byte per triangle, each the triangle's own facing byte. |
| Silhouette.CullFacing | qEngine.cpp:657-673 | No array for numIndex <= 0, otherwise numIndex / 3 bytes. |
| Silhouette.FacingAlwaysZero | qEngine.cpp:662-672 | Because the three-point plane's normal is zero, every facing byte is 0. |
| Silhouette.GetSilhouette | qEngine.cpp:814-832 | NULL for a missing entity or light. A result consists of R_SilFillEdge's records and R_SilCullFacing's bytes. |
| Silhouette.GetSilhouetteNeverNullForLoadedInputs | qEngine.cpp:826-829 | For an entity and a light, the NULL-facing branch is unreachable. A mesh with fewer than three indices stops at Last. |
| SilhouetteCases.QuadIndexing | qEngine.cpp:725-741 | A quad's index: slot 0 reads 1, and slot maxIndex keeps a non-zero stray word. |
| SilhouetteCases.QuadPrune | qEngine.cpp:746-771 | Pruning the quad keeps both directions of its diagonal. |
| SilhouetteCases.QuadFillEdgeFails | qEngine.cpp:795 | The index built before pruning is reused on the pruned list at qEngine.cpp:808, so the quad's twin lookup reads past the two-edge list. |
| SilhouetteCases.PairLosesOneDirection | qEngine.cpp:737 | The 0 sentinel drops one direction of an edge shared by two triangles. |
| QArray.New | qArr.h:47-52 | A new array is empty with capacity 4 and satisfies the invariant. |
| QArray.NewHint | qArr.h:55-60 | An array built from a hint is empty with capacity max(hint, 4). |
| QArray.Grow | qArr.h:116-121 | Doubling below 2^15, wrapping modulo 2^16 from 2^15 on, and 0xfffe from 0xefff on. |
| QArray.GrowWraps | qArr.h:116-121 | 0x8000 grows to 0, and every grown capacity is even. |
| QArray.Add | qArr.h:77-87 | Add grows exactly when size + 1 == nrAlloc. A failed realloc drops the element but keeps the doubled nrAlloc. Otherwise e is appended at the old size after the old elements, or the write overruns the real buffer. |
| QArray.AddKeepsInvariant | qArr.h:77-87 | Below 2^15 elements, Add appends and keeps size < nrAlloc with a buffer of nrAlloc elements. |
| QArray.FailedResizeOverruns | qArr.h:79-84 | After a failed resize, the second Add that follows writes past the buffer. |
| QArray.WrapOverruns | qArr.h:116-122 | At size 0x7fff the capacity wraps to 0 and the next write overruns. |
| QArray.AddSeq | qArr.h:93-101 | Adding elements one by one appends them in order on success. The only fault is a buffer overrun. |
| QArray.AddSeqFits | qArr.h:77-87 | Below 2^15 elements in total, adding a sequence to a sound array succeeds and keeps it sound. |
| QArray.AddSeqAbortStays | qArr.h:77-87 | Once adding a prefix has faulted, adding the whole sequence faults. |
| QArray.AddSeqFromNewBelow | qArr.h:47-52 | After k < 2^15 Adds to a default array the capacity is a doubling of 4 above k, backed by a buffer of that size. |
| QArray.AddSeqFromNew | qArr.h:116-122 | Adding to a default array succeeds iff there are fewer than 2^15 elements, and then holds exactly them. |
| QArray.DivSmall | qArr.h:183 | A byte count below the element size moves no whole element and leaves itself as remainder. |
| QArray.AddAll | qArr.h:93-111 | The elements are appended in argument order. Within 2^15 elements this always succeeds and keeps the invariant. |
| QArray.Clear | qArr.h:133-141 | After Clear the array is empty with capacity 4. |
| QArray.Get | qArr.h:145-156 | Defined iff 0 <= i < size, and then it is element i. |
| QArray.Last | qArr.h:171-175 | Defined iff size > 0, and then it is element size - 1. |
| QArray.Remove | qArr.h:180-185 | Defined iff 0 <= n < size. The size drops by one and the elements before n stay. With one-byte elements exactly element n is removed. |
| QArray.RemoveDropsLast | qArr.h:183 | With elements wider than the bytes moved, element n is overwritten and the last element is dropped. |
| QArray.RemoveKeepsInvariant | qArr.h:180-185 | Remove keeps size < nrAlloc. |
| QArray.Assign | qArr.h:158-167 | The copy has the same elements and capacity, and it fails iff size exceeds nrAlloc. |
| QArray.AssignCopies | qArr.h:158-167 | A copy of a valid array is valid and equal element for element. |
| QArray.Replace | qArr.h:191-210 | An empty other is Clear. Otherwise the elements become other's. The growing path fits iff other's size is at most nrAlloc / elemSize. |
| QArray.ReplaceBytesNotElements | qArr.h:203-209 | The shrinking and same-size paths keep the invariant. The growing path overruns once other's size times elemSize exceeds nrAlloc. |
| QStr.FromPrefix | String.cpp:15-25 | qStr(s, l) is a prefix of s: the first l characters when 0 < l <= strlen(s), otherwise all of s. |
| QStr.Equals | String.cpp:153-162 | operator== is false for NULL, otherwise equal lengths and equal characters. |
| QStr.EqualsIsEquality | String.cpp:153-162 | operator== is string equality. |
| QStr.Concat | String.cpp:81-113 | The result is the old characters followed by s. |
| QStr.ConcatSelfInt | String.cpp:100-106 | ConcatSelf(int) returns the string unchanged. Its partner is QStr.ConcatSelfIntAppendsNothing. |
| QStr.ConcatSelfIntAppendsNothing | String.cpp:100-106 | ConcatSelf(int) leaves the string unchanged, although the discarded concatenation differs from it. |
| QStr.Insert | String.cpp:261-271 | The result is the prefix followed by the old characters. It is unchanged for NULL. |
| QStr.InsertIsConcatOntoPrefix | String.cpp:261-271 | Insert(prefix) equals concatenating the string onto the prefix. |
| QStr.ToLower | String.cpp:57-67 | The length is kept, no upper-case letter remains, and only upper-case letters change. |
| QStr.ToUpper | String.cpp:69-79 | The length is kept, no lower-case letter remains, and only lower-case letters change. |
| QStr.CaseMappingIdempotent | String.cpp:57-79 | Each mapping is idempotent, and either mapping after the other equals the latter alone. |
| QStr.Contains | String.cpp:115-125 | True iff s occurs at a start below len - strlen(s). |
| QStr.ContainsMissesSuffix | String.cpp:115-125 | A match found is a real occurrence. An occurrence only as a suffix is missed, a string does not contain itself, and "" is found in every non-empty string. |
| QStr.EndsWith | String.cpp:127-139 | True iff s is no longer and all of s but its last character matches the end of the string. |
| QStr.EndsWithIgnoresLastCharacter | String.cpp:127-139 | Every real suffix is recognised, and every one-character string counts as a suffix of a non-empty string. |
| QStr.ConcatEndsWith | String.cpp:108-139 | What Concat appends, EndsWith recognises. |
| QStr.RemoveQuotes | String.cpp:169-182 | It is defined iff the string has a non-quote character. The result is the infix between the leading and trailing quote runs, and it starts and ends with a non-quote. |
| QStr.RemoveQuotesIdempotent | String.cpp:169-182 | Removing quotes twice removes nothing more. |
| QStr.GetFileName | String.cpp:185-201 | The result is a prefix of the last path component with no separator. It is the whole component iff the component has no '.' or starts with one, and otherwise it stops at the first '.'. |
| QStr.GetFileExtension | String.cpp:218-233 | "" for strings of at most one character or without '.'. Otherwise it is the dot-free text after the last '.'. |
| QStr.AppendExtension | String.cpp:235-244 | Unchanged for NULL or "". Otherwise the string followed by the extension, with a '.' added unless the extension starts with one. |
| QStr.AppendThenGetExtension | String.cpp:218-244 | Appending a dot-free extension and reading it back gives that extension. |
| Lexer.IsWhite | File.cpp:123-127 | A byte is white exactly when it is one of the ten separators newline, space, tab, NUL, carriage return, ( ) ; : and comma. Lexer.SkipWS and Lexer.ReadToken are stated through it. |
| Lexer.SkipWS | File.cpp:116-121 | The cursor moves to the first non-white byte at or after it, or to ptrEnd. |
| Lexer.Open | File.cpp:105-114 | A new lexer's cursor starts at ptrBeg (UploadToRAM), and its token `currentToken` (File.h:95) is a default qStr whose data pointer is NULL. |
| Lexer.ReadToken | File.cpp:129-145 | At ptrEnd the token is cleared: a NULL token faults, any other becomes empty. Otherwise it is the maximal non-empty non-white run and the cursor ends just after it. A run of 256 bytes or more overruns the buffer. |
| Lexer.MoreToken | File.cpp:147-150 | True iff the cursor is short of ptrEnd. The contract restates the body; its partner is Lexer.MoreTokenBeforeTrailingWhite. |
| Lexer.MoreTokenBeforeTrailingWhite | File.cpp:147-150 | MoreToken (cursor before ptrEnd) holds with only white bytes left, yet the next ReadToken reaches ptrEnd and clears the token instead of reading one. |
| Lexer.WriteableNeedsLaterCharacter | File.cpp:53-58 | The mode is writeable iff a 'w' or 'W' occurs before its last character, so "w" and "rw" are read-only. |
| Lexer.CreateDir | File.cpp:173-194 | mkdir is called on every prefix ending before a '/', left to right and strictly growing, and then on the whole path. |
| Matrix.ZeroMat | Math.h:279-280 | A default matrix is square with all entries 0. |
| Matrix.Mat3FromArgs | Math.h:282-288 | The argument for row r, column c is stored at mat[c][r]. |
| Matrix.Mat4FromArgs | Math.h:462-470 | The 3 x 3 block is column-major, but the fourth argument row lands in column 3 and the fourth argument column in row 3. |
| Matrix.Mat4FromArray | Math.h:480-486 | mat[c][r] = m[4c + r]: the array is read column by column. The contract restates the body; its partner is Matrix.Mat4ArgsAgreeWithArrayOnlyWhenSymmetric. |
| Matrix.Mat4ArgsAgreeWithArrayOnlyWhenSymmetric | Math.h:462-486 | The array constructor reads the array column by column, so on the same sixteen numbers the argument constructor yields its transpose iff the fourth argument row repeats the fourth argument column. |
| Matrix.Transpose | Math.h:324-332 | ret[i][j] = mat[j][i]. The contract restates the body; its partner is Matrix.TransposeInvolution. |
| Matrix.TransposeInvolution | Math.h:324-332 | Transpose swaps rows and columns (ret[i][j] = mat[j][i]), so transposing twice gives the matrix back. |
| Matrix.TransposeSelfIsNoOp | Math.h:334-338 | TransposeSelf leaves the matrix unchanged, which differs from its transpose whenever the matrix is not symmetric. |
| Matrix.Ident | Math.h:318-322 | The diagonal becomes 1 and every other entry is kept. |
| Matrix.IdentOfZeroIsIdentity | Math.h:506-510 | Ident on a default matrix gives the identity, and Ident is idempotent. |
| Matrix.Determinant3 | Math.h:381-387 | Expansion along the first column's entries: the identity has determinant 1, and a matrix whose column 0 is zero has determinant 0. Its partners are Matrix.InverseDetIsDeterminant and Matrix.AdjugateProduct. |
| Matrix.InverseDetIsDeterminant | Math.h:394-397 | The determinant Inverse tests equals Determinant. |
| Matrix.Inverse3 | Math.h:389-418 | Near-singular matrices come back unchanged. Otherwise column 0 is the first cofactors divided by the determinant. |
| Matrix.SingularInverseIsItself | Math.h:398-401 | A matrix with \|det\| <= MI_EPSILON is its own "inverse". |
| Matrix.InverseOfIdentityIsWrong | Math.h:405 | The identity's inverse as computed has entry [1][1] = 0, so it is not an inverse. |
| Matrix.AdjugateProduct | Math.h:381-387 | A matrix times its adjugate is its determinant times the identity. |
| Matrix.Inverse3CorrectedIsInverse | Math.h:389-418 | With entry [1][1] corrected, Inverse is a right inverse whenever \|det\| > MI_EPSILON. |
| Entities.Identity4 | Entity.cpp:9 | The matrix a new entity starts with is the 4 x 4 identity. |
| Entities.NewEntity | Entity.cpp:4-10 | A new entity takes the counter as its id, starts from the identity, and the counter goes up by one. |
| Entities.Construct | Entity.cpp:4-10 | k constructions give ids next .. next + k - 1 with identity matrices. |
| Entities.IdsFromZeroAreDistinct | Entity.cpp:4-6 | Entities constructed from program start get ids 0, 1, 2, ..., pairwise distinct. |
| Entities.MoveTo | Entity.cpp:12-17 | The position goes into [3][0..2], and nothing else changes. |
| Entities.MoveToOverrides | Entity.cpp:12-17 | Moving twice is moving to the second position. |
| Entities.Scale | Entity.cpp:19-24 | The diagonal [0][0], [1][1], [2][2] is multiplied by the factor components, and nothing else changes. |
| Entities.ScaleKeepsTranslation | Entity.cpp:19-24 | Scaling keeps the translation MoveTo wrote, and scaling by (1, 1, 1) keeps the identity. |
| Entities.RightMul4 | Math.h:583-594 | a.RightMul(b) is the product a * b: entry [c][r] is row r of a dotted with column c of b. |
| Entities.RightMulIdentity | Math.h:583-594 | Right-multiplying by the identity gives the matrix back. |
| Entities.IdentityRightMul | Math.h:583-594 | The identity right-multiplied by a matrix gives that matrix. |
| Entities.Put | Entity.cpp:34-37 | Writing rot[c][r] sets that entry and keeps the other fifteen. |
| Entities.AxisPlane | Entity.cpp:34-61 | The coordinate pair a branch writes: (1, 2) for x, (0, 2) for y, (0, 1) for z, never the axis itself. |
| Entities.AxisMatrix | Entity.cpp:32-61 | One branch's rot: the diagonal outside the plane is 1, the plane holds cos / ±sin as written, and every other off-diagonal entry is whatever rot held before. |
| Entities.CleanAxis | Entity.cpp:32-61 | The same branch on a fresh Mat4: every off-diagonal entry outside the plane is 0. |
| Entities.CleanAxisOfZeroAngle | Entity.cpp:32-61 | With cos 1 and sin 0 the single-axis matrix is the identity. |
| Entities.RotateStage | Entity.cpp:31-40 | An angle exactly 0 changes neither the matrix nor rot. Any other refills rot for the axis and right-multiplies the matrix by it. |
| Entities.Rotate | Entity.cpp:27-65 | The id is kept. A zero angle changes nothing. An x-only angle right-multiplies by the rotation about x alone. |
| Entities.RotateAgreesOnOneAxis | Entity.cpp:27-65 | With at most one non-zero angle, Rotate is the intended rotation. |
| Entities.RotateAboutXThenZ | Entity.cpp:29-61 | For angles (x, 0, z) the z branch multiplies by a rot that still carries the x branch's entries. |
| Entities.ProductEntryTwoTwo | Math.h:583-594 | Entry [2][2] of a product whose right factor has column 2 equal to (0, u, 1, 0). |
| Entities.FreshAboutXThenZ | Entity.cpp:27-65 | The intended rotation by (x, 0, z) is the rotation about x followed by the rotation about z. |
| Entities.RotateCarriesEarlierAxes | Entity.cpp:29 | For a new entity and a right angle x, Rotate((x, 0, z)) has entry [2][2] = cos x - 1, where the intended rotation has cos x. |
| Entities.RotateFreshAxes | Entity.cpp:27-65 | Each non-zero axis right-multiplies by the rotation about that axis alone, in the order x, y, z. |
| Entities.RotateFreshAxesComposes | Entity.cpp:27-65 | Rotating by (x, y, z) is rotating by x, then by y, then by z. |
| Entities.WithComp | Entity.cpp:73-84 | Replacing one component keeps the other two. |
| Entities.Bound | Entity.cpp:68-85 | Every vertex lies in the box. vmin <= FLT_MAX and vmax >= FLT_MIN, and each bound is either its start value or some vertex's component. |
| Tga.Header | qEngine.cpp:601-608 | 18 bytes: image type 2, pixel depth 32, little-endian width and height modulo 2^16, all else 0. |
| Tga.HeaderRoundTrip | qEngine.cpp:601-608 | A TGA reader recovers type, depth, width and height from the header. |
| Tga.SwapRedBlue | qEngine.cpp:613-620 | Bytes 0 and 2 of each pixel trade places, and bytes 1 and 3 stay. |
| Tga.SwapRedBlueInvolution | qEngine.cpp:613-620 | The exchange applied twice restores the buffer. |
| Tga.ConvertPixels | qEngine.cpp:615-620 | The in-place pixel loop computes the exchange. |
| Tga.PixelCount | qEngine.cpp:595 | The pixel count windowWidth * windowHeight is an unsigned product: the true product below 2^32, never more than it. |
| Tga.PixelCountWraps | qEngine.cpp:595 | A 2^16 by 2^16 window has a pixel count of 0, and 2^16 by (2^16 + 1) has 2^16. |
| Tga.WriteCount | File.cpp:197-203 | File::Write's int count: the pixel count itself below 2^31, and from there on a negative value congruent to it modulo 2^32. |
| Tga.WriteCountTurnsNegative | qEngine.cpp:621 | A 2^16 by 2^15 window has 2^31 pixels, which File::Write receives as -2^31. |
| Tga.Snapshot | qEngine.cpp:595-621 | BufferOverrun exactly when the wrapped pixel count is 2^31 or more, because Write's count turns negative and fwrite reads past the buffer. Otherwise the file is the header followed by the exchanged colour buffer, 18 + 4 * PixelCount(width, height) bytes long. |
| EngineState.AddLight | qEngine.cpp:625-637 | The counter goes up. An empty list becomes [l]. Re-adding the head leaves the chain as it was. Otherwise the head is followed by l and l's old successors, and the rest of the list is unlinked. |
| EngineState.AddHeadAgainCountsTwice | qEngine.cpp:625-637 | Adding the head light again links nothing new, yet the counter counts it twice. |
| EngineState.AddLightLosesChain | qEngine.cpp:625-637 | After adding three lights whose next pointer reads NULL, the chain holds two while numLights says 3. |
| EngineState.GetDefaultLight | qEngine.cpp:639-647 | NULL iff no light has id 0. Otherwise it is the first light with id 0. |
| EngineState.AddedDefaultIsFound | qEngine.cpp:625-647 | A default light added behind a non-default head is found. |
| EngineState.FirstFree | qEngine.cpp:293-294 | The first empty slot at or after `from`, or the slot count when all are taken. |
| EngineState.LoadCameraPath | qEngine.cpp:285-308 | Unchanged for an empty name, zero frames or full slots. Otherwise the first empty slot gets the path. |
| EngineState.LoadFillsInOrder | qEngine.cpp:293-307 | Paths fill slots 0, 1, 2, ... in order. |
| EngineState.SetCurrentCameraPath | qEngine.cpp:310-318 | Ignored outside [0, 15). Otherwise the current path becomes the slot, possibly NULL. |

## Left out

- OpenGL rendering, file and directory I/O (fopen, mkdir itself, UploadToRAM), logging, timers, SDL and the other platform code are not modelled. The model returns what such calls would be handed, e.g. the mkdir paths of `CreateDir`.
- Memory management: malloc, calloc and free are taken to succeed. Only `realloc` in `qArr::Resize` may fail (a parameter), and leaks are not tracked.
- Floats are modelled as exact reals. Rounding, `sqrt`, `cos`/`sin` and the Poly::Clip interpolation are supplied by the caller. `Cut` holds a distance function and a crossing function, `Rotate` takes `cos` and `sin` as the functions in `Trig`, and `PlaneFromPoints`/`FacingOf` take Normalize's reciprocal length. `Plane::Side` uses the real absolute value.
- Silhouette.QsortResult: qsort's outcome is taken as a parameter satisfying "sorted permutation", because the C library's qsort is not part of this model. `SortEdges` shows such an outcome exists.
- Silhouette.Allocate: the two words past the index block are unknown memory. Their contents are the parameters `stray` and `past`.
- Silhouette.GetSilhouette: the entity pointer stored in silhouette_t is not modelled.
- Lexer.ReadToken: the model assumes no precondition on the token length. An overrun of the 256-byte buffer is the `Abort(BufferOverrun)` result, not a crash. File bytes are modelled as characters.
- Lexer.CreateDir: the Windows branch with `\\` separators is not modelled, and neither are the `_WIN32` parts of qStr (GetWideStr, GetCStr, IsAbsolutePath's drive check) or AdjustSep.
- qStr::IsOnlyFileName is not modelled: it never advances its pointer and does not terminate on ordinary input.
- QStr.ConcatSelfIntAppendsNothing: sprintf's formatting is modelled by a decimal digit function, without the 256-character limit of its buffer `sNum`.
- QArray.Remove: when the byte count moved is not a multiple of the element size, the mixed element is the parameter `blend`, since its bytes depend on the element representation.
- QArray.Add: the varargs reading of `Add(n, ...)` is modelled as a sequence of elements.
- QArray.AddSeq: every realloc is taken to succeed. After the capacity wraps to 0, the model stops at the first write. It does not say what `realloc(data, 0)` returns.
- Silhouette.PrunedEdges: GenEdgeList's fault is reported before the sort and the pruning. The source would have gone on writing past the buffer.
- Lexer.WriteableNeedsLaterCharacter: `Writeable` has no contract of its own. This lemma characterises it.
- Matrix.TransposeSelfIsNoOp: `TransposeSelf` has no contract of its own. This lemma states what it does.
- MeshData.MingleData: texture coordinates and CalcNormal (float normals) are not modelled. vText only has to pass the size assertion.
- EngineState.LoadCameraPath: parsing the camera-path file and ExpandPath are not modelled. The frame count they produce is the parameter `frames`.
- EngineState.AddLight: light fields other than `id` are not modelled.
- EngineState.AddLightLosesChain: the loader mallocs each light and never sets `next`, so what AddLight reads there is unknown memory. `lTail` stands for the chain it reaches, and the lemma takes the case where it is NULL.
- Tga.Snapshot: glReadPixels is a foreign call. It fills a width * height * 4 byte region, which is larger than the calloc'd buffer once the product wraps. The model takes `colour` to be the PixelCount(width, height) * 4 bytes of that buffer and does not model the overrun. File::Write takes an int count, so a pixel count of 2^31 or more turns negative and fwrite reads past the buffer; the model reports that as `Abort(BufferOverrun)` and does not model the header already written to the file.
- Matrix.Inverse3: only the formulae are modelled, not the float rounding of `1 / det`. Mat4 Determinant, Add/Sub and Mat3 Add/Sub are not modelled.
- Entity::GetPosition, the Quaternion, Timer, CameraPath and WorldDB files and Mesh::LoadMD5's weight blending are not part of this model.

## Findings

| source | as written | input that shows it | evidently intended | confidence | as-written member | corrected member |
|---|---|---|---|---|---|---|
| Math.h:405 | `inverse[1][1] = mat[0][1]*mat[2][2] - mat[0][2]*mat[2][0]` | the 3 x 3 identity: determinant 1, computed inverse[1][1] = 0 | `mat[0][0]*mat[2][2] - mat[0][2]*mat[2][0]`, the cofactor of mat[1][1], so that m * Inverse(m) = I | high (not executed) | Matrix.InverseOfIdentityIsWrong | Matrix.Inverse3CorrectedIsInverse |
| Entity.cpp:29 | one `Mat4 rot` is shared by the three branches, and `Ident` resets only its diagonal | a new entity rotated by (x, 0, z) with sin x = 1: the z matrix still holds rot[1][2] = 1 and rot[2][1] = -1, so entry [2][2] comes out as cos x - 1 | a fresh rotation matrix per axis, so that rotating by (x, y, z) is rotating about x, then y, then z | high (not executed) | Entities.RotateCarriesEarlierAxes | Entities.RotateFreshAxes |

=== FILE: clipping.dfy ===
/** Poly and Frustum of Geometry.h / Geometry.cpp: one-plane polygon
    clipping and its six-plane driver, and the quick box test.

    Vertices are of an arbitrary type `V`.  Poly::Clip measures each vertex
    against the plane with n . (v - q), where q = n * sqrt(dist), and places a
    crossing point with a linear interpolation; both are floating-point
    numerics, so a `Cut` carries them as functions and this module models
    only the decisions taken on their results. */
module Clipping {
  import opened Geometry

  /** Poly: the vertex vector and the separately kept count numVert. */
  datatype Poly<V> = Poly(vert: seq<V>, numVert: int)

  /** Every constructor and operator= keeps 0 <= numVert <= |vert|. */
  predicate WellFormed<V>(p: Poly<V>) { 0 <= p.numVert <= |p.vert| }

  /** Poly(vertices) */
  function FromVertices<V>(vs: seq<V>): (p: Poly<V>)
    ensures p.vert == vs && Size(p) == |vs| && WellFormed(p)
  {
    Poly(vs, |vs|)
  }

  /** Poly() */
  function EmptyPoly<V>(): (p: Poly<V>)
    ensures p.vert == [] && Size(p) == 0 && WellFormed(p)
  {
    Poly([], 0)
  }

  /** Poly::Size returns numVert, not the vector's length. */
  function Size<V>(p: Poly<V>): (n: int)
    ensures n == p.numVert
  {
    p.numVert
  }

  /** Poly::Add pushes a vertex but leaves numVert alone. */
  function AddVertex<V>(p: Poly<V>, v: V): (r: Poly<V>)
    ensures r.vert == p.vert + [v]
    ensures Size(r) == Size(p)
    ensures WellFormed(p) ==> WellFormed(r)
  {
    Poly(p.vert + [v], p.numVert)
  }

  /** Poly::operator= copies the vertices and recounts them. */
  function Assign<V>(other: Poly<V>): (r: Poly<V>)
    ensures r.vert == other.vert
    ensures Size(r) == |other.vert|
    ensures WellFormed(r)
  {
    Poly(other.vert, |other.vert|)
  }

  /** After Add, Size no longer counts the vertices; operator= repairs it. */
  lemma AddThenAssign<V>(v0: V, v1: V)
    ensures Size(AddVertex(FromVertices([v0]), v1)) == 1
    ensures Size(Assign(AddVertex(FromVertices([v0]), v1))) == 2
  {
  }

  /** One plane as Poly::Clip sees it: the signed distance of a vertex and
      the crossing point between two vertices given their distances. */
  datatype Cut<!V> = Cut(dist: V -> real, cross: (V, V, real, real) -> V)

  /** What Poly::Clip appends, in order: the crossing point on the segment
      from vertex i-1 to vertex i (i == n stands for the closing segment
      from n-1 to 0), or a copy of vertex i. */
  datatype Step = Crossed(i: int) | Kept(i: int)

  /** The loop test for a crossing at vertex i (2 <= i < n): the distance of
      the previous vertex times the distance of VERTEX 0, not of vertex i.
      (At i == 1 the previous distance is still its initial 0.) */
  predicate LoopCrosses(d: seq<real>, i: int)
    requires 1 <= i < |d|
  {
    i >= 2 && d[i - 1] * d[0] < -Epsilon
  }

  /** The closing test after the loop, for n vertices. */
  predicate CloseCrosses(d: seq<real>, n: int)
    requires 1 <= n <= |d|
  {
    n >= 2 && d[n - 1] * d[0] < -Epsilon
  }

  /** The order in which Poly::Clip emits steps: the crossing into vertex
      i comes before the copy of vertex i, and both before anything of
      vertex i+1. */
  function Rank(st: Step): int {
    match st
    case Crossed(i) => 2 * i
    case Kept(i) => 2 * i + 1
  }

  predicate InOrder(s: seq<Step>) {
    forall j :: 0 <= j < |s| - 1 ==> Rank(s[j]) < Rank(s[j + 1])
  }

  /** The steps of the loop body for vertex i. */
  function StepsAt(d: seq<real>, i: int): seq<Step>
    requires 1 <= i < |d|
  {
    (if LoopCrosses(d, i) then [Crossed(i)] else []) + (if d[i] > Epsilon then [Kept(i)] else [])
  }

  /** The steps the loop of Poly::Clip takes for vertices 1..k-1. */
  function LoopSteps(d: seq<real>, k: int): (s: seq<Step>)
    requires 1 <= k <= |d|
    decreases k
    ensures |s| <= 2 * (k - 1) && (k >= 2 ==> |s| <= 2 * k - 3)
    ensures forall j :: 0 <= j < |s| ==> 1 <= s[j].i < k && (s[j].Crossed? ==> 2 <= s[j].i)
    ensures InOrder(s)
  {
    if k == 1 then []
    else
      var prev := LoopSteps(d, k - 1);
      var s := prev + StepsAt(d, k - 1);
      assert forall j :: 0 <= j < |s| - 1 ==> Rank(s[j]) < Rank(s[j + 1]) by {
        forall j | 0 <= j < |s| - 1 ensures Rank(s[j]) < Rank(s[j + 1]) {
          if j < |prev| - 1 {
            assert s[j] == prev[j] && s[j + 1] == prev[j + 1];
          } else if j == |prev| - 1 {
            assert s[j] == prev[j];
          }
        }
      }
      s
  }

  /** The loop copies vertex i exactly when 1 <= i < k and its distance
      exceeds MI_EPSILON. */
  lemma {:induction false} LoopKeeps(d: seq<real>, k: int, i: int)
    requires 1 <= k <= |d|
    ensures Kept(i) in LoopSteps(d, k) <==> 1 <= i < k && d[i] > Epsilon
    decreases k
  {
    if k > 1 {
      LoopKeeps(d, k - 1, i);
      var prev := LoopSteps(d, k - 1);
      var at := StepsAt(d, k - 1);
      assert LoopSteps(d, k) == prev + at;
      assert Kept(i) in prev + at <==> Kept(i) in prev || Kept(i) in at;
      assert Kept(i) in at <==> i == k - 1 && d[k - 1] > Epsilon;
    }
  }

  /** The loop takes a crossing at i exactly when 2 <= i < k and the test
      against vertex 0's distance holds. */
  lemma {:induction false} LoopCrossings(d: seq<real>, k: int, i: int)
    requires 1 <= k <= |d|
    ensures Crossed(i) in LoopSteps(d, k) <==> 1 <= i < k && LoopCrosses(d, i)
    decreases k
  {
    if k > 1 {
      LoopCrossings(d, k - 1, i);
      var prev := LoopSteps(d, k - 1);
      var at := StepsAt(d, k - 1);
      assert LoopSteps(d, k) == prev + at;
      assert Crossed(i) in prev + at <==> Crossed(i) in prev || Crossed(i) in at;
      assert Crossed(i) in at <==> i == k - 1 && LoopCrosses(d, k - 1);
    }
  }

  /** All the steps of Poly::Clip on the first n of the distances d. */
  function ClipSteps(d: seq<real>, n: int): (s: seq<Step>)
    requires 1 <= |d| && n <= |d|
  {
    if n <= 1 then []
    else LoopSteps(d, n) + (if CloseCrosses(d, n) then [Crossed(n)] else [])
  }

  /** Poly::Clip on n vertices copies vertex i exactly when 1 <= i < n and
      its distance exceeds MI_EPSILON; in particular vertex 0 is never
      copied. */
  lemma ClipKeeps(d: seq<real>, n: int, i: int)
    requires 1 <= n <= |d|
    ensures Kept(i) in ClipSteps(d, n) <==> 1 <= i < n && d[i] > Epsilon
  {
    if n > 1 {
      LoopKeeps(d, n, i);
      assert ClipSteps(d, n) == LoopSteps(d, n) + (if CloseCrosses(d, n) then [Crossed(n)] else []);
    }
  }

  /** Poly::Clip on n vertices takes a crossing at i < n exactly when the
      loop test (previous distance times vertex 0's) holds, and at n exactly
      when the closing test holds. */
  lemma ClipCrossings(d: seq<real>, n: int, i: int)
    requires 1 <= n <= |d|
    ensures i < n ==> (Crossed(i) in ClipSteps(d, n) <==> 1 <= i && LoopCrosses(d, i))
    ensures i == n ==> (Crossed(i) in ClipSteps(d, n) <==> CloseCrosses(d, n))
    ensures i > n ==> Crossed(i) !in ClipSteps(d, n)
  {
    if n > 1 {
      LoopCrossings(d, n, i);
      assert ClipSteps(d, n) == LoopSteps(d, n) + (if CloseCrosses(d, n) then [Crossed(n)] else []);
    }
  }

  /** Poly::Clip on n >= 1 vertices takes at most 2n-2 steps, all about
      vertices 1..n-1 or the closing segment, in vertex order. */
  lemma ClipStepsShape(d: seq<real>, n: int)
    requires 1 <= n <= |d|
    ensures var s := ClipSteps(d, n);
            && |s| <= 2 * n - 2
            && (forall j :: 0 <= j < |s| ==> (s[j].Kept? ==> 1 <= s[j].i < n) && (s[j].Crossed? ==> 2 <= s[j].i <= n))
            && InOrder(s)
  {
    var s := ClipSteps(d, n);
    if n > 1 {
      var loop := LoopSteps(d, n);
      var tail := if CloseCrosses(d, n) then [Crossed(n)] else [];
      assert s == loop + tail;
      assert InOrder(s) by {
        forall j | 0 <= j < |s| - 1 ensures Rank(s[j]) < Rank(s[j + 1]) {
          if j < |loop| - 1 {
            assert s[j] == loop[j] && s[j + 1] == loop[j + 1];
          } else {
            assert s[j] == loop[j];
          }
        }
      }
    }
  }

  /** A crossing that the loop misses: vertices at distances 1, 1, -1 (only
      the last one outside).  The segment from vertex 1 to vertex 2 crosses
      the plane, but 1 * 1 (previous times vertex 0) is positive, so only
      vertex 1 and the closing crossing are produced. */
  lemma MissedCrossing()
    ensures ClipSteps([1.0, 1.0, -1.0], 3) == [Kept(1), Crossed(3)]
  {
  }

  /** The vertex a step stands for. */
  function Realise<V>(vs: seq<V>, d: seq<real>, n: int, c: Cut<V>, st: Step): V
    requires |d| == |vs| && 1 <= n <= |vs|
    requires st.Kept? ==> 0 <= st.i < n
    requires st.Crossed? ==> 1 <= st.i <= n
  {
    match st
    case Kept(i) => vs[i]
    case Crossed(i) =>
      if i == n then c.cross(vs[n - 1], vs[0], d[n - 1], d[0])
      else c.cross(vs[i - 1], vs[i], d[i - 1], d[i])
  }

  /** The distances of the vertices to the cut. */
  function Distances<V>(vs: seq<V>, c: Cut<V>): (d: seq<real>)
    ensures |d| == |vs|
    ensures forall i :: 0 <= i < |vs| ==> d[i] == c.dist(vs[i])
  {
    seq(|vs|, i requires 0 <= i < |vs| => c.dist(vs[i]))
  }

  /** Poly::Clip.  It reads vertex 0 unconditionally and vertices up to
      numVert - 1, so the vector must hold at least one and at least numVert
      vertices.  Its result is built with Add, so its numVert is 0. */
  function Clip<V>(p: Poly<V>, c: Cut<V>): (r: Poly<V>)
    requires 1 <= |p.vert| && p.numVert <= |p.vert|
    ensures Size(r) == 0
    ensures var d := Distances(p.vert, c);
            var s := ClipSteps(d, p.numVert);
            |r.vert| == |s| &&
            (p.numVert <= 1 ==> r.vert == []) &&
            (p.numVert >= 1 ==> |r.vert| <= 2 * p.numVert - 2)
    ensures var d := Distances(p.vert, c);
            var n := p.numVert;
            var s := ClipSteps(d, n);
            n >= 2 ==>
              (forall j :: 0 <= j < |s| ==> (s[j].Kept? ==> 1 <= s[j].i < n) && (s[j].Crossed? ==> 2 <= s[j].i <= n)) &&
              (forall j :: 0 <= j < |s| ==> r.vert[j] == Realise(p.vert, d, n, c, s[j]))
  {
    var d := Distances(p.vert, c);
    var n := p.numVert;
    var s := ClipSteps(d, n);
    if n <= 1 then Poly([], 0)
    else
      ClipStepsShape(d, n);
      Poly(seq(|s|, j requires 0 <= j < |s| => Realise(p.vert, d, n, c, s[j])), 0)
  }

  /** Clipping a polygon whose vertices all lie beyond MI_EPSILON on the
      inside keeps every vertex but vertex 0, in order, and adds no crossing. */
  lemma ClipAllInside<V>(p: Poly<V>, c: Cut<V>)
    requires WellFormed(p) && p.numVert == |p.vert| >= 1
    requires forall i :: 0 <= i < |p.vert| ==> c.dist(p.vert[i]) > Epsilon
    ensures Clip(p, c).vert == p.vert[1..]
  {
    var d := Distances(p.vert, c);
    var n := p.numVert;
    if n > 1 {
      AllInsideLoop(d, n);
      PosMul(d[n - 1], d[0]);
      assert ClipSteps(d, n) == LoopSteps(d, n);
    }
  }

  /** Clipping a polygon whose vertices all lie beyond MI_EPSILON on the
      outside leaves no vertex. */
  lemma ClipAllOutside<V>(p: Poly<V>, c: Cut<V>)
    requires WellFormed(p) && p.numVert == |p.vert| >= 1
    requires forall i :: 0 <= i < |p.vert| ==> c.dist(p.vert[i]) < -Epsilon
    ensures Clip(p, c).vert == []
  {
    var d := Distances(p.vert, c);
    var n := p.numVert;
    var s := ClipSteps(d, n);
    ClipStepsShape(d, n);
    if |s| > 0 {
      var st := s[0];
      assert st in s;
      if st.Kept? {
        ClipKeeps(d, n, st.i);
      } else {
        NoCrossingOutside(d, n);
        ClipCrossings(d, n, st.i);
      }
    }
  }

  /** Distances all below -MI_EPSILON give no crossing product. */
  lemma NoCrossingOutside(d: seq<real>, n: int)
    requires 1 <= n <= |d|
    requires forall i :: 0 <= i < |d| ==> d[i] < -Epsilon
    ensures forall i :: 1 <= i < n ==> !LoopCrosses(d, i)
    ensures !CloseCrosses(d, n)
  {
    forall i | 1 <= i < n
      ensures !LoopCrosses(d, i)
    {
      NegMul(d[i - 1], d[0]);
    }
    NegMul(d[n - 1], d[0]);
  }

  lemma NegMul(a: real, b: real)
    requires a < -Epsilon && b < -Epsilon
    ensures !(a * b < -Epsilon)
  {
    assert a * b == (-a) * (-b);
    PosMul(-a, -b);
  }

  lemma PosMul(a: real, b: real)
    requires a > Epsilon && b > Epsilon
    ensures !(a * b < -Epsilon)
  {
    assert a * b >= 0.0 by {
      assert a * b >= 0.0 * b;
    }
  }

  /** With every distance beyond MI_EPSILON the loop copies vertices 1..k-1
      and takes no crossing. */
  lemma {:induction false} AllInsideLoop(d: seq<real>, k: int)
    requires 1 <= k <= |d|
    requires forall i :: 0 <= i < |d| ==> d[i] > Epsilon
    ensures LoopSteps(d, k) == seq(k - 1, j => Kept(j + 1))
    decreases k
  {
    if k > 1 {
      AllInsideLoop(d, k - 1);
      PosMul(d[k - 2], d[0]);
      assert StepsAt(d, k - 1) == [Kept(k - 1)];
    }
  }

  // -------------------------------------------------------------- Frustum

  /** One stage of Frustum::ClipPoly: Poly::Clip by the cut, assigned back
      with operator=.  ClipPoly only reaches it with a non-empty
      well-formed polygon, which has the vertex 0 Clip reads; the guard
      makes the function total, and StagesTakeTheClip shows it is never
      false along the stages. */
  function ClipAssign<V>(q: Poly<V>, c: Cut<V>): (r: Poly<V>)
    ensures WellFormed(r)
  {
    if 1 <= |q.vert| && q.numVert <= |q.vert| then Assign(Clip(q, c)) else Assign(q)
  }

  /** The polygon after the first k stages of `step`: a stage is skipped
      once a result of size 0 appears. */
  function StagesWith<V>(p: Poly<V>, cuts: seq<Cut<V>>, k: nat, step: (Poly<V>, Cut<V>) -> Poly<V>): Poly<V>
    requires k <= |cuts|
    decreases k
  {
    if k == 0 then p
    else
      var q := StagesWith(p, cuts, k - 1, step);
      if Size(q) == 0 then q else step(q, cuts[k - 1])
  }

  /** The polygon after the first k clips of Frustum::ClipPoly. */
  function Stages<V>(p: Poly<V>, cuts: seq<Cut<V>>, k: nat): Poly<V>
    requires k <= |cuts|
  {
    StagesWith(p, cuts, k, ClipAssign)
  }

  /** Every stage ClipPoly runs on a well-formed polygon sees a well-formed
      polygon of non-zero size, so ClipAssign takes its Clip branch there. */
  lemma StagesTakeTheClip<V>(p: Poly<V>, cuts: seq<Cut<V>>, k: nat)
    requires WellFormed(p) && k <= |cuts|
    ensures WellFormed(Stages(p, cuts, k))
    ensures k < |cuts| && Size(Stages(p, cuts, k)) != 0 ==>
              var q := Stages(p, cuts, k);
              1 <= |q.vert| && q.numVert <= |q.vert| && ClipAssign(q, cuts[k]) == Assign(Clip(q, cuts[k]))
  {
  }

  /** The loop of Frustum::ClipPoly for any stage operation: it runs the
      stages in order and stops after the first one whose result has size
      0, or after the sixth. */
  method RunStages<V>(p: Poly<V>, cuts: seq<Cut<V>>, step: (Poly<V>, Cut<V>) -> Poly<V>) returns (r: Poly<V>, stages: nat)
    requires |cuts| == 6 && Size(p) != 0
    ensures 1 <= stages <= 6 && r == StagesWith(p, cuts, stages, step)
    ensures Size(r) == 0 || stages == 6
    ensures forall k :: 0 <= k < stages ==> Size(StagesWith(p, cuts, k, step)) != 0
  {
    r := p;
    var i := 0;
    while i < 6
      invariant 0 <= i <= 6
      invariant r == StagesWith(p, cuts, i, step) && Size(r) != 0
      invariant forall k :: 0 <= k < i ==> Size(StagesWith(p, cuts, k, step)) != 0
    {
      r := step(r, cuts[i]);
      i := i + 1;
      if Size(r) == 0 {
        return r, i;
      }
    }
    stages := 6;
  }

  /** Frustum::ClipPoly.  An empty polygon is returned unchanged; otherwise
      the polygon is clipped by the six cuts in order (near, far, top,
      bottom, left, right), assigned back with operator=, and the loop stops
      at the first result of size 0. */
  method ClipPoly<V>(p: Poly<V>, cuts: seq<Cut<V>>) returns (r: Poly<V>, stages: nat)
    requires |cuts| == 6 && WellFormed(p)
    ensures Size(p) == 0 ==> r == p && stages == 0
    ensures Size(p) != 0 ==> 1 <= stages <= 6 && r == Stages(p, cuts, stages)
    ensures Size(p) != 0 ==> (Size(r) == 0 || stages == 6)
    ensures Size(p) != 0 ==> forall k :: 0 <= k < stages ==> Size(Stages(p, cuts, k)) != 0
    ensures WellFormed(r)
  {
    if Size(p) == 0 {
      return p, 0;
    }
    r, stages := RunStages(p, cuts, ClipAssign);
  }

  /** Frustum::ClipBBox over the six planes.  The side codes are 0..2, so
      d1 * d2 is never below -MI_EPSILON and the early return never fires;
      the box is reported visible exactly when, for some plane, neither
      corner is PS_OUT. */
  method ClipBBox(b: BBox, side: seq<Plane>) returns (visible: bool)
    requires |side| == 6
    ensures visible <==> exists i :: 0 <= i < 6 && Side(side[i], b.min) != PS_OUT && Side(side[i], b.max) != PS_OUT
  {
    var inside := false;
    var i := 0;
    while i < 6
      invariant 0 <= i <= 6
      invariant inside <==> exists k :: 0 <= k < i && Side(side[k], b.min) != PS_OUT && Side(side[k], b.max) != PS_OUT
    {
      var d1 := Side(side[i], b.min);
      var d2 := Side(side[i], b.max);
      assert d1 * d2 >= 0;
      if (d1 * d2) as real < -Epsilon {
        return true;
      }
      inside := inside || (d1 as real > Epsilon && d2 as real > Epsilon);
      i := i + 1;
    }
    visible := inside;
  }
}

=== FILE: engine.dfy ===
/** The small state operations of qEngine.cpp: the light chain (AddLight,
    GetDefaultLight) and the camera-path slots (LoadCameraPath,
    SetCurrentCameraPath). */
module EngineState {
  import opened Outcomes
  import opened QStr

  // ------------------------------------------------------------------ lights

  /** light_t, reduced to its unsigned short id; the shading fields play no
      part in these operations. */
  datatype Light = Light(id: u16)

  /** The engine's list `lights`, head first, as the next pointers link it,
      and the counter numLights. */
  datatype Lights = Lights(chain: seq<Light>, numLights: int)

  /** The engine constructor: no lights. */
  const NoLights: Lights := Lights([], 0)

  /** AddLight(l).  The counter always goes up.  An empty list becomes l
      alone.  Otherwise l is linked after the head and l's own old
      successors (`lTail`, the chain l->next pointed to) follow it, so the
      lights that followed the head are unlinked.  `isHead` says that l is
      the head itself (the same pointer): then head->next = l and
      l->next = first undo each other and the chain stays as it was. */
  function AddLight(ls: Lights, l: Light, lTail: seq<Light>, isHead: bool): (r: Lights)
    ensures r.numLights == ls.numLights + 1
    ensures |ls.chain| == 0 ==> r.chain == [l]
    ensures |ls.chain| > 0 && isHead ==> r.chain == ls.chain
    ensures |ls.chain| > 0 && !isHead ==>
              |r.chain| >= 2 && r.chain[..2] == [ls.chain[0], l] && r.chain[2..] == lTail
  {
    if |ls.chain| == 0 then Lights([l], ls.numLights + 1)
    else if isHead then Lights(ls.chain, ls.numLights + 1)
    else Lights([ls.chain[0], l] + lTail, ls.numLights + 1)
  }

  /** Adding three lights whose next pointer holds NULL when AddLight reads
      it keeps only the first and the last: numLights says 3 while the chain
      holds 2.  The loader mallocs each light_t (WorldDB.cpp:98) and never
      sets next, so an empty `lTail` is the case where that uninitialised
      word happens to be zero; any other value is a `lTail` of its own. */
  lemma AddLightLosesChain(a: Light, b: Light, c: Light)
    ensures var ls := AddLight(AddLight(AddLight(NoLights, a, [], false), b, [], false), c, [], false);
            ls.chain == [a, c] && ls.numLights == 3
  {
  }

  /** Adding the head light again links nothing new, yet numLights counts
      it twice: the counter no longer matches the chain. */
  lemma AddHeadAgainCountsTwice(a: Light)
    ensures var once := AddLight(NoLights, a, [], false);
            var twice := AddLight(once, a, [], true);
            twice.chain == [a] && twice.numLights == 2 && |twice.chain| != twice.numLights
  {
  }

  /** GetDefaultLight: the first light of the chain with id 0, or NULL. */
  function GetDefaultLight(chain: seq<Light>): (r: Option<Light>)
    ensures r.None? <==> forall i :: 0 <= i < |chain| ==> chain[i].id != 0
    ensures r.Some? ==> exists i :: 0 <= i < |chain| && chain[i] == r.value &&
                          r.value.id == 0 && forall j :: 0 <= j < i ==> chain[j].id != 0
  {
    if |chain| == 0 then None
    else if chain[0].id == 0 then Some(chain[0])
    else
      var r := GetDefaultLight(chain[1..]);
      DefaultInTail(chain, r);
      r
  }

  /** Lifts the answer for chain[1..] to chain when the head is not the
      default light. */
  lemma DefaultInTail(chain: seq<Light>, r: Option<Light>)
    requires |chain| > 0 && chain[0].id != 0
    requires r.None? <==> forall i :: 0 <= i < |chain| - 1 ==> chain[1..][i].id != 0
    requires r.Some? ==> exists i :: 0 <= i < |chain| - 1 && chain[1..][i] == r.value &&
                           r.value.id == 0 && forall j :: 0 <= j < i ==> chain[1..][j].id != 0
    ensures r.None? <==> forall i :: 0 <= i < |chain| ==> chain[i].id != 0
    ensures r.Some? ==> exists i :: 0 <= i < |chain| && chain[i] == r.value &&
                          r.value.id == 0 && forall j :: 0 <= j < i ==> chain[j].id != 0
  {
    if r.Some? {
      var i :| 0 <= i < |chain| - 1 && chain[1..][i] == r.value &&
               r.value.id == 0 && forall j :: 0 <= j < i ==> chain[1..][j].id != 0;
      assert chain[i + 1] == r.value;
      forall j | 0 <= j < i + 1 ensures chain[j].id != 0 {
        if j > 0 { assert chain[j] == chain[1..][j - 1]; }
      }
    } else {
      forall i | 0 <= i < |chain| ensures chain[i].id != 0 {
        if i > 0 { assert chain[i] == chain[1..][i - 1]; }
      }
    }
  }

  /** A light with id 0 added to a non-empty chain whose head is not the
      default is found, whatever the chain held before. */
  lemma AddedDefaultIsFound(ls: Lights, l: Light, lTail: seq<Light>)
    requires |ls.chain| > 0 && ls.chain[0].id != 0 && l.id == 0
    ensures GetDefaultLight(AddLight(ls, l, lTail, false).chain) == Some(l)
  {
    var c := AddLight(ls, l, lTail, false).chain;
    assert c[0] == ls.chain[0] && c[1] == l;
  }

  // ------------------------------------------------------------ camera paths

  /** MAX_CAMERAPATH. */
  const MaxCameraPath: nat := 15

  /** A loaded CameraPath, reduced to its file name and frame count. */
  datatype CameraPath = CameraPath(file: Str, numFrames: nat)

  /** The slot array cameraPath[MAX_CAMERAPATH] (NULL = None) and
      currentCameraPath. */
  datatype Cameras = Cameras(slots: seq<Option<CameraPath>>, current: Option<CameraPath>)

  predicate ValidCameras(cs: Cameras) {
    |cs.slots| == MaxCameraPath
  }

  /** The engine constructor: every slot NULL, no current path. */
  const NoCameras: Cameras := Cameras(seq(MaxCameraPath, _ => None), None)

  /** The scan of LoadCameraPath: the first empty slot, or MAX_CAMERAPATH
      when all are taken. */
  function FirstFree(slots: seq<Option<CameraPath>>, from: nat): (avail: nat)
    requires from <= |slots|
    decreases |slots| - from
    ensures from <= avail <= |slots|
    ensures avail < |slots| ==> slots[avail].None?
    ensures forall i :: from <= i < avail ==> slots[i].Some?
  {
    if from == |slots| || slots[from].None? then from else FirstFree(slots, from + 1)
  }

  /** LoadCameraPath.  Nothing changes for an empty file name, when every
      slot is taken, or when the path expands to zero frames; otherwise
      the path goes into the first empty slot.  Parsing and expanding the
      file are not modelled: `frames` is the frame count ExpandPath yields. */
  function LoadCameraPath(cs: Cameras, file: Str, frames: nat): (r: Cameras)
    requires ValidCameras(cs)
    ensures ValidCameras(r) && r.current == cs.current
    ensures |file| == 0 || frames == 0 || (forall i :: 0 <= i < MaxCameraPath ==> cs.slots[i].Some?) ==> r == cs
    ensures |file| > 0 && frames > 0 && (exists i :: 0 <= i < MaxCameraPath && cs.slots[i].None?) ==>
              exists a :: 0 <= a < MaxCameraPath && cs.slots[a].None? &&
                (forall i :: 0 <= i < a ==> cs.slots[i].Some?) &&
                r.slots == cs.slots[a := Some(CameraPath(file, frames))]
  {
    if |file| == 0 then cs
    else
      var avail := FirstFree(cs.slots, 0);
      if avail == MaxCameraPath then cs
      else if frames == 0 then cs
      else cs.(slots := cs.slots[avail := Some(CameraPath(file, frames))])
  }

  /** Loading fills the slots in order: when slots 0 .. k - 1 hold paths
      and the rest are NULL, the next path lands in slot k. */
  lemma LoadFillsInOrder(cs: Cameras, file: Str, frames: nat, k: nat)
    requires ValidCameras(cs) && |file| > 0 && frames > 0 && k < MaxCameraPath
    requires forall i :: 0 <= i < k ==> cs.slots[i].Some?
    requires forall i :: k <= i < MaxCameraPath ==> cs.slots[i].None?
    ensures LoadCameraPath(cs, file, frames).slots == cs.slots[k := Some(CameraPath(file, frames))]
  {
    assert cs.slots[k].None?;
  }

  /** SetCurrentCameraPath(id): ignored outside [0, MAX_CAMERAPATH);
      otherwise the current path becomes slot id, which may be NULL. */
  function SetCurrentCameraPath(cs: Cameras, id: int): (r: Cameras)
    requires ValidCameras(cs)
    ensures r.slots == cs.slots
    ensures 0 <= id < MaxCameraPath ==> r.current == cs.slots[id]
    ensures !(0 <= id < MaxCameraPath) ==> r.current == cs.current
  {
    if id < 0 || id >= MaxCameraPath then cs
    else cs.(current := cs.slots[id])
  }
}

=== FILE: entity.dfy ===
/** The transform bookkeeping of Entity.cpp: ids, the model-to-world
    matrix that MoveTo, Scale and Rotate edit, and the bounding box of the
    attached mesh. */
module Entities {
  import opened Geometry
  import opened Matrix

  /** A 4 x 4 matrix, the type of modelToWorldMat. */
  type Mat4 = m: Mat | Square(m, 4) witness ZeroMat(4)

  /** The fields this model keeps: the id and modelToWorldMat. */
  datatype Entity = Entity(id: int, modelToWorld: Mat4)

  /** The identity as Entity() builds it: Ident on a default Mat4. */
  function Identity4(): (m: Mat4)
    ensures forall c, r :: 0 <= c < 4 && 0 <= r < 4 ==> m[c][r] == if c == r then 1.0 else 0.0
  {
    IdentOfZeroIsIdentity(ZeroMat(4), 4);
    Ident(ZeroMat(4), 4)
  }

  /** Entity(): takes the next value of the static counter entity_id as
      its id and returns the counter incremented. */
  function NewEntity(next: int): (r: (Entity, int))
    ensures r.0.id == next && r.1 == next + 1
    ensures r.0.modelToWorld == Identity4()
  {
    (Entity(next, Identity4()), next + 1)
  }

  /** k entities constructed one after another, from a counter at next. */
  function Construct(next: int, k: nat): (r: (seq<Entity>, int))
    decreases k
    ensures |r.0| == k && r.1 == next + k
    ensures forall i :: 0 <= i < k ==> r.0[i].id == next + i && r.0[i].modelToWorld == Identity4()
  {
    if k == 0 then ([], next)
    else
      var (first, after) := Construct(next, k - 1);
      var (e, last) := NewEntity(after);
      (first + [e], last)
  }

  /** Entities constructed from program start get the ids 0, 1, 2, ... and
      no two share an id. */
  lemma IdsFromZeroAreDistinct(k: nat)
    ensures var es := Construct(0, k).0;
            (forall i :: 0 <= i < k ==> es[i].id == i) &&
            (forall i, j :: 0 <= i < j < k ==> es[i].id != es[j].id)
  {
  }

  /** The entries of a 4 x 4 matrix other than those listed agree. */
  predicate SameExcept(a: Mat4, b: Mat4, changed: set<(int, int)>) {
    forall c, r :: 0 <= c < 4 && 0 <= r < 4 && (c, r) !in changed ==> a[c][r] == b[c][r]
  }

  /** MoveTo: writes the position into [3][0], [3][1] and [3][2]. */
  function MoveTo(e: Entity, pos: Vec3): (r: Entity)
    ensures r.id == e.id
    ensures r.modelToWorld[3][0] == pos.x && r.modelToWorld[3][1] == pos.y && r.modelToWorld[3][2] == pos.z
    ensures SameExcept(r.modelToWorld, e.modelToWorld, {(3, 0), (3, 1), (3, 2)})
  {
    var m := e.modelToWorld;
    e.(modelToWorld := m[3 := [pos.x, pos.y, pos.z, m[3][3]]])
  }

  /** Moving twice is moving to the second position. */
  lemma MoveToOverrides(e: Entity, p: Vec3, q: Vec3)
    ensures MoveTo(MoveTo(e, p), q) == MoveTo(e, q)
  {
  }

  /** Scale: multiplies the diagonal entries [0][0], [1][1] and [2][2] by
      the matching factor component. */
  function Scale(e: Entity, factor: Vec3): (r: Entity)
    ensures r.id == e.id
    ensures r.modelToWorld[0][0] == e.modelToWorld[0][0] * factor.x
    ensures r.modelToWorld[1][1] == e.modelToWorld[1][1] * factor.y
    ensures r.modelToWorld[2][2] == e.modelToWorld[2][2] * factor.z
    ensures SameExcept(r.modelToWorld, e.modelToWorld, {(0, 0), (1, 1), (2, 2)})
  {
    var m := e.modelToWorld;
    var m0 := m[0 := m[0][0 := m[0][0] * factor.x]];
    var m1 := m0[1 := m0[1][1 := m0[1][1] * factor.y]];
    var m2 := m1[2 := m1[2][2 := m1[2][2] * factor.z]];
    e.(modelToWorld := m2)
  }

  /** Scaling a new entity by (1, 1, 1) leaves its identity matrix, and
      scaling does not touch the translation MoveTo writes. */
  lemma ScaleKeepsTranslation(e: Entity, factor: Vec3, pos: Vec3)
    ensures Scale(MoveTo(e, pos), factor).modelToWorld[3][0] == pos.x
    ensures Scale(MoveTo(e, pos), factor).modelToWorld[3][1] == pos.y
    ensures Scale(MoveTo(e, pos), factor).modelToWorld[3][2] == pos.z
    ensures Scale(NewEntity(0).0, Vec3(1.0, 1.0, 1.0)).modelToWorld == Identity4()
  {
    var a := NewEntity(0).0;
    var s := Scale(a, Vec3(1.0, 1.0, 1.0));
    forall c | 0 <= c < 4
      ensures s.modelToWorld[c] == Identity4()[c]
    {
      assert forall r :: 0 <= r < 4 ==> s.modelToWorld[c][r] == Identity4()[c][r];
    }
  }

  // ----------------------------------------------------------------- Rotate

  /** cos and sin, which the model takes as given functions. */
  datatype Trig = Trig(cos: real -> real, sin: real -> real)

  /** Mat4::RightMul: a.RightMul(b) is b.LeftMul(a), whose column c is
      a.Mul(b[c]); so entry [c][r] is row r of a dotted with column c of
      b, the product a * b. */
  function RightMul4(a: Mat4, b: Mat4): (p: Mat4)
    ensures forall c, r :: 0 <= c < 4 && 0 <= r < 4 ==>
              p[c][r] == a[0][r] * b[c][0] + a[1][r] * b[c][1] + a[2][r] * b[c][2] + a[3][r] * b[c][3]
  {
    seq(4, c requires 0 <= c < 4 => seq(4, r requires 0 <= r < 4 =>
      a[0][r] * b[c][0] + a[1][r] * b[c][1] + a[2][r] * b[c][2] + a[3][r] * b[c][3]))
  }

  /** Right-multiplying by the identity gives the matrix back. */
  lemma RightMulIdentity(a: Mat4)
    ensures RightMul4(a, Identity4()) == a
  {
    var p := RightMul4(a, Identity4());
    forall c | 0 <= c < 4
      ensures p[c] == a[c]
    {
      assert forall r :: 0 <= r < 4 ==> p[c][r] == a[c][r];
    }
  }

  /** Entry [c][r] of m set to v. */
  function Put(m: Mat4, c: nat, r: nat, v: real): (p: Mat4)
    requires c < 4 && r < 4
    ensures p[c][r] == v
    ensures forall i, j :: 0 <= i < 4 && 0 <= j < 4 && (i, j) != (c, r) ==> p[i][j] == m[i][j]
  {
    m[c := m[c][r := v]]
  }

  /** The two coordinates a rotation about the given axis turns:
      (y, z) about x, (x, z) about y, (x, y) about z. */
  function AxisPlane(axis: nat): (p: (nat, nat))
    requires axis < 3
    ensures p.0 < p.1 < 3 && p.0 != axis && p.1 != axis
  {
    if axis == 0 then (1, 2) else if axis == 1 then (0, 2) else (0, 1)
  }

  /** What one branch of Rotate writes into rot: Ident sets the diagonal
      to 1, then the four entries of the axis plane (i, j) become
      [i][i] = [j][j] = cos, [i][j] = sin and [j][i] = -sin, with the sine's
      sign flipped about y.  Every other off-diagonal entry keeps what rot
      held before. */
  function AxisMatrix(rot: Mat4, axis: nat, c: real, s: real): (m: Mat4)
    requires axis < 3
    ensures var (i, j) := AxisPlane(axis);
            var sg := if axis == 1 then -s else s;
            m[i][i] == c && m[j][j] == c && m[i][j] == sg && m[j][i] == -sg &&
            (forall k :: 0 <= k < 4 && k != i && k != j ==> m[k][k] == 1.0) &&
            (forall a, b :: 0 <= a < 4 && 0 <= b < 4 && a != b && (a, b) != (i, j) && (a, b) != (j, i) ==>
               m[a][b] == rot[a][b])
  {
    var (i, j) := AxisPlane(axis);
    var sg := if axis == 1 then -s else s;
    Put(Put(Put(Put(Ident(rot, 4), i, i, c), i, j, sg), j, i, -sg), j, j, c)
  }

  /** The rotation about one axis alone: AxisMatrix filled into a default
      (zero) Mat4. */
  function CleanAxis(axis: nat, c: real, s: real): (m: Mat4)
    requires axis < 3
    ensures var (i, j) := AxisPlane(axis);
            forall a, b :: 0 <= a < 4 && 0 <= b < 4 && a != b && (a, b) != (i, j) && (a, b) != (j, i) ==>
              m[a][b] == 0.0
  {
    AxisMatrix(ZeroMat(4), axis, c, s)
  }

  /** A rotation by an angle with cosine 1 and sine 0 is the identity. */
  lemma CleanAxisOfZeroAngle(axis: nat)
    requires axis < 3
    ensures CleanAxis(axis, 1.0, 0.0) == Identity4()
  {
    var m := CleanAxis(axis, 1.0, 0.0);
    var (i, j) := AxisPlane(axis);
    forall c | 0 <= c < 4
      ensures m[c] == Identity4()[c]
    {
      forall r | 0 <= r < 4
        ensures m[c][r] == Identity4()[c][r]
      {
        if c == r {
          if c != i && c != j {
            assert m[c][c] == 1.0;
          }
        } else if (c, r) != (i, j) && (c, r) != (j, i) {
          assert m[c][r] == 0.0;
        }
      }
    }
  }

  /** One branch of Rotate on (modelToWorldMat, rot): an angle that is
      exactly 0 changes nothing; any other refills rot for the axis and
      right-multiplies the matrix by it. */
  function RotateStage(m: Mat4, rot: Mat4, axis: nat, theta: real, trig: Trig): (r: (Mat4, Mat4))
    requires axis < 3
    ensures theta == 0.0 ==> r == (m, rot)
    ensures theta != 0.0 ==>
              r.1 == AxisMatrix(rot, axis, trig.cos(theta), trig.sin(theta)) && r.0 == RightMul4(m, r.1)
  {
    if theta == 0.0 then (m, rot)
    else
      var turned := AxisMatrix(rot, axis, trig.cos(theta), trig.sin(theta));
      (RightMul4(m, turned), turned)
  }

  /** Rotate: the x, y and z branches in turn, sharing one rot that starts
      as a default (zero) Mat4.  Each branch calls Ident, which resets only
      the diagonal, so the off-diagonal entries an earlier branch wrote
      stay in rot and enter the later products. */
  function Rotate(e: Entity, angle: Vec3, trig: Trig): (r: Entity)
    ensures r.id == e.id
    ensures angle == Zero ==> r == e
    ensures angle.x != 0.0 && angle.y == 0.0 && angle.z == 0.0 ==>
              r.modelToWorld == RightMul4(e.modelToWorld, CleanAxis(0, trig.cos(angle.x), trig.sin(angle.x)))
  {
    var (m1, rot1) := RotateStage(e.modelToWorld, ZeroMat(4), 0, angle.x, trig);
    var (m2, rot2) := RotateStage(m1, rot1, 1, angle.y, trig);
    var (m3, rot3) := RotateStage(m2, rot2, 2, angle.z, trig);
    e.(modelToWorld := m3)
  }

  /** The rotation Entity::Rotate evidently means: each axis with a
      non-zero angle right-multiplies by a rotation about that axis alone. */
  function RotateFreshAxes(e: Entity, angle: Vec3, trig: Trig): (r: Entity)
    ensures r.id == e.id
    ensures var sx := if angle.x == 0.0 then Identity4() else CleanAxis(0, trig.cos(angle.x), trig.sin(angle.x));
            var sy := if angle.y == 0.0 then Identity4() else CleanAxis(1, trig.cos(angle.y), trig.sin(angle.y));
            var sz := if angle.z == 0.0 then Identity4() else CleanAxis(2, trig.cos(angle.z), trig.sin(angle.z));
            r.modelToWorld == RightMul4(RightMul4(RightMul4(e.modelToWorld, sx), sy), sz)
  {
    var (m1, _) := RotateStage(e.modelToWorld, ZeroMat(4), 0, angle.x, trig);
    var (m2, _) := RotateStage(m1, ZeroMat(4), 1, angle.y, trig);
    var (m3, _) := RotateStage(m2, ZeroMat(4), 2, angle.z, trig);
    RightMulIdentity(e.modelToWorld);
    RightMulIdentity(m1);
    RightMulIdentity(m2);
    e.(modelToWorld := m3)
  }

  /** With fresh matrices per axis, rotating by (x, y, z) is rotating about
      x, then about y, then about z. */
  lemma RotateFreshAxesComposes(e: Entity, x: real, y: real, z: real, trig: Trig)
    ensures RotateFreshAxes(e, Vec3(x, y, z), trig) ==
            RotateFreshAxes(RotateFreshAxes(RotateFreshAxes(e, Vec3(x, 0.0, 0.0), trig), Vec3(0.0, y, 0.0), trig), Vec3(0.0, 0.0, z), trig)
  {
  }

  /** When at most one angle is non-zero, the shared rot holds nothing
      stale and Rotate is the intended rotation. */
  lemma RotateAgreesOnOneAxis(e: Entity, angle: Vec3, trig: Trig)
    requires (angle.x == 0.0 && angle.y == 0.0) || (angle.x == 0.0 && angle.z == 0.0) ||
             (angle.y == 0.0 && angle.z == 0.0)
    ensures Rotate(e, angle, trig) == RotateFreshAxes(e, angle, trig)
  {
    RightMulIdentity(e.modelToWorld);
  }

  /** Left-multiplying by the identity gives the matrix back. */
  lemma IdentityRightMul(a: Mat4)
    ensures RightMul4(Identity4(), a) == a
  {
    var p := RightMul4(Identity4(), a);
    forall c | 0 <= c < 4
      ensures p[c] == a[c]
    {
      assert forall r :: 0 <= r < 4 ==> p[c][r] == a[c][r];
    }
  }

  /** Entry [2][2] of a product whose right factor has column 2 equal to
      (0, u, 1, 0). */
  lemma ProductEntryTwoTwo(m: Mat4, b: Mat4, u: real)
    requires b[2][0] == 0.0 && b[2][1] == u && b[2][2] == 1.0 && b[2][3] == 0.0
    ensures RightMul4(m, b)[2][2] == m[1][2] * u + m[2][2]
  {
  }

  /** Rotate by (x, 0, z): the z branch uses the rot the x branch left. */
  lemma RotateAboutXThenZ(e: Entity, x: real, z: real, trig: Trig)
    requires x != 0.0 && z != 0.0
    ensures var ax := CleanAxis(0, trig.cos(x), trig.sin(x));
            Rotate(e, Vec3(x, 0.0, z), trig).modelToWorld ==
            RightMul4(RightMul4(e.modelToWorld, ax), AxisMatrix(ax, 2, trig.cos(z), trig.sin(z)))
  {
  }

  /** RotateFreshAxes by (x, 0, z): a rotation about x, then about z. */
  lemma FreshAboutXThenZ(e: Entity, x: real, z: real, trig: Trig)
    requires x != 0.0 && z != 0.0
    ensures RotateFreshAxes(e, Vec3(x, 0.0, z), trig).modelToWorld ==
            RightMul4(RightMul4(e.modelToWorld, CleanAxis(0, trig.cos(x), trig.sin(x))), CleanAxis(2, trig.cos(z), trig.sin(z)))
  {
    RightMulIdentity(RightMul4(e.modelToWorld, CleanAxis(0, trig.cos(x), trig.sin(x))));
  }

  /** The shared rot carries the x branch into the z branch.  For a new
      entity rotated by (x, 0, z) where x is a right angle (sin x = 1),
      entry [2][2] comes out as cos x - 1 instead of the cos x that
      rotating about x and then about z alone gives. */
  lemma RotateCarriesEarlierAxes(x: real, z: real, trig: Trig)
    requires x != 0.0 && z != 0.0 && trig.sin(x) == 1.0
    ensures Rotate(NewEntity(0).0, Vec3(x, 0.0, z), trig).modelToWorld[2][2] == trig.cos(x) - 1.0
    ensures RotateFreshAxes(NewEntity(0).0, Vec3(x, 0.0, z), trig).modelToWorld[2][2] == trig.cos(x)
    ensures Rotate(NewEntity(0).0, Vec3(x, 0.0, z), trig) != RotateFreshAxes(NewEntity(0).0, Vec3(x, 0.0, z), trig)
  {
    var e := NewEntity(0).0;
    var ax := CleanAxis(0, trig.cos(x), 1.0);
    IdentityRightMul(ax);
    var m1 := RightMul4(Identity4(), ax);
    assert m1[1][2] == 1.0 && m1[2][2] == trig.cos(x);
    RotateAboutXThenZ(e, x, z, trig);
    ProductEntryTwoTwo(m1, AxisMatrix(ax, 2, trig.cos(z), trig.sin(z)), -1.0);
    FreshAboutXThenZ(e, x, z, trig);
    ProductEntryTwoTwo(m1, CleanAxis(2, trig.cos(z), trig.sin(z)), 0.0);
  }

  // ------------------------------------------------------------------ Bound

  /** FLT_MAX, the largest finite float. */
  const FltMax: real := 340282346638528859811704183484516925440.0

  /** FLT_MIN, the smallest positive normalised float, 2^-126. */
  const FltMin: real := 1.0 / 85070591730234615865843651857942052864.0

  /** Component j of v. */
  function Comp(v: Vec3, j: nat): real
    requires j < 3
  {
    if j == 0 then v.x else if j == 1 then v.y else v.z
  }

  /** v with component j replaced by a. */
  function WithComp(v: Vec3, j: nat, a: real): (w: Vec3)
    requires j < 3
    ensures Comp(w, j) == a
    ensures forall k :: 0 <= k < 3 && k != j ==> Comp(w, k) == Comp(v, k)
  {
    if j == 0 then v.(x := a) else if j == 1 then v.(y := a) else v.(z := a)
  }

  /** Bound: starts from vmin = (FLT_MAX, ...) and vmax = (FLT_MIN, ...)
      and widens them component by component over the vertices.  So vmin
      is the least of FLT_MAX and the vertices' components, vmax the
      greatest of FLT_MIN and theirs: every vertex lies in the box, and
      vmax is positive even when every vertex is negative. */
  method Bound(verts: seq<Vec3>) returns (b: BBox)
    ensures forall i, j :: 0 <= i < |verts| && 0 <= j < 3 ==>
              Comp(b.min, j) <= Comp(verts[i], j) <= Comp(b.max, j)
    ensures forall j :: 0 <= j < 3 ==> Comp(b.min, j) <= FltMax && FltMin <= Comp(b.max, j)
    ensures forall j :: 0 <= j < 3 ==>
              (Comp(b.min, j) == FltMax || exists i :: 0 <= i < |verts| && Comp(verts[i], j) == Comp(b.min, j)) &&
              (Comp(b.max, j) == FltMin || exists i :: 0 <= i < |verts| && Comp(verts[i], j) == Comp(b.max, j))
  {
    var vmin := Vec3(FltMax, FltMax, FltMax);
    var vmax := Vec3(FltMin, FltMin, FltMin);
    var i := 0;
    while i < |verts|
      invariant 0 <= i <= |verts|
      invariant forall k, j :: 0 <= k < i && 0 <= j < 3 ==> Comp(vmin, j) <= Comp(verts[k], j) <= Comp(vmax, j)
      invariant forall j :: 0 <= j < 3 ==> Comp(vmin, j) <= FltMax && FltMin <= Comp(vmax, j)
      invariant forall j :: 0 <= j < 3 ==>
                  (Comp(vmin, j) == FltMax || exists k :: 0 <= k < i && Comp(verts[k], j) == Comp(vmin, j)) &&
                  (Comp(vmax, j) == FltMin || exists k :: 0 <= k < i && Comp(verts[k], j) == Comp(vmax, j))
    {
      var v := verts[i];
      var j := 0;
      while j < 3
        invariant 0 <= j <= 3
        invariant forall k, l :: 0 <= k < i && 0 <= l < 3 ==> Comp(vmin, l) <= Comp(verts[k], l) <= Comp(vmax, l)
        invariant forall l :: 0 <= l < j ==> Comp(vmin, l) <= Comp(v, l) <= Comp(vmax, l)
        invariant forall l :: 0 <= l < 3 ==> Comp(vmin, l) <= FltMax && FltMin <= Comp(vmax, l)
        invariant forall l :: 0 <= l < 3 ==>
                    (Comp(vmin, l) == FltMax || exists k :: 0 <= k <= i && Comp(verts[k], l) == Comp(vmin, l)) &&
                    (Comp(vmax, l) == FltMin || exists k :: 0 <= k <= i && Comp(verts[k], l) == Comp(vmax, l))
      {
        if Comp(v, j) < Comp(vmin, j) {
          vmin := WithComp(vmin, j, Comp(v, j));
        }
        if Comp(v, j) > Comp(vmax, j) {
          vmax := WithComp(vmax, j, Comp(v, j));
        }
        j := j + 1;
      }
      i := i + 1;
    }
    b := MakeBox(vmin, vmax);
  }
}

=== FILE: geometry.dfy ===
/** Planes, boxes, lines and polygons of Geometry.h / Geometry.cpp, together
    with the Vec3 comparisons of Math.h they rest on.  Coordinates are reals:
    float rounding is not modelled, and the square roots and interpolations
    of the clipping code are supplied by the caller (see `Cut`). */
module Geometry {

  /** MI_EPSILON of Math.h */
  const Epsilon: real := 0.000001

  datatype Vec3 = Vec3(x: real, y: real, z: real)

  /** Vec3() and Vec3(0): all three components zero. */
  const Zero: Vec3 := Vec3(0.0, 0.0, 0.0)

  function Abs(r: real): real { if r < 0.0 then -r else r }

  function Dot(a: Vec3, b: Vec3): real { a.x * b.x + a.y * b.y + a.z * b.z }

  function Sub(a: Vec3, b: Vec3): Vec3 { Vec3(a.x - b.x, a.y - b.y, a.z - b.z) }

  function Cross(a: Vec3, b: Vec3): Vec3 {
    Vec3(a.y * b.z - a.z * b.y, a.z * b.x - a.x * b.z, a.x * b.y - a.y * b.x)
  }

  function Scale(a: Vec3, s: real): Vec3 { Vec3(a.x * s, a.y * s, a.z * s) }

  /** Vec3::operator< : every component strictly smaller. */
  function Less(a: Vec3, b: Vec3): (r: bool)
    ensures r ==> a != b
    ensures r <==> a.x < b.x && a.y < b.y && a.z < b.z
  {
    a.x < b.x && a.y < b.y && a.z < b.z
  }

  /** Vec3::operator== : every component within MI_EPSILON. */
  function Near(a: Vec3, b: Vec3): (r: bool)
    ensures a == b ==> r
    ensures r <==> Abs(a.x - b.x) < Epsilon && Abs(a.y - b.y) < Epsilon && Abs(a.z - b.z) < Epsilon
  {
    Abs(a.x - b.x) < Epsilon && Abs(a.y - b.y) < Epsilon && Abs(a.z - b.z) < Epsilon
  }

  /** Vec3::operator!= */
  function NotNear(a: Vec3, b: Vec3): (r: bool)
    ensures r ==> a != b
    ensures r <==> !Near(a, b)
  {
    !Near(a, b)
  }

  /** operator< is a strict relation: no vector is below itself, and it is
      transitive and asymmetric. */
  lemma LessIsStrict(a: Vec3, b: Vec3, c: Vec3)
    ensures !Less(a, a)
    ensures Less(a, b) ==> !Less(b, a)
    ensures Less(a, b) && Less(b, c) ==> Less(a, c)
  {
  }

  /** operator== is reflexive and symmetric, but not transitive; != is its
      negation. */
  lemma NearIsTolerance(a: Vec3, b: Vec3)
    ensures Near(a, a)
    ensures Near(a, b) <==> Near(b, a)
    ensures NotNear(a, b) <==> !Near(a, b)
    ensures !(Near(Zero, Vec3(0.0000006, 0.0, 0.0)) && Near(Vec3(0.0000006, 0.0, 0.0), Vec3(0.0000012, 0.0, 0.0))
              ==> Near(Zero, Vec3(0.0000012, 0.0, 0.0)))
  {
  }

  // ----------------------------------------------------------------- Line

  datatype Line = Line(a: Vec3, b: Vec3)

  /** Line::Length: the SQUARED distance between the two ends. */
  function Length(l: Line): (r: real)
    ensures r >= 0.0
    ensures l.a == l.b ==> r == 0.0
  {
    var x := l.a.x - l.b.x;
    var y := l.a.y - l.b.y;
    var z := l.a.z - l.b.z;
    x * x + y * y + z * z
  }

  /** Length does not depend on the direction of the segment, and it is the
      square of the distance: a segment of length 2 along an axis gives 4. */
  lemma LengthIsSquaredDistance(a: Vec3, b: Vec3)
    ensures Length(Line(a, b)) == Length(Line(b, a))
    ensures Length(Line(a, b)) == Dot(Sub(a, b), Sub(a, b))
    ensures Length(Line(Zero, Vec3(2.0, 0.0, 0.0))) == 4.0
  {
  }

  // ---------------------------------------------------------------- Plane

  /** The side codes of Geometry.h: PS_OUT = 0, PS_IN = 1, PS_ON = 2. */
  const PS_OUT: int := 0
  const PS_IN: int := 1
  const PS_ON: int := 2

  datatype Plane = Plane(normal: Vec3, dist: real)

  /** Plane() : zero normal, dist 0. */
  const DefaultPlane: Plane := Plane(Zero, 0.0)

  /** Plane(n, d) stores both unchanged; GetNormal/GetDist read them back. */
  function MakePlane(n: Vec3, d: real): (p: Plane)
    ensures p.normal == n && p.dist == d
  {
    Plane(n, d)
  }

  /** The three-point constructor.  It computes n = Normalize(Cross(c - a,
      b - a)) and dist = -(n . a), but never assigns the member `normal`,
      which keeps the zero vector of Vec3's default constructor.  The
      reciprocal length used by Normalize is the parameter `invLen`. */
  function PlaneFromPoints(a: Vec3, b: Vec3, c: Vec3, invLen: real): (p: Plane)
    ensures p.normal == Zero
    ensures p.dist == -Dot(Scale(Cross(Sub(c, a), Sub(b, a)), invLen), a)
  {
    var n := Scale(Cross(Sub(c, a), Sub(b, a)), invLen);
    Plane(Zero, -Dot(n, a))
  }

  /** Plane::Side.  d = p . normal and diff = |d - dist|; PS_ON when diff is
      below MI_EPSILON, otherwise PS_OUT when d - diff > 0, else PS_IN. */
  function Side(pl: Plane, p: Vec3): (s: int)
    ensures s == PS_OUT || s == PS_IN || s == PS_ON
    ensures s == PS_ON <==> Abs(Dot(p, pl.normal) - pl.dist) < Epsilon
    ensures s == PS_OUT <==>
              Abs(Dot(p, pl.normal) - pl.dist) >= Epsilon &&
              (if Dot(p, pl.normal) >= pl.dist then pl.dist > 0.0 else 2.0 * Dot(p, pl.normal) > pl.dist)
  {
    var d := Dot(p, pl.normal);
    var diff := Abs(d - pl.dist);
    if diff < Epsilon then PS_ON
    else if d - diff > 0.0 then PS_OUT
    else PS_IN
  }

  /** With a zero normal (every plane built from three points) Side never
      answers PS_OUT: it is PS_ON when |dist| < MI_EPSILON and PS_IN
      otherwise, whatever the point. */
  lemma ZeroNormalNeverOut(pl: Plane, p: Vec3)
    requires pl.normal == Zero
    ensures Side(pl, p) != PS_OUT
    ensures Side(pl, p) == (if Abs(pl.dist) < Epsilon then PS_ON else PS_IN)
  {
    assert Dot(p, pl.normal) == 0.0;
  }

  /** The comment on Plane::Side reads "0 on, 1 inside, 2 outside", but the
      enum gives 0 to PS_OUT and 2 to PS_ON: a point on the plane reports 2. */
  lemma SideCodesContradictComment()
    ensures Side(Plane(Vec3(0.0, 0.0, 1.0), 0.0), Zero) == 2
    ensures Side(Plane(Vec3(0.0, 0.0, 1.0), 1.0), Vec3(0.0, 0.0, 5.0)) == 0
  {
  }

  // ----------------------------------------------------------------- BBox

  /** BBox keeps min_ and max_ exactly as given (no reordering); the volume
      is the product of the absolute extents. */
  datatype BBox = BBox(min: Vec3, max: Vec3)

  function MakeBox(vmin: Vec3, vmax: Vec3): (b: BBox)
    ensures b.min == vmin && b.max == vmax
  {
    BBox(vmin, vmax)
  }

  /** BBox::Side: 0 when the corners' side codes differ, else 1 when the
      shared code is PS_IN or PS_ON, and 2 when both are PS_OUT.  (The
      & 0x7FFFFFFF mask is the identity on the codes 0..2.) */
  function BoxSide(b: BBox, pl: Plane): (r: int)
    ensures r == 0 <==> Side(pl, b.min) != Side(pl, b.max)
    ensures r == 1 <==> Side(pl, b.min) == Side(pl, b.max) && Side(pl, b.min) != PS_OUT
    ensures r == 2 <==> Side(pl, b.min) == PS_OUT && Side(pl, b.max) == PS_OUT
  {
    var s1 := Side(pl, b.min);
    var s2 := Side(pl, b.max);
    if s1 != s2 then 0 else if s1 > 0 then 1 else 2
  }

  /** BBox::Contain(b) */
  function Contains(a: BBox, b: BBox): (r: bool)
    ensures r <==> (Near(a.min, b.min) && (Near(a.max, b.max) || Less(a.max, b.max)))
                   || (!Near(a.min, b.min) && Less(a.min, b.min) && Less(b.max, a.max))
  {
    if Near(a.min, b.min) then Near(a.max, b.max) || Less(a.max, b.max)
    else if Less(a.min, b.min) then Less(b.max, a.max)
    else false
  }

  /** A box contains itself; and, against the general per-axis meaning of
      containment, a box "contains" a bigger one sharing its min corner,
      while a box does not contain a smaller one sharing its max corner. */
  lemma ContainsQuirks(a: BBox)
    ensures Contains(a, a)
    ensures Contains(BBox(Zero, Vec3(1.0, 1.0, 1.0)), BBox(Zero, Vec3(2.0, 2.0, 2.0)))
    ensures !Contains(BBox(Zero, Vec3(2.0, 2.0, 2.0)), BBox(Vec3(1.0, 1.0, 1.0), Vec3(2.0, 2.0, 2.0)))
  {
    NearIsTolerance(a.min, a.min);
    NearIsTolerance(a.max, a.max);
  }
}

=== FILE: lexer.dfy ===
/** The buffered tokenizer of File.cpp (LexerFile), with the two small
    pure pieces of File: the writeable flag that File::Init derives from
    the open mode, and the directories File::CreateDir asks mkdir for.
    The file's bytes are modelled as characters. */
module Lexer {
  import opened Outcomes
  import opened QStr

  /** MAX_TOKEN_LENGTH: the size of ReadToken's stack buffer, NUL included. */
  const MaxTokenLength: nat := 256

  /** LexerFile::IsWhiteCharacter: the bytes that separate tokens. */
  function IsWhite(c: char): (r: bool)
    ensures r <==> c in WhiteCharacters
  {
    c == '\n' || c == ' ' || c == '\t' || c == '\0' ||
    c == '\r' || c == '(' || c == ')' || c == ';' || c == ':' || c == ','
  }

  /** The ten separators: four white-space characters, NUL, and the
      punctuation ( ) ; : , that the scene files use between tokens. */
  const WhiteCharacters: seq<char> := "\n \t\0\r();:,"

  /** The buffer between ptrBeg and ptrEnd, the cursor ptrCurrent as an
      offset into it, and the current token.  A default-constructed qStr
      holds a NULL data pointer (String.cpp:3-5); None stands for it, and
      it is what the token of a freshly opened lexer holds. */
  datatype LexerFile = LexerFile(buf: seq<char>, cursor: nat, token: Option<Str>)

  /** A lexer over buf with the cursor at ptrBeg and no token yet. */
  function Open(buf: seq<char>): (lx: LexerFile)
    ensures Valid(lx) && lx.cursor == 0 && lx.token.None?
  {
    LexerFile(buf, 0, None)
  }

  /** ptrBeg <= ptrCurrent <= ptrEnd. */
  predicate Valid(lx: LexerFile) {
    lx.cursor <= |lx.buf|
  }

  /** The first position at or after c holding a non-white byte, or the
      end of the buffer. */
  function SkipEnd(buf: seq<char>, c: nat): (e: nat)
    requires c <= |buf|
    decreases |buf| - c
    ensures c <= e <= |buf|
    ensures forall i :: c <= i < e ==> IsWhite(buf[i])
    ensures e < |buf| ==> !IsWhite(buf[e])
  {
    if c == |buf| || !IsWhite(buf[c]) then c else SkipEnd(buf, c + 1)
  }

  /** The first position at or after c holding a white byte, or the end
      of the buffer. */
  function RunEnd(buf: seq<char>, c: nat): (e: nat)
    requires c <= |buf|
    decreases |buf| - c
    ensures c <= e <= |buf|
    ensures forall i :: c <= i < e ==> !IsWhite(buf[i])
    ensures e < |buf| ==> IsWhite(buf[e])
  {
    if c == |buf| || IsWhite(buf[c]) then c else RunEnd(buf, c + 1)
  }

  /** SkipWS: moves the cursor forward over white bytes, stopping at the
      first non-white byte or at ptrEnd. */
  method SkipWS(lx: LexerFile) returns (r: LexerFile)
    requires Valid(lx)
    ensures r == lx.(cursor := SkipEnd(lx.buf, lx.cursor))
  {
    var cur := lx.cursor;
    while cur < |lx.buf| && IsWhite(lx.buf[cur])
      invariant lx.cursor <= cur <= |lx.buf|
      invariant SkipEnd(lx.buf, cur) == SkipEnd(lx.buf, lx.cursor)
    {
      cur := cur + 1;
    }
    r := lx.(cursor := cur);
  }

  /** ReadToken.  After skipping white bytes: at ptrEnd the token is
      cleared, which stores a NUL through its data pointer, so a token that
      was never assigned (NULL data) faults; otherwise the token becomes
      the run of non-white bytes that starts there, and the cursor moves
      just past it.  The run is copied into a buffer of MaxTokenLength
      bytes followed by its NUL, without a bound check, so a run of
      MaxTokenLength bytes or more overruns it. */
  method ReadToken(lx: LexerFile) returns (r: Result<LexerFile>)
    requires Valid(lx)
    ensures var s := SkipEnd(lx.buf, lx.cursor);
            s == |lx.buf| ==>
              r == if lx.token.None? then Abort(NullWrite) else Ok(lx.(cursor := s, token := Some([])))
    ensures var s := SkipEnd(lx.buf, lx.cursor);
            var e := RunEnd(lx.buf, s);
            s < |lx.buf| ==>
              (r.Ok? <==> e - s < MaxTokenLength) &&
              (r.Ok? ==> r.value == lx.(cursor := e, token := Some(lx.buf[s..e])) && 1 <= |r.value.token.value|)
  {
    var skipped := SkipWS(lx);
    var cur := skipped.cursor;
    if cur >= |lx.buf| {
      if lx.token.None? {
        return Abort(NullWrite);
      }
      return Ok(skipped.(token := Some([])));
    }
    var s := cur;
    var token: Str := [];
    var j := 0;
    while cur < |lx.buf| && !IsWhite(lx.buf[cur])
      invariant s <= cur <= |lx.buf|
      invariant j == cur - s && j <= MaxTokenLength
      invariant token == lx.buf[s..cur]
      invariant RunEnd(lx.buf, cur) == RunEnd(lx.buf, s)
    {
      if j == MaxTokenLength {
        return Abort(BufferOverrun);
      }
      token := token + [lx.buf[cur]];
      j := j + 1;
      cur := cur + 1;
    }
    if j == MaxTokenLength {
      return Abort(BufferOverrun);
    }
    return Ok(lx.(cursor := cur, token := Some(token)));
  }

  /** MoreToken: whether the cursor is short of ptrEnd. */
  function MoreToken(lx: LexerFile): (r: bool)
    ensures r <==> lx.cursor < |lx.buf|
  {
    lx.cursor < |lx.buf|
  }

  /** MoreToken promises a byte, not a token: when only white bytes are
      left it is true, yet the next ReadToken reaches ptrEnd and clears
      the token (and faults on a token that is still NULL). */
  lemma MoreTokenBeforeTrailingWhite(lx: LexerFile)
    requires Valid(lx) && lx.cursor < |lx.buf|
    requires forall i :: lx.cursor <= i < |lx.buf| ==> IsWhite(lx.buf[i])
    ensures MoreToken(lx)
    ensures SkipEnd(lx.buf, lx.cursor) == |lx.buf|
  {
  }

  // ------------------------------------------------------------ File pieces

  /** File::Init's writeable flag: whether the lower-cased mode Contains
      "w". */
  function Writeable(mode: Str): (r: bool)
  {
    Contains(ToLower(mode), "w")
  }

  /** Because Contains skips its last start, the flag is set only by a 'w'
      or 'W' that is not the last character of the mode: "w" and "rw" open
      read-only, "wb" and "w+" writeable. */
  lemma WriteableNeedsLaterCharacter(mode: Str)
    ensures Writeable(mode) <==> exists i :: 0 <= i < |mode| - 1 && (mode[i] == 'w' || mode[i] == 'W')
    ensures !Writeable("w") && !Writeable("rw") && Writeable("wb") && Writeable("w+")
  {
    var low := ToLower(mode);
    forall i | 0 <= i < |mode| - 1
      ensures OccursAt(low, "w", i) <==> (mode[i] == 'w' || mode[i] == 'W')
    {
      assert low[i..i + 1] == [low[i]];
    }
    if Writeable(mode) {
      var k :| 0 <= k && k + 1 < |low| && OccursAt(low, "w", k);
      assert mode[k] == 'w' || mode[k] == 'W';
    }
    if exists i :: 0 <= i < |mode| - 1 && (mode[i] == 'w' || mode[i] == 'W') {
      var i :| 0 <= i < |mode| - 1 && (mode[i] == 'w' || mode[i] == 'W');
      assert OccursAt(low, "w", i);
    }
    var wb := ToLower("wb");
    assert wb[0..1] == "w";
    assert OccursAt(wb, "w", 0);
    var wp := ToLower("w+");
    assert wp[0..1] == "w";
    assert OccursAt(wp, "w", 0);
  }

  /** File::CreateDir: the paths handed to mkdir, in order.  Walking the
      path left to right, each '/' yields the prefix before it; the whole
      path comes last. */
  method CreateDir(path: Str) returns (calls: seq<Str>)
    ensures 1 <= |calls| && calls[|calls| - 1] == path
    ensures forall k :: 0 <= k < |calls| - 1 ==>
              |calls[k]| < |path| && path[|calls[k]|] == '/' && calls[k] == path[..|calls[k]|]
    ensures forall a, b :: 0 <= a < b < |calls| - 1 ==> |calls[a]| < |calls[b]|
    ensures forall i :: 0 <= i < |path| && path[i] == '/' ==> path[..i] in calls[..|calls| - 1]
  {
    calls := [];
    var cur := 0;
    while cur < |path|
      invariant 0 <= cur <= |path|
      invariant forall k :: 0 <= k < |calls| ==>
                  |calls[k]| < cur && path[|calls[k]|] == '/' && calls[k] == path[..|calls[k]|]
      invariant forall a, b :: 0 <= a < b < |calls| ==> |calls[a]| < |calls[b]|
      invariant forall i :: 0 <= i < cur && path[i] == '/' ==> path[..i] in calls
    {
      if path[cur] == '/' {
        calls := calls + [path[..cur]];
      }
      cur := cur + 1;
    }
    calls := calls + [path];
  }
}

=== FILE: matrix.dfy ===
/** The layout facts of Math.h's Mat3 and Mat4: both store their columns
    (Vec3 / Vec4 mat[n]), so mat[c][r] is the entry in row r and column c.
    A matrix is modelled as the sequence of its columns; floats are reals. */
module Matrix {
  import opened Geometry

  type Mat = seq<seq<real>>

  /** n columns of n entries each. */
  predicate Square(m: Mat, n: nat) {
    |m| == n && forall c :: 0 <= c < n ==> |m[c]| == n
  }

  /** Mat3() and Mat4(): every column is built by Vec3() / Vec4(), which
      zero their components. */
  function ZeroMat(n: nat): (z: Mat)
    ensures Square(z, n)
    ensures forall c, r :: 0 <= c < n && 0 <= r < n ==> z[c][r] == 0.0
  {
    seq(n, c => seq(n, r => 0.0))
  }

  // ------------------------------------------------------------ constructors

  /** The nine-argument Mat3 constructor: arguments are given row by row
      (xx, xy, xz, yx, ...), so the argument for row r and column c is
      args[3 * r + c], and it is stored in mat[c][r]. */
  function Mat3FromArgs(args: seq<real>): (m: Mat)
    requires |args| == 9
    ensures Square(m, 3)
    ensures forall r, c :: 0 <= r < 3 && 0 <= c < 3 ==> m[c][r] == args[3 * r + c]
  {
    [[args[0], args[3], args[6]],
     [args[1], args[4], args[7]],
     [args[2], args[5], args[8]]]
  }

  /** The sixteen-argument Mat4 constructor.  The 3 x 3 block is stored
      column-major like Mat3's, but the fourth argument row (wx, wy, wz, ww)
      is stored as column 3 and the fourth argument column (xw, yw, zw) as
      row 3: those seven entries are not transposed. */
  function Mat4FromArgs(args: seq<real>): (m: Mat)
    requires |args| == 16
    ensures Square(m, 4)
    ensures forall r, c :: 0 <= r < 3 && 0 <= c < 3 ==> m[c][r] == args[4 * r + c]
    ensures forall k :: 0 <= k < 4 ==> m[3][k] == args[12 + k] && m[k][3] == args[4 * k + 3]
  {
    [[args[0], args[4], args[8], args[3]],
     [args[1], args[5], args[9], args[7]],
     [args[2], args[6], args[10], args[11]],
     [args[12], args[13], args[14], args[15]]]
  }

  /** Mat4(const float *m): mat[c][r] = m[4 * c + r], i.e. the array is
      read column by column. */
  function Mat4FromArray(a: seq<real>): (m: Mat)
    requires |a| == 16
    ensures Square(m, 4)
    ensures forall c, r :: 0 <= c < 4 && 0 <= r < 4 ==> m[c][r] == a[4 * c + r]
  {
    seq(4, c requires 0 <= c < 4 => seq(4, r requires 0 <= r < 4 => a[4 * c + r]))
  }

  // ----------------------------------------------------- transpose and ident

  /** Transpose: ret[i][j] = mat[j][i]. */
  function Transpose(m: Mat, n: nat): (t: Mat)
    requires Square(m, n)
    ensures Square(t, n)
    ensures forall i, j :: 0 <= i < n && 0 <= j < n ==> t[i][j] == m[j][i]
  {
    seq(n, i requires 0 <= i < n => seq(n, j requires 0 <= j < n => m[j][i]))
  }

  /** Transposing twice gives the matrix back. */
  lemma TransposeInvolution(m: Mat, n: nat)
    requires Square(m, n)
    ensures Transpose(Transpose(m, n), n) == m
  {
    var t := Transpose(Transpose(m, n), n);
    forall i | 0 <= i < n
      ensures t[i] == m[i]
    {
      assert forall j :: 0 <= j < n ==> t[i][j] == m[i][j];
    }
  }

  /** The sixteen-argument constructor is the transpose of the array
      constructor on the same numbers exactly when the fourth argument row
      repeats the fourth argument column. */
  lemma Mat4ArgsAgreeWithArrayOnlyWhenSymmetric(args: seq<real>)
    requires |args| == 16
    ensures Mat4FromArgs(args) == Transpose(Mat4FromArray(args), 4) <==>
            args[3] == args[12] && args[7] == args[13] && args[11] == args[14]
  {
    var a := Mat4FromArgs(args);
    var b := Transpose(Mat4FromArray(args), 4);
    if args[3] == args[12] && args[7] == args[13] && args[11] == args[14] {
      forall c | 0 <= c < 4
        ensures a[c] == b[c]
      {
        assert forall r :: 0 <= r < 4 ==> a[c][r] == b[c][r];
      }
    }
    if a == b {
      assert a[0][3] == b[0][3] && a[1][3] == b[1][3] && a[2][3] == b[2][3];
    }
  }

  /** TransposeSelf: copies the matrix, transposes the copy into a
      temporary it drops, and assigns the copy back. */
  function TransposeSelf(m: Mat, n: nat): Mat
    requires Square(m, n)
  {
    var tmp := m;
    var dropped := Transpose(tmp, n);
    tmp
  }

  /** TransposeSelf changes nothing, which differs from transposing for
      every matrix that is not symmetric. */
  lemma TransposeSelfIsNoOp(m: Mat, n: nat, i: nat, j: nat)
    requires Square(m, n)
    requires i < n && j < n && m[i][j] != m[j][i]
    ensures TransposeSelf(m, n) == m
    ensures TransposeSelf(m, n) != Transpose(m, n)
  {
    assert Transpose(m, n)[j][i] == m[i][j];
  }

  /** Ident: sets the diagonal to 1 and leaves every other entry as it was. */
  function Ident(m: Mat, n: nat): (r: Mat)
    requires Square(m, n)
    ensures Square(r, n)
    ensures forall i :: 0 <= i < n ==> r[i][i] == 1.0
    ensures forall c, k :: 0 <= c < n && 0 <= k < n && c != k ==> r[c][k] == m[c][k]
  {
    seq(n, c requires 0 <= c < n => seq(n, k requires 0 <= k < n => if c == k then 1.0 else m[c][k]))
  }

  /** Ident on a default-constructed matrix yields the identity, and Ident
      is idempotent. */
  lemma IdentOfZeroIsIdentity(m: Mat, n: nat)
    requires Square(m, n)
    ensures forall c, k :: 0 <= c < n && 0 <= k < n ==>
              Ident(ZeroMat(n), n)[c][k] == if c == k then 1.0 else 0.0
    ensures Ident(Ident(m, n), n) == Ident(m, n)
  {
    var a := Ident(Ident(m, n), n);
    var b := Ident(m, n);
    forall c | 0 <= c < n
      ensures a[c] == b[c]
    {
      assert forall k :: 0 <= k < n ==> a[c][k] == b[c][k];
    }
  }

  // ----------------------------------------------------------------- inverse

  /** Mat3::Determinant: expansion along the first column's entries. */
  function Determinant3(m: Mat): (d: real)
    requires Square(m, 3)
    ensures m == Identity3 ==> d == 1.0
    ensures m[0][0] == 0.0 && m[0][1] == 0.0 && m[0][2] == 0.0 ==> d == 0.0
  {
    var det2_12_01 := m[1][0] * m[2][1] - m[1][1] * m[2][0];
    var det2_12_02 := m[1][0] * m[2][2] - m[1][2] * m[2][0];
    var det2_12_12 := m[1][1] * m[2][2] - m[1][2] * m[2][1];
    m[0][0] * det2_12_12 - m[0][1] * det2_12_02 + m[0][2] * det2_12_01
  }

  /** The three cofactors Mat3::Inverse computes first. */
  function FirstCofactors(m: Mat): (real, real, real)
    requires Square(m, 3)
  {
    (m[1][1] * m[2][2] - m[1][2] * m[2][1],
     m[1][2] * m[2][0] - m[1][0] * m[2][2],
     m[1][0] * m[2][1] - m[1][1] * m[2][0])
  }

  /** The determinant Mat3::Inverse tests: the first cofactors against the
      entries of column 0. */
  function InverseDet(m: Mat): real
    requires Square(m, 3)
  {
    var (c0, c1, c2) := FirstCofactors(m);
    c0 * m[0][0] + c1 * m[0][1] + c2 * m[0][2]
  }

  /** The determinant Inverse tests is Determinant's. */
  lemma InverseDetIsDeterminant(m: Mat)
    requires Square(m, 3)
    ensures InverseDet(m) == Determinant3(m)
  {
    var a, b, c := m[0][0], m[0][1], m[0][2];
    var d, e, f := m[1][0], m[1][1], m[1][2];
    var g, h, i := m[2][0], m[2][1], m[2][2];
    assert InverseDet(m) == (e * i - f * h) * a + (f * g - d * i) * b + (d * h - e * g) * c;
    assert Determinant3(m) == a * (e * i - f * h) - b * (d * i - f * g) + c * (d * h - e * g);
  }

  /** Mat3::Inverse.  When |det| <= MI_EPSILON it returns the matrix
      itself; otherwise the adjugate scaled by 1 / det. */
  function Inverse3(m: Mat): (r: Mat)
    requires Square(m, 3)
    ensures Square(r, 3)
    ensures Abs(Determinant3(m)) <= Epsilon ==> r == m
    ensures Abs(Determinant3(m)) > Epsilon ==>
              var (c0, c1, c2) := FirstCofactors(m);
              r[0][0] * Determinant3(m) == c0 && r[1][0] * Determinant3(m) == c1 && r[2][0] * Determinant3(m) == c2
  {
    InverseDetIsDeterminant(m);
    var (c0, c1, c2) := FirstCofactors(m);
    var det := InverseDet(m);
    if Abs(det) <= Epsilon then m
    else
      var detInv := 1.0 / det;
      [[c0 * detInv, (m[0][2] * m[2][1] - m[0][1] * m[2][2]) * detInv, (m[0][1] * m[1][2] - m[0][2] * m[1][1]) * detInv],
       [c1 * detInv, (m[0][1] * m[2][2] - m[0][2] * m[2][0]) * detInv, (m[0][2] * m[1][0] - m[0][0] * m[1][2]) * detInv],
       [c2 * detInv, (m[0][1] * m[2][0] - m[0][0] * m[2][1]) * detInv, (m[0][0] * m[1][1] - m[0][1] * m[1][0]) * detInv]]
  }

  /** A matrix whose determinant is within MI_EPSILON of 0 is its own
      "inverse"; the zero matrix is one. */
  lemma SingularInverseIsItself(m: Mat)
    requires Square(m, 3)
    requires Abs(Determinant3(m)) <= Epsilon
    ensures Inverse3(m) == m
    ensures Inverse3(ZeroMat(3)) == ZeroMat(3)
  {
    var z := ZeroMat(3);
    assert Determinant3(z) == 0.0;
  }

  /** The 3 x 3 identity. */
  const Identity3: Mat := [[1.0, 0.0, 0.0], [0.0, 1.0, 0.0], [0.0, 0.0, 1.0]]

  /** this.RightMul(m) = this x m: column c is this.Mul(m[c]), whose row r
      is the sum over k of mat[k][r] * m[c][k]. */
  function Mul3(a: Mat, b: Mat): (p: Mat)
    requires Square(a, 3) && Square(b, 3)
    ensures Square(p, 3)
  {
    seq(3, c requires 0 <= c < 3 => seq(3, r requires 0 <= r < 3 =>
      a[0][r] * b[c][0] + a[1][r] * b[c][1] + a[2][r] * b[c][2]))
  }

  /** Every entry multiplied by s. */
  function ScaleMat(a: Mat, s: real): (p: Mat)
    requires Square(a, 3)
    ensures Square(p, 3)
    ensures forall c, r :: 0 <= c < 3 && 0 <= r < 3 ==> p[c][r] == a[c][r] * s
  {
    seq(3, c requires 0 <= c < 3 => seq(3, r requires 0 <= r < 3 => a[c][r] * s))
  }

  /** The identity's determinant is 1, yet entry [1][1] of the inverse
      Mat3::Inverse computes for it is 0 (that cofactor reads mat[0][1]
      where mat[0][0] belongs), so the product with the identity is not
      the identity. */
  lemma InverseOfIdentityIsWrong()
    ensures Determinant3(Identity3) == 1.0
    ensures Inverse3(Identity3)[1][1] == 0.0
    ensures Mul3(Identity3, Inverse3(Identity3)) != Identity3
  {
    assert Mul3(Identity3, Inverse3(Identity3))[1][1] == 0.0;
  }

  /** The adjugate: entry [c][r] is the cofactor of mat[r][c]. */
  function Adjugate3(m: Mat): (adj: Mat)
    requires Square(m, 3)
    ensures Square(adj, 3)
  {
    [[m[1][1] * m[2][2] - m[1][2] * m[2][1], m[0][2] * m[2][1] - m[0][1] * m[2][2], m[0][1] * m[1][2] - m[0][2] * m[1][1]],
     [m[1][2] * m[2][0] - m[1][0] * m[2][2], m[0][0] * m[2][2] - m[0][2] * m[2][0], m[0][2] * m[1][0] - m[0][0] * m[1][2]],
     [m[1][0] * m[2][1] - m[1][1] * m[2][0], m[0][1] * m[2][0] - m[0][0] * m[2][1], m[0][0] * m[1][1] - m[0][1] * m[1][0]]]
  }

  /** Mat3::Inverse with the cofactor at [1][1] reading mat[0][0]. */
  function Inverse3Corrected(m: Mat): (r: Mat)
    requires Square(m, 3)
    ensures Square(r, 3)
    ensures Abs(Determinant3(m)) <= Epsilon ==> r == m
  {
    InverseDetIsDeterminant(m);
    var det := InverseDet(m);
    if Abs(det) <= Epsilon then m else ScaleMat(Adjugate3(m), 1.0 / det)
  }

  /** Row r of a 3 x 3 matrix. */
  function Row(m: Mat, r: nat): Vec3
    requires Square(m, 3) && r < 3
  {
    Vec3(m[0][r], m[1][r], m[2][r])
  }

  /** Column c of a 3 x 3 matrix. */
  function Column(m: Mat, c: nat): Vec3
    requires Square(m, 3) && c < 3
  {
    Vec3(m[c][0], m[c][1], m[c][2])
  }

  /** Entry [col][r] of a product: row r of the left factor dotted with
      column col of the right one. */
  lemma MulEntry(x: Mat, y: Mat, col: nat, r: nat)
    requires Square(x, 3) && Square(y, 3) && col < 3 && r < 3
    ensures Mul3(x, y)[col][r] == Dot(Row(x, r), Column(y, col))
  {
  }

  /** Determinant3 on the nine entries. */
  lemma DeterminantEntries(m: Mat)
    requires Square(m, 3)
    ensures Determinant3(m) ==
            m[0][0] * (m[1][1] * m[2][2] - m[1][2] * m[2][1]) -
            m[0][1] * (m[1][0] * m[2][2] - m[1][2] * m[2][0]) +
            m[0][2] * (m[1][0] * m[2][1] - m[1][1] * m[2][0])
  {
  }

  /** The expansions behind column 0 of AdjugateProduct, on the nine
      entries (column-major: a, b, c is column 0): row 0 gives the
      determinant, rows 1 and 2 repeat a row and vanish. */
  lemma FirstColumnExpansions(a: real, b: real, c: real, d: real, e: real, f: real, g: real, h: real, i: real)
    ensures var col := Vec3(e * i - f * h, c * h - b * i, b * f - c * e);
            Dot(Vec3(a, d, g), col) == a * (e * i - f * h) - b * (d * i - f * g) + c * (d * h - e * g) &&
            Dot(Vec3(b, e, h), col) == 0.0 &&
            Dot(Vec3(c, f, i), col) == 0.0
  {
  }

  /** The same for column 1, whose row 1 gives the determinant. */
  lemma SecondColumnExpansions(a: real, b: real, c: real, d: real, e: real, f: real, g: real, h: real, i: real)
    ensures var col := Vec3(f * g - d * i, a * i - c * g, c * d - a * f);
            Dot(Vec3(a, d, g), col) == 0.0 &&
            Dot(Vec3(b, e, h), col) == a * (e * i - f * h) - b * (d * i - f * g) + c * (d * h - e * g) &&
            Dot(Vec3(c, f, i), col) == 0.0
  {
  }

  /** The same for column 2, whose row 2 gives the determinant. */
  lemma ThirdColumnExpansions(a: real, b: real, c: real, d: real, e: real, f: real, g: real, h: real, i: real)
    ensures var col := Vec3(d * h - e * g, b * g - a * h, a * e - b * d);
            Dot(Vec3(a, d, g), col) == 0.0 &&
            Dot(Vec3(b, e, h), col) == 0.0 &&
            Dot(Vec3(c, f, i), col) == a * (e * i - f * h) - b * (d * i - f * g) + c * (d * h - e * g)
  {
  }

  /** Column 0 of a matrix times its adjugate. */
  lemma AdjugateProductFirstColumn(m: Mat, r: nat)
    requires Square(m, 3) && r < 3
    ensures Mul3(m, Adjugate3(m))[0][r] == if r == 0 then Determinant3(m) else 0.0
  {
    var a, b, c, d, e, f, g, h, i := m[0][0], m[0][1], m[0][2], m[1][0], m[1][1], m[1][2], m[2][0], m[2][1], m[2][2];
    var adj := Adjugate3(m);
    assert Column(adj, 0) == Vec3(e * i - f * h, c * h - b * i, b * f - c * e);
    DeterminantEntries(m);
    assert Determinant3(m) == a * (e * i - f * h) - b * (d * i - f * g) + c * (d * h - e * g);
    FirstColumnExpansions(a, b, c, d, e, f, g, h, i);
    MulEntry(m, adj, 0, r);
    if r == 0 {
      assert Row(m, 0) == Vec3(a, d, g);
    } else if r == 1 {
      assert Row(m, 1) == Vec3(b, e, h);
    } else {
      assert Row(m, 2) == Vec3(c, f, i);
    }
  }

  /** Column 1 of a matrix times its adjugate. */
  lemma AdjugateProductSecondColumn(m: Mat, r: nat)
    requires Square(m, 3) && r < 3
    ensures Mul3(m, Adjugate3(m))[1][r] == if r == 1 then Determinant3(m) else 0.0
  {
    var a, b, c, d, e, f, g, h, i := m[0][0], m[0][1], m[0][2], m[1][0], m[1][1], m[1][2], m[2][0], m[2][1], m[2][2];
    var adj := Adjugate3(m);
    assert Column(adj, 1) == Vec3(f * g - d * i, a * i - c * g, c * d - a * f);
    DeterminantEntries(m);
    assert Determinant3(m) == a * (e * i - f * h) - b * (d * i - f * g) + c * (d * h - e * g);
    SecondColumnExpansions(a, b, c, d, e, f, g, h, i);
    MulEntry(m, adj, 1, r);
    if r == 0 {
      assert Row(m, 0) == Vec3(a, d, g);
    } else if r == 1 {
      assert Row(m, 1) == Vec3(b, e, h);
    } else {
      assert Row(m, 2) == Vec3(c, f, i);
    }
  }

  /** Column 2 of a matrix times its adjugate. */
  lemma AdjugateProductThirdColumn(m: Mat, r: nat)
    requires Square(m, 3) && r < 3
    ensures Mul3(m, Adjugate3(m))[2][r] == if r == 2 then Determinant3(m) else 0.0
  {
    var a, b, c, d, e, f, g, h, i := m[0][0], m[0][1], m[0][2], m[1][0], m[1][1], m[1][2], m[2][0], m[2][1], m[2][2];
    var adj := Adjugate3(m);
    assert Column(adj, 2) == Vec3(d * h - e * g, b * g - a * h, a * e - b * d);
    DeterminantEntries(m);
    assert Determinant3(m) == a * (e * i - f * h) - b * (d * i - f * g) + c * (d * h - e * g);
    ThirdColumnExpansions(a, b, c, d, e, f, g, h, i);
    MulEntry(m, adj, 2, r);
    if r == 0 {
      assert Row(m, 0) == Vec3(a, d, g);
    } else if r == 1 {
      assert Row(m, 1) == Vec3(b, e, h);
    } else {
      assert Row(m, 2) == Vec3(c, f, i);
    }
  }

  /** A matrix times its adjugate is its determinant times the identity. */
  lemma AdjugateProduct(m: Mat)
    requires Square(m, 3)
    ensures Mul3(m, Adjugate3(m)) == ScaleMat(Identity3, Determinant3(m))
  {
    var p := Mul3(m, Adjugate3(m));
    var q := ScaleMat(Identity3, Determinant3(m));
    forall col | 0 <= col < 3
      ensures p[col] == q[col]
    {
      forall r | 0 <= r < 3
        ensures p[col][r] == q[col][r]
      {
        if col == 0 {
          AdjugateProductFirstColumn(m, r);
        } else if col == 1 {
          AdjugateProductSecondColumn(m, r);
        } else {
          AdjugateProductThirdColumn(m, r);
        }
        assert q[col][r] == Identity3[col][r] * Determinant3(m);
      }
    }
  }

  /** Scaling the right factor scales the product. */
  lemma MulScale(a: Mat, b: Mat, s: real)
    requires Square(a, 3) && Square(b, 3)
    ensures Mul3(a, ScaleMat(b, s)) == ScaleMat(Mul3(a, b), s)
  {
    var p := Mul3(a, ScaleMat(b, s));
    var q := ScaleMat(Mul3(a, b), s);
    forall c | 0 <= c < 3
      ensures p[c] == q[c]
    {
      forall r | 0 <= r < 3
        ensures p[c][r] == q[c][r]
      {
        calc {
          p[c][r];
          a[0][r] * (b[c][0] * s) + a[1][r] * (b[c][1] * s) + a[2][r] * (b[c][2] * s);
          (a[0][r] * b[c][0] + a[1][r] * b[c][1] + a[2][r] * b[c][2]) * s;
          q[c][r];
        }
      }
    }
  }

  /** The corrected inverse is a right inverse of every matrix whose
      determinant is farther than MI_EPSILON from 0. */
  lemma Inverse3CorrectedIsInverse(m: Mat)
    requires Square(m, 3)
    requires Abs(Determinant3(m)) > Epsilon
    ensures Mul3(m, Inverse3Corrected(m)) == Identity3
  {
    InverseDetIsDeterminant(m);
    var det := Determinant3(m);
    AdjugateProduct(m);
    MulScale(m, Adjugate3(m), 1.0 / det);
    var q := ScaleMat(ScaleMat(Identity3, det), 1.0 / det);
    assert det * (1.0 / det) == 1.0;
    forall c | 0 <= c < 3
      ensures q[c] == Identity3[c]
    {
      forall r | 0 <= r < 3
        ensures q[c][r] == Identity3[c][r]
      {
        assert q[c][r] == (Identity3[c][r] * det) * (1.0 / det);
        if c == r {
          assert Identity3[c][r] == 1.0;
        } else {
          assert Identity3[c][r] == 0.0;
        }
      }
    }
  }
}

=== FILE: mesh.dfy ===
/** The index bookkeeping of Mesh.cpp: how a loaded mesh's triangle indices
    are collected (ReadMesh / ReadTriangle), stored (MingleData) and turned
    into directed edges (GenEdgeList). */
module MeshData {
  import opened Outcomes
  import opened Geometry
  import opened QArray

  /** edge_t: a directed edge p1 -> p2 of triangle `tri`, with the byte
      `marked` that the silhouette code means to use as "already paired". */
  datatype Edge = Edge(p1: u16, p2: u16, tri: int, marked: byte)

  /** The mesh fields this model keeps: the vertex positions and the index
      array (NULL until MingleData runs) and their u16 counts. */
  datatype Mesh = Mesh(vertexArray: Option<seq<Vec3>>, indexArray: Option<seq<u16>>, nVert: u16, nIndex: u16)

  /** Mesh(path): both arrays NULL. */
  const NewMesh: Mesh := Mesh(None, None, 0, 0)

  /** The conversion of an int to unsigned short: reduction modulo 2^16. */
  function ToU16(x: int): u16 { x % 0x1_0000 }

  // ---------------------------------------------------------- ReadTriangle

  /** ReadTriangle: pushes the three integer tokens of one "tri" line,
      each converted to unsigned short. */
  function ReadTriangle(tris: seq<u16>, a: int, b: int, c: int): (r: seq<u16>)
    ensures |r| == |tris| + 3
    ensures r[..|tris|] == tris
    ensures r[|tris|] == ToU16(a) && r[|tris| + 1] == ToU16(b) && r[|tris| + 2] == ToU16(c)
  {
    tris + [ToU16(a), ToU16(b), ToU16(c)]
  }

  /** The triangle loop of ReadMesh: one ReadTriangle per triangle, in
      order, so tris ends with 3 * numTris entries. */
  method ReadTriangles(tokens: seq<(int, int, int)>) returns (tris: seq<u16>)
    ensures |tris| == 3 * |tokens|
    ensures forall t :: 0 <= t < |tokens| ==>
              tris[3 * t] == ToU16(tokens[t].0) &&
              tris[3 * t + 1] == ToU16(tokens[t].1) &&
              tris[3 * t + 2] == ToU16(tokens[t].2)
  {
    tris := [];
    var j := 0;
    while j < |tokens|
      invariant 0 <= j <= |tokens|
      invariant |tris| == 3 * j
      invariant forall t :: 0 <= t < j ==>
                  tris[3 * t] == ToU16(tokens[t].0) &&
                  tris[3 * t + 1] == ToU16(tokens[t].1) &&
                  tris[3 * t + 2] == ToU16(tokens[t].2)
    {
      var (a, b, c) := tokens[j];
      tris := ReadTriangle(tris, a, b, c);
      j := j + 1;
    }
  }

  // ------------------------------------------------------------ MingleData

  /** The vertex positions of MingleData: x, y, z taken three floats at a
      time, for the first nVert vertices. */
  function Positions(vVert: seq<real>, n: nat): (ps: seq<Vec3>)
    requires 3 * n <= |vVert|
    ensures |ps| == n
    ensures forall i :: 0 <= i < n ==> ps[i] == Vec3(vVert[3 * i], vVert[3 * i + 1], vVert[3 * i + 2])
  {
    seq(n, i requires 0 <= i < n => Vec3(vVert[3 * i], vVert[3 * i + 1], vVert[3 * i + 2]))
  }

  /** MingleData.  Nothing changes when both arrays already exist.
      Otherwise nVert becomes |vVert| / 3 and nIndex |vTris|, both stored
      in unsigned shorts, and vTris is copied whole into an array of nIndex
      entries, which overruns it once vTris has 2^16 or more entries.  The
      assertion at its head is its precondition. */
  function MingleData(m: Mesh, vVert: seq<real>, vText: seq<real>, vTris: seq<u16>): (r: Result<Mesh>)
    requires |vVert| / 3 == |vText| / 2
    ensures m.vertexArray.Some? && m.indexArray.Some? ==> r == Ok(m)
    ensures !(m.vertexArray.Some? && m.indexArray.Some?) ==>
              (r.Ok? <==> |vTris| < 0x1_0000) &&
              (r.Ok? ==> r.value.nIndex == |vTris| && r.value.indexArray == Some(vTris) &&
                         r.value.nVert == (|vVert| / 3) % 0x1_0000 &&
                         r.value.vertexArray.Some? && |r.value.vertexArray.value| == r.value.nVert &&
                         (forall i :: 0 <= i < r.value.nVert ==>
                            r.value.vertexArray.value[i] == Vec3(vVert[3 * i], vVert[3 * i + 1], vVert[3 * i + 2])))
  {
    if m.vertexArray.Some? && m.indexArray.Some? then Ok(m)
    else
      var nVert := ToU16(|vVert| / 3);
      var nIndex := ToU16(|vTris|);
      if |vTris| > nIndex then Abort(BufferOverrun)
      else Ok(Mesh(Some(Positions(vVert, nVert)), Some(vTris), nVert, nIndex))
  }

  // ----------------------------------------------------------- GenEdgeList

  /** The three edges of triangle t: a -> b, b -> c, c -> a. */
  function TriangleEdges(index: seq<u16>, t: nat): seq<Edge>
    requires 3 * t + 2 < |index|
  {
    [Edge(index[3 * t], index[3 * t + 1], t, 0),
     Edge(index[3 * t + 1], index[3 * t + 2], t, 0),
     Edge(index[3 * t + 2], index[3 * t], t, 0)]
  }

  /** The edges of the first `count` triangles. */
  function EdgesOf(index: seq<u16>, count: nat): (es: seq<Edge>)
    requires 3 * count <= |index|
    decreases count
    ensures |es| == 3 * count
    ensures forall t :: 0 <= t < count ==>
              es[3 * t] == Edge(index[3 * t], index[3 * t + 1], t, 0) &&
              es[3 * t + 1] == Edge(index[3 * t + 1], index[3 * t + 2], t, 0) &&
              es[3 * t + 2] == Edge(index[3 * t + 2], index[3 * t], t, 0)
  {
    if count == 0 then []
    else EdgesOf(index, count - 1) + TriangleEdges(index, count - 1)
  }

  /** The edges Mesh::GenEdgeList generates from the nIndex entries of the
      index array: three per complete triangle, indices past the last full
      triple ignored.  Each triangle's edges form a closed directed cycle,
      carry the triangle's number and are unmarked. */
  function EdgeList(index: seq<u16>): (es: seq<Edge>)
    ensures |es| == 3 * (|index| / 3)
    ensures forall t :: 0 <= t < |index| / 3 ==>
              es[3 * t] == Edge(index[3 * t], index[3 * t + 1], t, 0) &&
              es[3 * t + 1] == Edge(index[3 * t + 1], index[3 * t + 2], t, 0) &&
              es[3 * t + 2] == Edge(index[3 * t + 2], index[3 * t], t, 0)
    ensures forall i :: 0 <= i < |es| ==> es[i].tri == i / 3 && es[i].marked == 0
    ensures forall i :: 0 <= i < |es| ==> es[i].p2 == es[NextInTriangle(i)].p1
  {
    var es := EdgesOf(index, |index| / 3);
    assert forall i :: 0 <= i < |es| ==> es[i].tri == i / 3 && es[i].marked == 0 && es[i].p2 == es[NextInTriangle(i)].p1 by {
      forall i | 0 <= i < |es|
        ensures es[i].tri == i / 3 && es[i].marked == 0 && es[i].p2 == es[NextInTriangle(i)].p1
      {
        var t := i / 3;
        assert i == 3 * t || i == 3 * t + 1 || i == 3 * t + 2;
      }
    }
    es
  }

  /** Mesh::GenEdgeList: Adds the edges, three per triangle, to a default
      qArr.  Its capacity doubles from 4 and wraps to 0 at 0x8000, so the
      list is returned only when it has fewer than 2^15 edges (at most
      10922 triangles); the 2^15-th edge is written outside the buffer. */
  function GenEdgeList(index: seq<u16>): (r: Result<seq<Edge>>)
    ensures r.Ok? <==> 3 * (|index| / 3) < 0x8000
    ensures r.Ok? ==> r.value == EdgeList(index)
    ensures r.Abort? ==> r.fault == BufferOverrun
  {
    var es := EdgeList(index);
    AddSeqFromNew(es);
    var arr :- AddSeq(New(), es);
    Ok(arr.elems)
  }

  /** The position of the edge that follows edge i around its triangle. */
  function NextInTriangle(i: nat): nat {
    if i % 3 == 2 then i - 2 else i + 1
  }

  /** Every edge's end vertex is the start of another edge of the list, so
      every end vertex is at most the largest start vertex. */
  lemma EndsAreStarts(index: seq<u16>, i: int)
    requires 0 <= i < |EdgeList(index)|
    ensures var es := EdgeList(index);
            0 <= NextInTriangle(i) < |es| && es[i].p2 == es[NextInTriangle(i)].p1
  {
    var es := EdgeList(index);
    var t := i / 3;
    assert i == 3 * t || i == 3 * t + 1 || i == 3 * t + 2;
  }
}

=== FILE: outcomes.dfy ===
/** Shared value types: optional values, results that may end in a C
    assertion failure or an out-of-bounds access, and the fixed-width
    integer ranges the engine stores. */
module Outcomes {

  /** A value that may be absent; stands for a C pointer that may be NULL. */
  datatype Option<+T> = None | Some(value: T)

  /** Why an operation of the engine stops instead of returning. */
  datatype Fault =
    | LastOnEmpty        // qArr::Last asserts size > 0
    | IndexOutOfRange    // qArr::operator[] asserts 0 <= i < size
    | BufferOverrun      // an access outside an allocated block
    | NullWrite          // a store through a NULL data pointer

  /** The outcome of an operation that may stop on a fault. */
  datatype Result<+T> = Ok(value: T) | Abort(fault: Fault) {
    predicate IsFailure() { Abort? }

    function PropagateFailure<U>(): Result<U>
      requires Abort?
    {
      Abort(fault)
    }

    function Extract(): T
      requires Ok?
    {
      value
    }
  }

  /** unsigned char */
  type byte = x: int | 0 <= x < 0x100

  /** unsigned short */
  type u16 = x: int | 0 <= x < 0x1_0000

  /** unsigned int */
  type u32 = x: int | 0 <= x < 0x1_0000_0000
}

=== FILE: qarr.dfy ===
/** qArr<T> of qArr.h: a growable array whose element count (size) and
    capacity (nrAlloc) are both unsigned shorts.

    A value of the model records the elements data[0 .. size), the
    capacity nrAlloc the array believes it has, and `room`, the number of
    elements its buffer really holds.  The two differ after a failed
    realloc (nrAlloc has already been doubled) and after Replace's grow
    path (which reallocates nrAlloc bytes rather than elements).  Whether a
    realloc succeeds is a parameter; malloc and calloc are taken to
    succeed.  Writing or copying past `room` stops with BufferOverrun. */
module QArray {
  import opened Outcomes

  /** QARR_INIT_SIZE */
  const InitSize: u16 := 4

  datatype QArr<T> = QArr(elems: seq<T>, nrAlloc: u16, room: nat)

  /** The invariant the class relies on: size < nrAlloc, so that Add can
      detect the last free slot with size + 1 == nrAlloc. */
  predicate Valid<T>(a: QArr<T>) { |a.elems| < a.nrAlloc }

  /** The buffer really holds the nrAlloc elements the array believes it
      has. */
  predicate Fits<T>(a: QArr<T>) { a.nrAlloc <= a.room }

  /** Size() */
  function Size<T>(a: QArr<T>): nat { |a.elems| }

  /** qArr(): empty, capacity QARR_INIT_SIZE. */
  function New<T>(): (a: QArr<T>)
    ensures |a.elems| == 0 && a.nrAlloc == 4
    ensures Valid(a) && Fits(a)
  {
    QArr([], InitSize, InitSize as nat)
  }

  /** qArr(hint): empty, capacity max(hint, QARR_INIT_SIZE). */
  function NewHint<T>(hint: u16): (a: QArr<T>)
    ensures |a.elems| == 0
    ensures a.nrAlloc >= 4 && a.nrAlloc >= hint && (a.nrAlloc == 4 || a.nrAlloc == hint)
    ensures Valid(a) && Fits(a)
  {
    var n := if hint < InitSize then InitSize else hint;
    QArr([], n, n as nat)
  }

  // ---------------------------------------------------------------- Resize

  /** The capacity Resize asks for: nrAlloc, raised to 0xffff once it
      reaches 0xefff, times two, stored back into an unsigned short. */
  function Grow(n: u16): (m: u16)
    ensures n < 0x8000 ==> m == 2 * n
    ensures 0x8000 <= n < 0xefff ==> m == 2 * n - 0x1_0000 && m < n
    ensures n >= 0xefff ==> m == 0xfffe
  {
    ((if n >= 0xefff then 0xffff else n) * 2) % 0x1_0000
  }

  /** Doubling past 2^15 wraps: a capacity of 0x8000 becomes 0, and a
      grown capacity is always even, so never 0xffff. */
  lemma GrowWraps()
    ensures Grow(0x8000) == 0
    ensures Grow(0x4000) == 0x8000
    ensures Grow(0xffff) == 0xfffe && Grow(0xefff) == 0xfffe
    ensures forall n: u16 :: Grow(n) % 2 == 0
  {
  }

  // ------------------------------------------------------------------- Add

  /** Add(element).  When size + 1 == nrAlloc, Resize first sets nrAlloc to
      Grow(nrAlloc) and then reallocates; if that fails the element is
      dropped, though nrAlloc keeps its new value.  The element is then
      written at position size. */
  function Add<T>(a: QArr<T>, e: T, reallocOk: bool): (r: Result<QArr<T>>)
    ensures var grows := |a.elems| + 1 == a.nrAlloc;
            var room := if grows && reallocOk then Grow(a.nrAlloc) as nat else a.room;
            (grows && !reallocOk ==> r == Ok(QArr(a.elems, Grow(a.nrAlloc), a.room))) &&
            (!(grows && !reallocOk) ==>
               (r.Ok? <==> |a.elems| < room) &&
               (r.Ok? ==> r.value.elems == a.elems + [e] && r.value.room == room &&
                          r.value.nrAlloc == (if grows then Grow(a.nrAlloc) else a.nrAlloc)))
    ensures r.Abort? ==> r.fault == BufferOverrun
  {
    var b := if |a.elems| + 1 == a.nrAlloc then
               (if reallocOk then a.(nrAlloc := Grow(a.nrAlloc), room := Grow(a.nrAlloc) as nat)
                else a.(nrAlloc := Grow(a.nrAlloc)))
             else a;
    if |a.elems| + 1 == a.nrAlloc && !reallocOk then Ok(b)
    else if |b.elems| >= b.room then Abort(BufferOverrun)
    else Ok(b.(elems := b.elems + [e]))
  }

  /** While the size stays below 2^15 - 1, a successful Add appends e,
      keeps every earlier element, and keeps size < nrAlloc with a buffer
      that really holds nrAlloc elements. */
  lemma AddKeepsInvariant<T>(a: QArr<T>, e: T)
    requires Valid(a) && Fits(a) && |a.elems| + 1 < 0x8000
    ensures Add(a, e, true).Ok?
    ensures var b := Add(a, e, true).value;
            b.elems == a.elems + [e] && Valid(b) && Fits(b) &&
            b.nrAlloc == (if |a.elems| + 1 == a.nrAlloc then 2 * a.nrAlloc else a.nrAlloc)
  {
  }

  /** A failed realloc leaves the elements alone but the capacity doubled,
      so the buffer no longer holds nrAlloc elements: the next Add fills
      the last real slot and the one after writes past the buffer. */
  lemma FailedResizeOverruns(x: int, y: int, z: int, w: int)
    ensures var a := QArr([x, y, z], 4, 4);
            var b := Add(a, w, false);
            b == Ok(QArr([x, y, z], 8, 4)) && !Fits(b.value) &&
            Add(b.value, w, true) == Ok(QArr([x, y, z, w], 8, 4)) &&
            Add(Add(b.value, w, true).value, w, true) == Abort(BufferOverrun)
  {
    var b := QArr([x, y, z], 8, 4);
    assert Add(QArr([x, y, z], 4, 4), w, false) == Ok(b);
    assert [x, y, z] + [w] == [x, y, z, w];
    assert Add(b, w, true) == Ok(QArr([x, y, z, w], 8, 4));
  }

  /** At size 0x7fff the capacity 0x8000 wraps to 0 and the write after it
      lands outside the buffer realloc returned. */
  lemma WrapOverruns<T>(a: QArr<T>, e: T)
    requires |a.elems| == 0x7fff && a.nrAlloc == 0x8000
    ensures Add(a, e, true) == Abort(BufferOverrun)
  {
  }

  /** Add(element) for each element of xs in order, every realloc
      succeeding: how Mesh::GenEdgeList and R_SilPrune fill their arrays. */
  function AddSeq<T>(a: QArr<T>, xs: seq<T>): (r: Result<QArr<T>>)
    decreases |xs|
    ensures r.Ok? ==> r.value.elems == a.elems + xs
    ensures r.Abort? ==> r.fault == BufferOverrun
  {
    if |xs| == 0 then Ok(a)
    else
      var b :- AddSeq(a, xs[..|xs| - 1]);
      var c :- Add(b, xs[|xs| - 1], true);
      assert a.elems + xs == a.elems + xs[..|xs| - 1] + [xs[|xs| - 1]];
      Ok(c)
  }

  /** While the total stays below 2^15, adding a sequence to a sound array
      succeeds and keeps it sound. */
  lemma {:induction false} AddSeqFits<T>(a: QArr<T>, xs: seq<T>)
    requires Valid(a) && Fits(a) && |a.elems| + |xs| < 0x8000
    ensures AddSeq(a, xs).Ok? && Valid(AddSeq(a, xs).value) && Fits(AddSeq(a, xs).value)
  {
    if |xs| > 0 {
      AddSeqFits(a, xs[..|xs| - 1]);
      AddKeepsInvariant(AddSeq(a, xs[..|xs| - 1]).value, xs[|xs| - 1]);
    }
  }

  /** Once adding a prefix of xs has faulted, adding all of xs faults. */
  lemma {:induction false} AddSeqAbortStays<T>(a: QArr<T>, xs: seq<T>, k: nat)
    requires k <= |xs| && AddSeq(a, xs[..k]).Abort?
    ensures AddSeq(a, xs).Abort?
    decreases |xs| - k
  {
    if k < |xs| {
      var ys := xs[..k + 1];
      assert ys[..|ys| - 1] == xs[..k];
      assert AddSeq(a, ys).Abort?;
      AddSeqAbortStays(a, xs, k + 1);
    } else {
      assert xs[..k] == xs;
    }
  }

  /** The capacities a default array takes while it grows by doubling. */
  predicate DoubledCap(n: int) {
    n in {4, 8, 16, 32, 64, 128, 256, 512, 1024, 2048, 4096, 8192, 0x4000, 0x8000}
  }

  /** Adding k < 2^15 elements to a default array succeeds; the capacity
      is then a doubling of QARR_INIT_SIZE above k, backed by a buffer of
      that size. */
  lemma {:induction false} AddSeqFromNewBelow<T>(xs: seq<T>, k: nat)
    requires k <= |xs| && k < 0x8000
    ensures AddSeq(New<T>(), xs[..k]).Ok?
    ensures var b := AddSeq(New<T>(), xs[..k]).value;
            b.room == b.nrAlloc as nat && DoubledCap(b.nrAlloc) && k < b.nrAlloc
  {
    if k > 0 {
      AddSeqFromNewBelow(xs, k - 1);
      var ys := xs[..k];
      assert ys[..|ys| - 1] == xs[..k - 1];
    }
  }

  /** Adding to a default array, as GenEdgeList does, succeeds exactly for
      fewer than 2^15 elements: at the 2^15-th the capacity 0x8000 wraps to
      0 and the write lands outside the buffer. */
  lemma AddSeqFromNew<T>(xs: seq<T>)
    ensures AddSeq(New<T>(), xs).Ok? <==> |xs| < 0x8000
    ensures AddSeq(New<T>(), xs).Ok? ==> AddSeq(New<T>(), xs).value.elems == xs
  {
    if |xs| < 0x8000 {
      AddSeqFromNewBelow(xs, |xs|);
      assert xs[..|xs|] == xs;
    } else {
      AddSeqFromNewBelow(xs, 0x7fff);
      var b := AddSeq(New<T>(), xs[..0x7fff]).value;
      WrapOverruns(b, xs[0x7fff]);
      var ys := xs[..0x8000];
      assert ys[..|ys| - 1] == xs[..0x7fff];
      AddSeqAbortStays(New<T>(), xs, 0x8000);
    }
  }

  /** Add(n, ...) and Add(arr, n): Add each element in argument order. */
  method AddAll<T>(a: QArr<T>, xs: seq<T>, reallocOk: bool) returns (r: Result<QArr<T>>)
    ensures r.Ok? && reallocOk ==> r.value.elems == a.elems + xs
    ensures r.Ok? ==> |r.value.elems| <= |a.elems| + |xs|
    ensures reallocOk && Valid(a) && Fits(a) && |a.elems| + |xs| < 0x8000 ==>
              r.Ok? && Valid(r.value) && Fits(r.value) && r.value.elems == a.elems + xs
  {
    var cur := a;
    var i := 0;
    while i < |xs|
      invariant 0 <= i <= |xs|
      invariant reallocOk ==> cur.elems == a.elems + xs[..i]
      invariant |cur.elems| <= |a.elems| + i
      invariant reallocOk && Valid(a) && Fits(a) && |a.elems| + |xs| < 0x8000 ==> Valid(cur) && Fits(cur)
    {
      if reallocOk && Valid(a) && Fits(a) && |a.elems| + |xs| < 0x8000 {
        AddKeepsInvariant(cur, xs[i]);
      }
      var next := Add(cur, xs[i], reallocOk);
      if next.Abort? {
        return next;
      }
      cur := next.value;
      i := i + 1;
      assert reallocOk ==> cur.elems == a.elems + xs[..i] by {
        assert xs[..i] == xs[..i - 1] + [xs[i - 1]];
      }
    }
    assert xs[..i] == xs;
    r := Ok(cur);
  }

  // ------------------------------------------------------ access, removal

  /** Clear(): empty again, capacity QARR_INIT_SIZE. */
  function Clear<T>(a: QArr<T>): (r: QArr<T>)
    ensures |r.elems| == 0 && r.nrAlloc == 4 && Valid(r) && Fits(r)
  {
    New()
  }

  /** operator[]: asserts 0 <= i < size. */
  function Get<T>(a: QArr<T>, i: int): (r: Result<T>)
    ensures r.Ok? <==> 0 <= i < |a.elems|
    ensures r.Ok? ==> r.value == a.elems[i]
  {
    if 0 <= i < |a.elems| then Ok(a.elems[i]) else Abort(IndexOutOfRange)
  }

  /** Last(): asserts size > 0 and returns element size - 1. */
  function Last<T>(a: QArr<T>): (r: Result<T>)
    ensures r.Ok? <==> |a.elems| > 0
    ensures r.Ok? ==> r.value == a.elems[|a.elems| - 1] && Get(a, |a.elems| - 1) == r
  {
    if |a.elems| > 0 then Ok(a.elems[|a.elems| - 1]) else Abort(LastOnEmpty)
  }

  /** Remove(n): asserts 0 <= n < size, memmoves size - n - 1 BYTES from
      element n + 1 down to element n, then drops the last element.  With
      elements of elemSize bytes that moves (size - n - 1) / elemSize whole
      elements; when bytes are left over, the element after them becomes a
      mix of two elements, whose value is the parameter `blend`. */
  function Remove<T>(a: QArr<T>, n: int, elemSize: nat, blend: T): (r: Result<QArr<T>>)
    requires elemSize >= 1
    ensures r.Ok? <==> 0 <= n < |a.elems|
    ensures r.Ok? ==> |r.value.elems| == |a.elems| - 1 && r.value.nrAlloc == a.nrAlloc && r.value.room == a.room
    ensures r.Ok? ==> r.value.elems[..n] == a.elems[..n]
    ensures r.Ok? && elemSize == 1 ==> r.value.elems == a.elems[..n] + a.elems[n + 1..]
  {
    if !(0 <= n < |a.elems|) then Abort(IndexOutOfRange)
    else
      var size := |a.elems|;
      var k := (size - n - 1) / elemSize;
      assert k <= size - n - 1 by { DivAtMost(size - n - 1, elemSize); }
      var moved := a.elems[n + 1 .. n + 1 + k];
      if n + k >= size - 1 then Ok(a.(elems := a.elems[..n] + moved))
      else
        var at := if (size - n - 1) % elemSize == 0 then a.elems[n + k] else blend;
        Ok(a.(elems := a.elems[..n] + moved + [at] + a.elems[n + k + 1 .. size - 1]))
  }

  /** With elements wider than the bytes moved, Remove(n) does not remove
      element n: it overwrites it with the blended value and drops the
      LAST element instead. */
  lemma RemoveDropsLast<T>(a: QArr<T>, n: int, elemSize: nat, blend: T)
    requires 0 <= n < |a.elems| - 1 && elemSize > |a.elems| - n - 1
    ensures Remove(a, n, elemSize, blend) ==
              Ok(a.(elems := a.elems[..n] + [blend] + a.elems[n + 1 .. |a.elems| - 1]))
  {
    var m := |a.elems| - n - 1;
    DivSmall(m, elemSize);
    var moved := a.elems[n + 1 .. n + 1];
    assert a.elems[..n] + moved == a.elems[..n];
    assert Remove(a, n, elemSize, blend) == Ok(a.(elems := a.elems[..n] + moved + [blend] + a.elems[n + 1 .. |a.elems| - 1]));
  }

  /** A number below the divisor is its own remainder, with quotient 0. */
  lemma DivSmall(m: nat, d: nat)
    requires m < d
    ensures m / d == 0 && m % d == m
  {
  }

  /** Remove keeps the array's invariant. */
  lemma RemoveKeepsInvariant<T>(a: QArr<T>, n: int, elemSize: nat, blend: T)
    requires elemSize >= 1 && Valid(a) && Fits(a) && 0 <= n < |a.elems|
    ensures Remove(a, n, elemSize, blend).Ok?
    ensures Valid(Remove(a, n, elemSize, blend).value) && Fits(Remove(a, n, elemSize, blend).value)
  {
  }

  // ------------------------------------------------------ copy and replace

  /** operator= and the copy constructor: capacity copied, a fresh zeroed
      buffer of that many elements, and size elements copied into it. */
  function Assign<T>(other: QArr<T>): (r: Result<QArr<T>>)
    ensures r.Ok? <==> |other.elems| <= other.nrAlloc
    ensures r.Ok? ==> r.value.elems == other.elems && r.value.nrAlloc == other.nrAlloc && Fits(r.value)
  {
    if |other.elems| > other.nrAlloc as nat then Abort(BufferOverrun)
    else Ok(QArr(other.elems, other.nrAlloc, other.nrAlloc as nat))
  }

  /** A copy of a valid array is valid and equal to it element for
      element. */
  lemma AssignCopies<T>(other: QArr<T>)
    requires Valid(other)
    ensures Assign(other).Ok? && Valid(Assign(other).value) && Assign(other).value.elems == other.elems
  {
  }

  /** Replace(other): an empty other is Clear(); an equal size copies the
      elements in place; a larger other sets nrAlloc from other and
      reallocates the buffer to nrAlloc BYTES, i.e. nrAlloc / elemSize
      elements; then size and the elements are copied. */
  function Replace<T>(a: QArr<T>, other: QArr<T>, elemSize: nat): (r: Result<QArr<T>>)
    requires elemSize >= 1
    ensures |other.elems| == 0 ==> r == Ok(Clear(a))
    ensures |other.elems| > 0 && r.Ok? ==> r.value.elems == other.elems
    ensures |other.elems| > |a.elems| ==>
              (r.Ok? <==> |other.elems| <= other.nrAlloc as nat / elemSize) &&
              (r.Ok? ==> r.value.nrAlloc == other.nrAlloc)
    ensures 0 < |other.elems| <= |a.elems| ==>
              (r.Ok? <==> |other.elems| <= a.room) &&
              (r.Ok? ==> r.value.nrAlloc == a.nrAlloc && r.value.room == a.room)
  {
    if |other.elems| == 0 then Ok(Clear(a))
    else
      var b := if |other.elems| > |a.elems| then a.(nrAlloc := other.nrAlloc, room := other.nrAlloc as nat / elemSize) else a;
      if |other.elems| > b.room then Abort(BufferOverrun)
      else Ok(b.(elems := other.elems))
  }

  /** The shrinking and same-size paths of Replace keep the invariant; the
      growing path overruns whenever other fills more than 1 / elemSize of
      its capacity, as a list of 3 twelve-byte edges in a capacity of 4
      does. */
  lemma ReplaceBytesNotElements<T>(a: QArr<T>, other: QArr<T>, elemSize: nat)
    requires elemSize >= 1
    ensures Valid(a) && Fits(a) && 0 < |other.elems| <= |a.elems| ==>
              Replace(a, other, elemSize).Ok? && Valid(Replace(a, other, elemSize).value)
    ensures |other.elems| > |a.elems| && |other.elems| * elemSize > other.nrAlloc ==>
              Replace(a, other, elemSize) == Abort(BufferOverrun)
  {
    if |other.elems| > |a.elems| && |other.elems| * elemSize > other.nrAlloc {
      DivBelow(other.nrAlloc as nat, elemSize, |other.elems|);
    }
  }

  /** Dividing by a positive number never increases. */
  lemma DivAtMost(m: nat, d: nat)
    requires d >= 1
    ensures m / d <= m
  {
  }

  /** n / d < q whenever q * d > n. */
  lemma DivBelow(n: nat, d: nat, q: nat)
    requires d >= 1 && q * d > n
    ensures n / d < q
  {
    var k := n / d;
    assert k * d <= n;
  }
}

=== FILE: qstr.dfy ===
/** qStr (String.cpp): a heap string with a cached length.  A string is
    modelled by the len characters before its terminating NUL; the C
    strings passed in are modelled by their characters up to their NUL,
    and a NULL argument by None. */
module QStr {
  import opened Outcomes

  type Str = seq<char>

  // ----------------------------------------------------------- constructors

  /** qStr(s, l): the first l characters of s when 0 < l <= strlen(s), the
      whole of s for any other l. */
  function FromPrefix(s: Str, l: int): (r: Str)
    ensures |r| <= |s| && r == s[..|r|]
    ensures |r| == if 0 < l <= |s| then l else |s|
  {
    if l <= 0 || l > |s| then s else s[..l]
  }

  /** operator==(const char*): false for NULL, otherwise equality of the
      lengths and of the characters. */
  function Equals(str: Str, other: Option<Str>): (r: bool)
    ensures r <==> other.Some? && |other.value| == |str| &&
                   forall i :: 0 <= i < |str| ==> str[i] == other.value[i]
  {
    other.Some? && |other.value| == |str| && other.value == str
  }

  /** A string equals a copy of itself, and no string equals NULL. */
  lemma EqualsIsEquality(a: Str, b: Str)
    ensures Equals(a, Some(b)) <==> a == b
    ensures !Equals(a, None)
  {
    if Equals(a, Some(b)) {
      assert forall i :: 0 <= i < |a| ==> a[i] == b[i];
    }
  }

  // ---------------------------------------------------------- concatenation

  /** ConcatSelf(s) and Concat(s): the old characters followed by those of
      s.  ConcatSelf stores the result in the string; Concat returns it in
      a new string and leaves the receiver as it was. */
  function Concat(str: Str, s: Str): (r: Str)
    ensures |r| == |str| + |s|
    ensures r[..|str|] == str && r[|str|..] == s
  {
    str + s
  }

  /** The character of a decimal digit. */
  function DigitChar(d: nat): (c: char)
    requires d < 10
    ensures '0' <= c <= '9'
  {
    ('0' as int + d) as char
  }

  /** The digits sprintf("%d") prints for n >= 0. */
  function Digits(n: nat): (d: Str)
    decreases n
    ensures 1 <= |d|
    ensures forall i :: 0 <= i < |d| ==> '0' <= d[i] <= '9'
  {
    if n < 10 then [DigitChar(n)] else Digits(n / 10) + [DigitChar(n % 10)]
  }

  /** sprintf("%d", n). */
  function Decimal(n: int): (d: Str)
    ensures 1 <= |d|
    ensures (d[0] == '-') <==> n < 0
  {
    if n < 0 then "-" + Digits(-n) else Digits(n)
  }

  /** ConcatSelf(int): formats n, concatenates it with Concat and drops
      the string Concat returns, so the receiver keeps its characters. */
  function ConcatSelfInt(str: Str, n: int): (r: Str)
    ensures r == str
  {
    var discarded := Concat(str, Decimal(n));
    str
  }

  /** ConcatSelf(int) appends nothing, although the concatenation it
      computes and discards is always longer than the string. */
  lemma ConcatSelfIntAppendsNothing(str: Str, n: int)
    ensures ConcatSelfInt(str, n) == str
    ensures ConcatSelfInt(str, n) != Concat(str, Decimal(n))
  {
    assert |Concat(str, Decimal(n))| > |str|;
  }

  /** Insert(prefix): the prefix followed by the old characters; nothing
      changes for a NULL or empty prefix. */
  function Insert(str: Str, prefix: Option<Str>): (r: Str)
    ensures prefix.None? ==> r == str
    ensures prefix.Some? ==> |r| == |prefix.value| + |str| && r[..|prefix.value|] == prefix.value
    ensures r[|r| - |str|..] == str
  {
    if prefix.None? || |prefix.value| == 0 then str
    else
      var sPrefix := prefix.value;
      Concat(sPrefix, str)
  }

  /** Inserting a prefix is concatenating the string onto the prefix. */
  lemma InsertIsConcatOntoPrefix(str: Str, prefix: Str)
    ensures Insert(str, Some(prefix)) == Concat(prefix, str)
  {
    if |prefix| == 0 {
      assert Concat(prefix, str) == str;
    }
  }

  // ----------------------------------------------------------- case mapping

  predicate IsUpper(c: char) { 'A' <= c <= 'Z' }

  predicate IsLower(c: char) { 'a' <= c <= 'z' }

  function LowerChar(c: char): char {
    if IsUpper(c) then (c as int + ('a' as int - 'A' as int)) as char else c
  }

  function UpperChar(c: char): char {
    if IsLower(c) then (c as int + ('A' as int - 'a' as int)) as char else c
  }

  /** ToLower: every upper-case ASCII letter becomes its lower-case letter,
      every other character stays; the length does not change. */
  function ToLower(s: Str): (r: Str)
    ensures |r| == |s|
    ensures forall i :: 0 <= i < |s| ==> !IsUpper(r[i])
    ensures forall i :: 0 <= i < |s| ==>
              if IsUpper(s[i]) then IsLower(r[i]) && r[i] as int - s[i] as int == 32 else r[i] == s[i]
  {
    if |s| == 0 then s else seq(|s|, i requires 0 <= i < |s| => LowerChar(s[i]))
  }

  /** ToUpper: every lower-case ASCII letter becomes its upper-case letter,
      every other character stays; the length does not change. */
  function ToUpper(s: Str): (r: Str)
    ensures |r| == |s|
    ensures forall i :: 0 <= i < |s| ==> !IsLower(r[i])
    ensures forall i :: 0 <= i < |s| ==>
              if IsLower(s[i]) then IsUpper(r[i]) && s[i] as int - r[i] as int == 32 else r[i] == s[i]
  {
    if |s| == 0 then s else seq(|s|, i requires 0 <= i < |s| => UpperChar(s[i]))
  }

  /** Case mapping twice is case mapping once, and mapping to the other
      case first makes no difference to the final case. */
  lemma CaseMappingIdempotent(s: Str)
    ensures ToLower(ToLower(s)) == ToLower(s)
    ensures ToUpper(ToUpper(s)) == ToUpper(s)
    ensures ToLower(ToUpper(s)) == ToLower(s)
    ensures ToUpper(ToLower(s)) == ToUpper(s)
  {
  }

  // -------------------------------------------------------------- searching

  /** s occurs in str starting at position k. */
  predicate OccursAt(str: Str, s: Str, k: int) {
    0 <= k && k + |s| <= |str| && str[k..k + |s|] == s
  }

  /** The search loop of Contains from start i on: it tries the starts i,
      i + 1, ... below len - strlen(s). */
  function ScanFrom(str: Str, s: Str, i: nat): (r: bool)
    requires |s| <= |str| && i <= |str| - |s|
    decreases |str| - |s| - i
    ensures r <==> exists k :: i <= k < |str| - |s| && OccursAt(str, s, k)
  {
    if i == |str| - |s| then false
    else if str[i..i + |s|] == s then
      assert OccursAt(str, s, i);
      true
    else
      var r := ScanFrom(str, s, i + 1);
      assert forall k :: i <= k < |str| - |s| && OccursAt(str, s, k) ==> k == i || i + 1 <= k;
      r
  }

  /** Contains(s): false when s is longer; otherwise whether s occurs at a
      start below len - strlen(s), which leaves out the last start. */
  function Contains(str: Str, s: Str): (r: bool)
    ensures r <==> exists k :: 0 <= k && k + |s| < |str| && OccursAt(str, s, k)
  {
    if |s| > |str| then false else ScanFrom(str, s, 0)
  }

  /** Contains finds exactly the occurrences that end before the last
      character; an occurrence as a suffix only, such as the whole string,
      is missed, while the empty string is found in every non-empty one. */
  lemma ContainsMissesSuffix(str: Str, s: Str)
    ensures Contains(str, s) ==> exists k :: OccursAt(str, s, k)
    ensures OccursAt(str, s, |str| - |s|) && !(exists k :: 0 <= k < |str| - |s| && OccursAt(str, s, k)) ==> !Contains(str, s)
    ensures !Contains(str, str)
    ensures Contains(str, []) <==> |str| > 0
  {
    if |str| > 0 {
      assert OccursAt(str, [], 0);
    }
  }

  /** The comparison loop of EndsWith from position k of s on.  On a
      mismatch the post-increment has already moved `match` past the
      mismatching character, and the result is whether that was the last. */
  function WalkFrom(str: Str, s: Str, diff: nat, k: nat): (r: bool)
    requires diff + |s| == |str| && k <= |s|
    decreases |s| - k
    ensures r <==> forall j :: k <= j < |s| - 1 ==> s[j] == str[diff + j]
  {
    if k == |s| then true
    else if s[k] == str[diff + k] then WalkFrom(str, s, diff, k + 1)
    else k + 1 == |s|
  }

  /** EndsWith(s): false when s is longer than the string; otherwise
      whether all characters of s but the last agree with the end of the
      string. */
  function EndsWith(str: Str, s: Str): (r: bool)
    ensures r <==> |s| <= |str| && forall j :: 0 <= j < |s| - 1 ==> s[j] == str[|str| - |s| + j]
  {
    var diff := |str| - |s|;
    if diff < 0 then false else WalkFrom(str, s, diff, 0)
  }

  /** Every suffix is recognised; and every one-character string is taken
      for a suffix of every non-empty string. */
  lemma EndsWithIgnoresLastCharacter(str: Str, s: Str, c: char)
    ensures |s| <= |str| && str[|str| - |s|..] == s ==> EndsWith(str, s)
    ensures |str| >= 1 ==> EndsWith(str, [c])
    ensures EndsWith(str, s) && |s| >= 1 && str[|str| - 1] != s[|s| - 1] ==> str[|str| - |s|..] != s
  {
    if |s| <= |str| && str[|str| - |s|..] == s {
      assert forall j :: 0 <= j < |s| - 1 ==> s[j] == str[|str| - |s|..][j];
    }
  }

  /** What concatenation appends, EndsWith recognises. */
  lemma ConcatEndsWith(str: Str, s: Str)
    ensures EndsWith(Concat(str, s), s)
  {
    EndsWithIgnoresLastCharacter(Concat(str, s), s, ' ');
  }

  // ---------------------------------------------------------------- quotes

  predicate IsQuote(c: char) { c == '\'' || c == '"' }

  /** The number of quote characters at the front of s. */
  function LeadingQuotes(s: Str): (n: nat)
    ensures n <= |s|
    ensures forall i :: 0 <= i < n ==> IsQuote(s[i])
    ensures n < |s| ==> !IsQuote(s[n])
  {
    if |s| == 0 || !IsQuote(s[0]) then 0 else 1 + LeadingQuotes(s[1..])
  }

  /** The number of quote characters at the end of s. */
  function TrailingQuotes(s: Str): (n: nat)
    ensures n <= |s|
    ensures forall i :: |s| - n <= i < |s| ==> IsQuote(s[i])
    ensures n < |s| ==> !IsQuote(s[|s| - n - 1])
  {
    if |s| == 0 || !IsQuote(s[|s| - 1]) then 0 else 1 + TrailingQuotes(s[..|s| - 1])
  }

  /** RemoveQuotes: drops the quote characters at both ends.  The backward
      scan has no lower bound, so a string made only of quotes (or the
      empty string) is read before its first character. */
  function RemoveQuotes(s: Str): (r: Result<Str>)
    ensures r.Ok? <==> exists i :: 0 <= i < |s| && !IsQuote(s[i])
    ensures r.Ok? ==> 1 <= |r.value| && !IsQuote(r.value[0]) && !IsQuote(r.value[|r.value| - 1])
    ensures r.Ok? ==> exists a, b :: 0 <= a <= b <= |s| && r.value == s[a..b] &&
                        (forall i :: 0 <= i < a ==> IsQuote(s[i])) &&
                        (forall i :: b <= i < |s| ==> IsQuote(s[i]))
  {
    var start := LeadingQuotes(s);
    if start == |s| then Abort(BufferOverrun)
    else
      var end := |s| - 1 - TrailingQuotes(s);
      assert end >= start;
      Ok(s[start..end + 1])
  }

  /** Removing quotes twice removes nothing more. */
  lemma RemoveQuotesIdempotent(s: Str)
    requires RemoveQuotes(s).Ok?
    ensures RemoveQuotes(RemoveQuotes(s).value) == RemoveQuotes(s)
  {
    var r := RemoveQuotes(s).value;
    assert LeadingQuotes(r) == 0;
    assert TrailingQuotes(r) == 0;
    assert r[0..|r|] == r;
  }

  // ------------------------------------------------------------------ paths

  predicate IsSep(c: char) { c == '/' || c == '\\' }

  /** The position of the last separator of s, or -1. */
  function LastSep(s: Str): (p: int)
    ensures -1 <= p < |s|
    ensures p >= 0 ==> IsSep(s[p])
    ensures forall i :: p < i < |s| ==> !IsSep(s[i])
  {
    if |s| == 0 then -1 else if IsSep(s[|s| - 1]) then |s| - 1 else LastSep(s[..|s| - 1])
  }

  /** The position of the first '.' of s, or -1. */
  function FirstDot(s: Str): (p: int)
    ensures -1 <= p < |s|
    ensures p >= 0 ==> s[p] == '.'
    ensures forall i :: 0 <= i < |s| && (p < 0 || i < p) ==> s[i] != '.'
  {
    if |s| == 0 then -1 else if s[0] == '.' then 0 else
      var q := FirstDot(s[1..]);
      if q < 0 then -1 else q + 1
  }

  /** The position of the last '.' of s, or -1. */
  function LastDot(s: Str): (p: int)
    ensures -1 <= p < |s|
    ensures p >= 0 ==> s[p] == '.'
    ensures forall i :: p < i < |s| ==> s[i] != '.'
  {
    if |s| == 0 then -1 else if s[|s| - 1] == '.' then |s| - 1 else LastDot(s[..|s| - 1])
  }

  /** GetFileName: the text after the last '/' or '\\', cut before its
      first '.'.  A component without '.' or starting with '.' comes back
      whole, because qStr(s, 0) copies the whole of s. */
  function GetFileName(str: Str): (r: Str)
    ensures forall i :: 0 <= i < |r| ==> !IsSep(r[i])
    ensures var name := str[LastSep(str) + 1..];
            |r| <= |name| && r == name[..|r|] &&
            (r == name <==> '.' !in name || name[0] == '.') &&
            (r != name ==> '.' !in r && name[|r|] == '.')
  {
    var sName := str[LastSep(str) + 1..];
    var sExt := FirstDot(sName);
    FromPrefix(sName, if sExt >= 0 then sExt else 0)
  }

  /** GetFileExtension: "" for a string of at most one character or one
      without '.', otherwise the text after the last '.'. */
  function GetFileExtension(str: Str): (r: Str)
    ensures '.' !in r
    ensures |str| <= 1 || '.' !in str ==> r == []
    ensures |str| > 1 && '.' in str ==> |r| < |str| && str[|str| - |r| - 1] == '.' && str[|str| - |r|..] == r
  {
    if |str| <= 1 then []
    else
      var end := LastDot(str);
      if end < 0 then [] else str[end + 1..]
  }

  /** AppendExtension: nothing for a NULL or empty extension; otherwise
      the extension appended, after a '.' unless it starts with one. */
  function AppendExtension(str: Str, ext: Option<Str>): (r: Str)
    ensures ext.None? || ext == Some([]) ==> r == str
    ensures ext.Some? && |ext.value| > 0 ==>
              |str| < |r| && r[..|str|] == str &&
              (ext.value[0] == '.' ==> r[|str|..] == ext.value) &&
              (ext.value[0] != '.' ==> r[|str|..] == ['.'] + ext.value)
  {
    if ext.None? || |ext.value| == 0 then str
    else
      var withDot := if ext.value[0] != '.' then Concat(str, ".") else str;
      Concat(withDot, ext.value)
  }

  /** Appending an extension without further dots and reading it back
      gives the extension without its leading dot. */
  lemma AppendThenGetExtension(str: Str, ext: Str)
    requires |ext| > 0 && '.' !in ext[1..]
    ensures GetFileExtension(AppendExtension(str, Some(ext))) == if ext[0] == '.' then ext[1..] else ext
  {
    var r := AppendExtension(str, Some(ext));
    var e := if ext[0] == '.' then ext[1..] else ext;
    assert r == str + ['.'] + e by {
      if ext[0] == '.' {
        assert ext == ['.'] + ext[1..];
      }
    }
    assert '.' !in e;
    var p := |str|;
    assert r[p] == '.';
    assert LastDot(r) == p by {
      assert forall i :: p < i < |r| ==> r[i] == e[i - p - 1];
    }
  }
}

=== FILE: silhouette.dfy ===
/** The silhouette-edge pipeline of qEngine.cpp: the directed edges of a
    mesh are sorted by (p1, p2) (edge_cmp_f + qsort), indexed by origin
    vertex (R_SilIndexing), stripped of edges without a reverse twin
    (R_SilPrune), paired with the neighbouring triangle (R_SilFindOtherTri,
    R_SilFillEdge), and completed with one facing byte per triangle
    (R_SilCullFacing, GetSilhouette).

    The vertex index of R_SilIndexing is a malloc'd block of maxIndex ints
    (maxIndex = p1 of the last sorted edge) of which memset clears all
    maxIndex; the loop nevertheless writes slot maxIndex and R_SilPrune
    reads slot maxIndex + 1.  The model keeps those two words as slots
    maxIndex and maxIndex + 1 of the table: their initial contents are the
    parameters `stray` and `past`.  Any other access outside the table is
    a BufferOverrun, and an operator[] outside the edge list an
    IndexOutOfRange. */
module Silhouette {
  import opened Outcomes
  import opened Geometry
  import opened MeshData
  import opened QArray

  // ------------------------------------------------------------ edge_cmp_f

  /** edge_cmp_f: lexicographic comparison on (p1, p2); tri and marked are
      ignored. */
  function Cmp(a: Edge, b: Edge): (r: int)
    ensures -1 <= r <= 1
    ensures r == 0 <==> a.p1 == b.p1 && a.p2 == b.p2
  {
    if a.p1 == b.p1 then
      if a.p2 == b.p2 then 0 else if a.p2 < b.p2 then -1 else 1
    else if a.p1 < b.p1 then -1 else 1
  }

  /** The (p1, p2) pair as one number, an independent statement of the
      lexicographic order. */
  function Key(e: Edge): int { e.p1 * 0x1_0000 + e.p2 }

  /** edge_cmp_f is a total order: its sign is that of Key(a) - Key(b), it
      answers 0 exactly when both end points agree, it is antisymmetric and
      transitive, and it ignores tri and marked. */
  lemma CmpIsLexicographic(a: Edge, b: Edge, c: Edge)
    ensures Cmp(a, b) == -1 || Cmp(a, b) == 0 || Cmp(a, b) == 1
    ensures Cmp(a, b) < 0 <==> Key(a) < Key(b)
    ensures Cmp(a, b) == 0 <==> a.p1 == b.p1 && a.p2 == b.p2
    ensures Cmp(a, b) == -Cmp(b, a)
    ensures Cmp(a, b) <= 0 && Cmp(b, c) <= 0 ==> Cmp(a, c) <= 0
    ensures Cmp(a.(tri := c.tri, marked := c.marked), b) == Cmp(a, b)
  {
  }

  /** Sorted by edge_cmp_f. */
  predicate Sorted(s: seq<Edge>) {
    forall i, j :: 0 <= i < j < |s| ==> Cmp(s[i], s[j]) <= 0
  }

  // ----------------------------------------------------------------- qsort

  /** A head that is not above any element of a sorted tail keeps it sorted. */
  lemma ConsSorted(h: Edge, t: seq<Edge>)
    requires Sorted(t)
    requires forall i :: 0 <= i < |t| ==> Cmp(h, t[i]) <= 0
    ensures Sorted([h] + t)
  {
    var r := [h] + t;
    forall i, j | 0 <= i < j < |r|
      ensures Cmp(r[i], r[j]) <= 0
    {
      if i > 0 {
        assert r[i] == t[i - 1] && r[j] == t[j - 1];
      }
    }
  }

  /** The head of a sorted list is not above anything of a permutation of
      its tail with e added, when e is above the head. */
  lemma HeadBelowInsertion(e: Edge, s: seq<Edge>, t: seq<Edge>)
    requires Sorted(s) && |s| > 0 && Cmp(e, s[0]) > 0
    requires multiset(t) == multiset(s[1..]) + multiset{e}
    ensures forall i :: 0 <= i < |t| ==> Cmp(s[0], t[i]) <= 0
  {
    forall i | 0 <= i < |t|
      ensures Cmp(s[0], t[i]) <= 0
    {
      assert t[i] in multiset(t);
      CmpIsLexicographic(e, s[0], t[i]);
      if t[i] != e {
        assert t[i] in multiset(s[1..]);
        var k :| 0 <= k < |s[1..]| && s[1..][k] == t[i];
        assert Cmp(s[0], s[k + 1]) <= 0;
      }
    }
  }

  /** Inserts e into a sorted list before the first element not below it. */
  function InsertEdge(e: Edge, s: seq<Edge>): (r: seq<Edge>)
    requires Sorted(s)
    ensures Sorted(r)
    ensures multiset(r) == multiset(s) + multiset{e}
  {
    if s == [] then [e]
    else if Cmp(e, s[0]) <= 0 then
      assert forall i :: 0 <= i < |s| ==> Cmp(e, s[i]) <= 0 by {
        forall i | 0 <= i < |s| ensures Cmp(e, s[i]) <= 0 {
          CmpIsLexicographic(e, s[0], s[i]);
        }
      }
      ConsSorted(e, s);
      [e] + s
    else
      var t := InsertEdge(e, s[1..]);
      assert s == [s[0]] + s[1..];
      HeadBelowInsertion(e, s, t);
      ConsSorted(s[0], t);
      [s[0]] + t
  }

  /** What the qsort call of R_SilFillEdge may leave: qsort is not stable,
      so any permutation sorted by edge_cmp_f is a possible outcome, and the
      pipeline below takes that outcome as a parameter. */
  predicate QsortResult(sorted: seq<Edge>, es: seq<Edge>) {
    Sorted(sorted) && multiset(sorted) == multiset(es)
  }

  /** An insertion sort: every list has a qsort outcome. */
  function SortEdges(s: seq<Edge>): (r: seq<Edge>)
    ensures QsortResult(r, s)
    ensures |r| == |s|
  {
    if s == [] then []
    else
      assert s == [s[0]] + s[1..];
      var rest := SortEdges(s[1..]);
      var r := InsertEdge(s[0], rest);
      assert |r| == |multiset(r)| == |multiset(rest)| + 1;
      r
  }

  // ---------------------------------------------------------- R_SilIndexing

  /** The table R_SilIndexing fills: slot v for origin vertex v. */
  type Index = seq<int>

  /** new siledge_index_t(maxIndex) followed by the memset: maxIndex cleared
      ints, then the two words past the block. */
  function Allocate(maxIndex: nat, stray: int, past: int): (t: Index)
    ensures |t| == maxIndex + 2
    ensures forall v :: 0 <= v < maxIndex ==> t[v] == 0
    ensures t[maxIndex] == stray && t[maxIndex + 1] == past
  {
    seq(maxIndex, _ => 0) + [stray, past]
  }

  /** The indexing loop over the first n edges: slot p1 takes position i
      when it still reads 0.  Only slots 0 .. maxIndex are written; an
      origin above maxIndex (possible only in an unsorted list) writes past
      the block. */
  function IndexLoop(es: seq<Edge>, t: Index, n: nat): (r: Result<Index>)
    requires n <= |es| && |t| >= 2
    ensures r.Ok? ==> |r.value| == |t| && r.value[|t| - 1] == t[|t| - 1]
    ensures r.Ok? <==> forall i :: 0 <= i < n ==> es[i].p1 <= |t| - 2
  {
    if n == 0 then Ok(t)
    else
      var prev :- IndexLoop(es, t, n - 1);
      var j := es[n - 1].p1;
      if j > |t| - 2 then Abort(BufferOverrun)
      else if prev[j] == 0 then Ok(prev[j := n - 1])
      else Ok(prev)
  }

  /** R_SilIndexing: nothing happens when an index exists; otherwise the
      last edge must exist (qArr::Last) and gives maxIndex. */
  function Indexing(es: seq<Edge>, index: Option<Index>, stray: int, past: int): (r: Result<Index>)
    ensures index.Some? ==> r == Ok(index.value)
    ensures index.None? && |es| == 0 ==> r == Abort(LastOnEmpty)
    ensures index.None? && |es| > 0 && r.Ok? ==> |r.value| == es[|es| - 1].p1 + 2
  {
    if index.Some? then Ok(index.value)
    else if |es| == 0 then Abort(LastOnEmpty)
    else IndexLoop(es, Allocate(es[|es| - 1].p1, stray, past), |es|)
  }

  /** x is the first position at or after 1 (and before n) whose origin is
      v, or 0 when there is none: what a slot that starts at 0 ends with,
      since position 0 writes 0 and leaves the slot looking unset. */
  predicate FirstAfterHead(es: seq<Edge>, n: int, v: int, x: int)
    requires 0 <= n <= |es|
  {
    (x == 0 && forall i :: 1 <= i < n ==> es[i].p1 != v) ||
    (1 <= x < n && es[x].p1 == v && forall i :: 1 <= i < x ==> es[i].p1 != v)
  }

  /** What the indexing loop leaves in every slot it may write: a slot that
      started non-zero keeps its value; a slot that started at 0 holds the
      first position >= 1 with that origin, or 0. */
  lemma {:induction false} IndexLoopSlots(es: seq<Edge>, t: Index, n: nat)
    requires n <= |es| && |t| >= 2
    requires forall i :: 0 <= i < n ==> es[i].p1 <= |t| - 2
    ensures IndexLoop(es, t, n).Ok?
    ensures forall v :: 0 <= v <= |t| - 2 && t[v] != 0 ==> IndexLoop(es, t, n).value[v] == t[v]
    ensures forall v :: 0 <= v <= |t| - 2 && t[v] == 0 ==> FirstAfterHead(es, n, v, IndexLoop(es, t, n).value[v])
  {
    if n > 0 {
      IndexLoopSlots(es, t, n - 1);
      var prev := IndexLoop(es, t, n - 1).value;
      var r := IndexLoop(es, t, n).value;
      var j := es[n - 1].p1;
      forall v | 0 <= v <= |t| - 2 && t[v] == 0
        ensures FirstAfterHead(es, n, v, r[v])
      {
        assert FirstAfterHead(es, n - 1, v, prev[v]);
        if v == j && prev[v] == 0 {
          assert r[v] == n - 1;
          if n - 1 == 0 {
            assert r[v] == 0;
          }
        }
      }
    }
  }

  /** R_SilIndexing on a non-empty sorted list.  Every slot below maxIndex,
      and slot maxIndex when its stray word happens to be 0, holds the first
      position >= 1 whose origin is that vertex, or 0 when there is none; so
      0 means both "no edge" and "first edge at position 0".  Besides the
      head vertex, a vertex's slot is exactly its first position; the head
      vertex's slot is 1 when the second edge shares its origin and 0
      otherwise.  A non-zero stray word in slot maxIndex is never
      overwritten, and the word after it is left alone. */
  lemma IndexingSorted(es: seq<Edge>, stray: int, past: int)
    requires Sorted(es) && |es| > 0
    ensures var maxIndex := es[|es| - 1].p1;
            var r := Indexing(es, None, stray, past);
            r.Ok? && |r.value| == maxIndex + 2 && r.value[maxIndex + 1] == past &&
            (stray != 0 ==> r.value[maxIndex] == stray) &&
            (forall v :: 0 <= v <= maxIndex && (v < maxIndex || stray == 0) ==>
               FirstAfterHead(es, |es|, v, r.value[v])) &&
            (forall v :: 0 <= v <= maxIndex && (v < maxIndex || stray == 0) && v != es[0].p1 ==>
               ((r.value[v] == 0 <==> forall i :: 0 <= i < |es| ==> es[i].p1 != v) &&
                (r.value[v] != 0 ==> es[r.value[v]].p1 == v && forall i :: 0 <= i < r.value[v] ==> es[i].p1 != v))) &&
            ((es[0].p1 < maxIndex || stray == 0) ==>
               r.value[es[0].p1] == (if |es| >= 2 && es[1].p1 == es[0].p1 then 1 else 0))
  {
    var maxIndex := es[|es| - 1].p1;
    var t := Allocate(maxIndex, stray, past);
    assert forall i :: 0 <= i < |es| ==> es[i].p1 <= |t| - 2 by {
      forall i | 0 <= i < |es| ensures es[i].p1 <= |t| - 2 {
        if i < |es| - 1 {
          assert Cmp(es[i], es[|es| - 1]) <= 0;
        }
      }
    }
    IndexLoopSlots(es, t, |es|);
    var r := IndexLoop(es, t, |es|).value;
    var a := es[0].p1;
    if (a < maxIndex || stray == 0) && |es| >= 2 && es[1].p1 != a {
      assert FirstAfterHead(es, |es|, a, r[a]);
    }
  }

  // ------------------------------------------------------------ R_SilPrune

  /** The twin test R_SilPrune applies to edge e: false when index[p2] is
      0; otherwise true iff some position j in [index[p2], index[p2 + 1])
      holds an edge ending at e.p1.  Every position of that range is read,
      so a range reaching outside the list stops the program. */
  function HasTwin(es: seq<Edge>, index: Index, e: Edge): (r: Result<bool>)
    ensures r.Ok? <==>
              e.p2 < |index| &&
              (index[e.p2] != 0 ==>
                 e.p2 + 1 < |index| &&
                 (index[e.p2] < index[e.p2 + 1] ==> 0 <= index[e.p2] && index[e.p2 + 1] <= |es|))
    ensures r == Ok(true) <==>
              e.p2 + 1 < |index| && index[e.p2] != 0 &&
              0 <= index[e.p2] && index[e.p2 + 1] <= |es| &&
              exists j :: index[e.p2] <= j < index[e.p2 + 1] && es[j].p2 == e.p1
  {
    if e.p2 >= |index| then Abort(BufferOverrun)
    else if index[e.p2] == 0 then Ok(false)
    else if e.p2 + 1 >= |index| then Abort(BufferOverrun)
    else
      var lo := index[e.p2];
      var hi := index[e.p2 + 1];
      if lo >= hi then Ok(false)
      else if lo < 0 || hi > |es| then Abort(IndexOutOfRange)
      else Ok(exists j :: lo <= j < hi && es[j].p2 == e.p1)
  }

  /** The pruning loop over the first n edges, appending each survivor to
      `processed`. */
  function PruneLoop(es: seq<Edge>, index: Index, n: nat): (r: Result<seq<Edge>>)
    requires n <= |es|
    ensures r.Ok? ==> |r.value| <= n
    ensures r.Ok? <==> forall i :: 0 <= i < n ==> HasTwin(es, index, es[i]).Ok?
  {
    if n == 0 then Ok([])
    else
      var prev :- PruneLoop(es, index, n - 1);
      var keep :- HasTwin(es, index, es[n - 1]);
      if keep then Ok(prev + [es[n - 1]]) else Ok(prev)
  }

  /** a is a subsequence of b: b with some elements deleted, order kept. */
  predicate IsSubsequence<T(==)>(a: seq<T>, b: seq<T>)
    decreases |b|
  {
    |a| == 0 ||
    (|b| > 0 &&
     ((a[|a| - 1] == b[|b| - 1] && IsSubsequence(a[..|a| - 1], b[..|b| - 1])) ||
      IsSubsequence(a, b[..|b| - 1])))
  }

  /** The pruned list is an order-preserving subsequence of the input. */
  lemma {:induction false} PruneLoopSubsequence(es: seq<Edge>, index: Index, n: nat)
    requires n <= |es| && PruneLoop(es, index, n).Ok?
    ensures IsSubsequence(PruneLoop(es, index, n).value, es[..n])
  {
    if n > 0 {
      PruneLoopSubsequence(es, index, n - 1);
      var prev := PruneLoop(es, index, n - 1).value;
      var r := PruneLoop(es, index, n).value;
      assert es[..n][..n - 1] == es[..n - 1];
      if HasTwin(es, index, es[n - 1]) == Ok(true) {
        assert r[..|r| - 1] == prev;
      }
    }
  }

  /** The pruned list holds exactly the edges passing the twin test. */
  lemma {:induction false} PruneLoopMembers(es: seq<Edge>, index: Index, n: nat)
    requires n <= |es| && PruneLoop(es, index, n).Ok?
    ensures forall x :: x in PruneLoop(es, index, n).value ==> x in es[..n] && HasTwin(es, index, x) == Ok(true)
    ensures forall i :: 0 <= i < n && HasTwin(es, index, es[i]) == Ok(true) ==> es[i] in PruneLoop(es, index, n).value
  {
    if n > 0 {
      PruneLoopMembers(es, index, n - 1);
      var prev := PruneLoop(es, index, n - 1).value;
      var r := PruneLoop(es, index, n).value;
      assert es[..n] == es[..n - 1] + [es[n - 1]];
      assert forall x :: x in prev ==> x in r;
    }
  }

  /** R_SilPrune: builds the index first when there is none, Adds the
      edges with a twin, in their original order, to an array whose
      capacity hint is the list's size, and replaces the list by them; the
      index is returned for later use. */
  function Prune(es: seq<Edge>, index: Option<Index>, stray: int, past: int): (r: Result<(seq<Edge>, Index)>)
    ensures index.None? && |es| == 0 ==> r == Abort(LastOnEmpty)
    ensures r.Ok? ==> |r.value.0| <= |es|
    ensures r.Ok? ==> Indexing(es, index, stray, past) == Ok(r.value.1)
    ensures r.Ok? ==> PruneLoop(es, r.value.1, |es|) == Ok(r.value.0)
  {
    var idx :- Indexing(es, index, stray, past);
    var kept :- PruneLoop(es, idx, |es|);
    var processed :- AddSeq(NewHint(ToU16(|es|)), kept);
    assert processed.elems == [] + kept == kept;
    Ok((processed.elems, idx))
  }

  /** A list of fewer than 2^15 edges, as GenEdgeList returns, never
      overflows the survivors' array: Prune fails only where the index
      building or a twin test fails. */
  lemma PruneSurvivorsFit(es: seq<Edge>, index: Option<Index>, stray: int, past: int)
    requires |es| < 0x8000
    ensures Prune(es, index, stray, past).Ok? <==>
            Indexing(es, index, stray, past).Ok? && PruneLoop(es, Indexing(es, index, stray, past).value, |es|).Ok?
  {
    if Indexing(es, index, stray, past).Ok? {
      var idx := Indexing(es, index, stray, past).value;
      if PruneLoop(es, idx, |es|).Ok? {
        AddSeqFits(NewHint<Edge>(ToU16(|es|)), PruneLoop(es, idx, |es|).value);
      }
    }
  }

  /** The whole of R_SilPrune's promise: the survivors are a subsequence of
      the list, and an edge survives iff its twin test holds. */
  lemma PruneKeepsTwinned(es: seq<Edge>, index: Option<Index>, stray: int, past: int)
    requires Prune(es, index, stray, past).Ok?
    ensures var (kept, idx) := Prune(es, index, stray, past).value;
            IsSubsequence(kept, es) &&
            (forall x :: x in kept ==> x in es && HasTwin(es, idx, x) == Ok(true)) &&
            (forall i :: 0 <= i < |es| && HasTwin(es, idx, es[i]) == Ok(true) ==> es[i] in kept)
  {
    var idx := Indexing(es, index, stray, past).value;
    PruneLoopSubsequence(es, idx, |es|);
    PruneLoopMembers(es, idx, |es|);
    assert es[..|es|] == es;
  }

  /** The sentinel defect: in a sorted list whose first two edges leave the
      same vertex a, slot a reads 1, so the scan for a twin of any edge
      ending at a starts at position 1 and never sees the edge at position
      0. */
  lemma HeadEdgeInvisible(es: seq<Edge>, stray: int, past: int, e: Edge)
    requires Sorted(es) && |es| >= 2 && es[1].p1 == es[0].p1
    requires es[0].p1 < es[|es| - 1].p1 || stray == 0
    requires e.p2 == es[0].p1
    ensures var idx := Indexing(es, None, stray, past).value;
            idx[e.p2] == 1 &&
            (HasTwin(es, idx, e) == Ok(true) <==>
               e.p2 + 1 < |idx| && idx[e.p2 + 1] <= |es| &&
               exists j :: 1 <= j < idx[e.p2 + 1] && es[j].p2 == e.p1)
  {
    IndexingSorted(es, stray, past);
  }

  // ------------------------------------------------------ R_SilFindOtherTri

  /** m is the first position of [j, hi) holding an edge that ends at
      ea.p1, every position before it lying inside the list. */
  predicate FirstTwinAt(es: seq<Edge>, ea: Edge, j: int, hi: int, m: int) {
    0 <= j <= m < hi && m < |es| && es[m].p2 == ea.p1 &&
    forall i :: j <= i < m ==> es[i].p2 != ea.p1
  }

  /** No position of [j, hi) holds an edge ending at ea.p1, and all of them
      lie inside the list. */
  predicate NoTwin(es: seq<Edge>, ea: Edge, j: int, hi: int) {
    (j < hi ==> 0 <= j && hi <= |es|) &&
    forall i :: j <= i < hi ==> es[i].p2 != ea.p1
  }

  /** The scan of R_SilFindOtherTri from position j up to (excluding) hi:
      the tri of the first edge ending at ea.p1, or -1. */
  function FindFrom(es: seq<Edge>, ea: Edge, j: int, hi: int): (r: Result<int>)
    decreases hi - j
    ensures j >= hi || (0 <= j && hi <= |es|) ==> r.Ok?
    ensures r.Ok? ==> (exists m :: FirstTwinAt(es, ea, j, hi, m) && r.value == es[m].tri) ||
                      (NoTwin(es, ea, j, hi) && r.value == -1)
  {
    if j >= hi then Ok(-1)
    else if j < 0 || j >= |es| then Abort(IndexOutOfRange)
    else if es[j].p2 == ea.p1 then
      assert FirstTwinAt(es, ea, j, hi, j);
      Ok(es[j].tri)
    else
      var r := FindFrom(es, ea, j + 1, hi);
      ScanStep(es, ea, j, hi);
      r
  }

  /** Stepping over a position that is inside the list and holds no twin
      keeps both outcomes of the scan. */
  lemma ScanStep(es: seq<Edge>, ea: Edge, j: int, hi: int)
    requires 0 <= j < |es| && j < hi && es[j].p2 != ea.p1
    ensures forall m :: FirstTwinAt(es, ea, j + 1, hi, m) ==> FirstTwinAt(es, ea, j, hi, m)
    ensures NoTwin(es, ea, j + 1, hi) ==> NoTwin(es, ea, j, hi)
  {
  }

  /** R_SilFindOtherTri: the scan over [index[ea.p2], index[ea.p2 + 1]). */
  function FindOtherTri(es: seq<Edge>, ea: Edge, index: Index): (r: Result<int>)
    ensures ea.p2 + 1 >= |index| ==> r == Abort(BufferOverrun)
    ensures ea.p2 + 1 < |index| ==> r == FindFrom(es, ea, index[ea.p2], index[ea.p2 + 1])
  {
    if ea.p2 + 1 >= |index| then Abort(BufferOverrun)
    else FindFrom(es, ea, index[ea.p2], index[ea.p2 + 1])
  }

  /** Over a range inside the list, FindOtherTri never stops the program
      and answers the tri of the first edge of the range ending at ea.p1,
      or -1 when the range holds none. */
  lemma FindOtherTriInRange(es: seq<Edge>, ea: Edge, index: Index)
    requires ea.p2 + 1 < |index| && 0 <= index[ea.p2] && index[ea.p2 + 1] <= |es|
    ensures var lo, hi := index[ea.p2], index[ea.p2 + 1];
            var r := FindOtherTri(es, ea, index);
            r.Ok? &&
            ((exists m :: FirstTwinAt(es, ea, lo, hi, m) && r.value == es[m].tri) ||
             (NoTwin(es, ea, lo, hi) && r.value == -1))
  {
  }

  // --------------------------------------------------------- R_SilFillEdge

  /** siledge_t: the two triangles sharing the edge (p1, p2), its end
      vertices (v1, v2), and the silhouette flag, left 0 by calloc. */
  datatype SilEdge = SilEdge(p1: int, p2: int, v1: int, v2: int, flag: byte)

  /** The record loop of R_SilFillEdge over the first n edges, writing into
      sil.sil, which has room for `room` records.  An edge whose marked
      byte is set is skipped; the loop sets marked only on its local copy,
      so the list itself never changes. */
  function RecordLoop(es: seq<Edge>, index: Index, n: nat, room: nat): (r: Result<seq<SilEdge>>)
    requires n <= |es|
    ensures r.Ok? ==> |r.value| <= n && |r.value| <= room
  {
    if n == 0 then Ok([])
    else
      var prev :- RecordLoop(es, index, n - 1, room);
      var k := es[n - 1];
      if k.marked != 0 then Ok(prev)
      else if |prev| >= room then Abort(BufferOverrun)
      else
        var other :- FindOtherTri(es, k, index);
        Ok(prev + [SilEdge(k.tri, other, k.p1, k.p2, 0)])
  }

  /** With no marked edge and room enough, the loop writes one record per
      edge, in list order: v1 = p1, v2 = p2, p1 = tri, p2 = the other
      triangle found for it. */
  lemma {:induction false} RecordLoopOnePerEdge(es: seq<Edge>, index: Index, n: nat, room: nat)
    requires n <= |es| && n <= room
    requires forall i :: 0 <= i < n ==> es[i].marked == 0
    requires RecordLoop(es, index, n, room).Ok?
    ensures var recs := RecordLoop(es, index, n, room).value;
            |recs| == n &&
            forall i :: 0 <= i < n ==>
              FindOtherTri(es, es[i], index).Ok? &&
              recs[i] == SilEdge(es[i].tri, FindOtherTri(es, es[i], index).value, es[i].p1, es[i].p2, 0)
  {
    if n > 0 {
      RecordLoopOnePerEdge(es, index, n - 1, room);
    }
  }

  /** The edge stages of R_SilFillEdge for an index array: GenEdgeList,
      the qsort (whose outcome is `sorted`), and R_SilPrune with no index
      yet. */
  function PrunedEdges(index: seq<u16>, sorted: seq<Edge>, stray: int, past: int): (r: Result<(seq<Edge>, Index)>)
    requires QsortResult(sorted, EdgeList(index))
    ensures |index| < 3 ==> r == Abort(LastOnEmpty)
    ensures 3 * (|index| / 3) >= 0x8000 ==> r == Abort(BufferOverrun)
    ensures r.Ok? ==> r == Prune(sorted, None, stray, past)
  {
    var generated :- GenEdgeList(index);
    assert |sorted| == |multiset(sorted)| == |EdgeList(index)|;
    Prune(sorted, None, stray, past)
  }

  /** R_SilFillEdge for a mesh whose index array is `index` (numIndex
      entries, so sil.sil has numIndex records of room). */
  function FillEdge(index: seq<u16>, sorted: seq<Edge>, stray: int, past: int): (r: Result<seq<SilEdge>>)
    requires QsortResult(sorted, EdgeList(index))
    ensures |index| < 3 ==> r == Abort(LastOnEmpty)
    ensures r.Ok? ==> PrunedEdges(index, sorted, stray, past).Ok?
  {
    var (pruned, idx) :- PrunedEdges(index, sorted, stray, past);
    RecordLoop(pruned, idx, |pruned|, |index|)
  }

  /** R_SilFillEdge never skips an edge (no edge of the list is ever
      marked) and never runs out of record room: it writes exactly one
      record per pruned edge, both directions of a shared edge included,
      and at most numIndex records. */
  lemma FillEdgeOneRecordPerPrunedEdge(index: seq<u16>, sorted: seq<Edge>, stray: int, past: int)
    requires QsortResult(sorted, EdgeList(index))
    requires FillEdge(index, sorted, stray, past).Ok?
    ensures var (pruned, idx) := PrunedEdges(index, sorted, stray, past).value;
            var recs := FillEdge(index, sorted, stray, past).value;
            |recs| == |pruned| <= |index| &&
            forall i :: 0 <= i < |pruned| ==>
              recs[i].v1 == pruned[i].p1 && recs[i].v2 == pruned[i].p2 && recs[i].p1 == pruned[i].tri &&
              FindOtherTri(pruned, pruned[i], idx) == Ok(recs[i].p2)
  {
    var pr := PrunedEdges(index, sorted, stray, past);
    var pruned, idx := pr.value.0, pr.value.1;
    assert FillEdge(index, sorted, stray, past) == RecordLoop(pruned, idx, |pruned|, |index|);
    PrunedEdgesUnmarked(index, sorted, stray, past);
    RecordLoopOnePerEdge(pruned, idx, |pruned|, |index|);
  }

  /** The pruned list holds at most numIndex edges, none of them marked. */
  lemma PrunedEdgesUnmarked(index: seq<u16>, sorted: seq<Edge>, stray: int, past: int)
    requires QsortResult(sorted, EdgeList(index))
    requires PrunedEdges(index, sorted, stray, past).Ok?
    ensures var pruned := PrunedEdges(index, sorted, stray, past).value.0;
            |pruned| <= |index| && forall i :: 0 <= i < |pruned| ==> pruned[i].marked == 0
  {
    var pruned := PrunedEdges(index, sorted, stray, past).value.0;
    assert PrunedEdges(index, sorted, stray, past) == Prune(sorted, None, stray, past);
    SortedEdgesUnmarked(index, sorted);
    PruneKeepsTwinned(sorted, None, stray, past);
    forall i | 0 <= i < |pruned|
      ensures pruned[i].marked == 0
    {
      assert pruned[i] in sorted;
    }
  }

  /** The qsort outcome of a GenEdgeList holds at most numIndex edges, none
      of them marked. */
  lemma SortedEdgesUnmarked(index: seq<u16>, sorted: seq<Edge>)
    requires QsortResult(sorted, EdgeList(index))
    ensures |sorted| <= |index|
    ensures forall x :: x in sorted ==> x.marked == 0
  {
    var es := EdgeList(index);
    forall x | x in sorted ensures x.marked == 0 {
      assert x in multiset(es);
    }
    assert |sorted| == |multiset(sorted)| == |es|;
  }

  // ------------------------------------------------------- R_SilCullFacing

  /** The reciprocal length Normalize applies to a vector: square roots
      are not modelled, so the caller supplies it. */
  type InvLength = Vec3 -> real

  /** The facing byte of triangle t: 1 iff the plane through its three
      vertices puts the light PS_OUT. */
  function FacingOf(index: seq<u16>, verts: seq<Vec3>, light: Vec3, invLen: InvLength, t: nat): (r: Result<byte>)
    requires 3 * t + 2 < |index|
    ensures r.Ok? <==> index[3 * t] < |verts| && index[3 * t + 1] < |verts| && index[3 * t + 2] < |verts|
  {
    var a, b, c := index[3 * t], index[3 * t + 1], index[3 * t + 2];
    if a >= |verts| || b >= |verts| || c >= |verts| then Abort(BufferOverrun)
    else
      var v1, v2, v3 := verts[a], verts[b], verts[c];
      var pl := PlaneFromPoints(v1, v2, v3, invLen(Cross(Sub(v3, v1), Sub(v2, v1))));
      Ok(if Side(pl, light) == PS_OUT then 1 else 0)
  }

  /** The facing bytes of the first n triangles. */
  function FacingLoop(index: seq<u16>, verts: seq<Vec3>, light: Vec3, invLen: InvLength, n: nat): (r: Result<seq<byte>>)
    requires 3 * n <= |index|
    ensures r.Ok? ==> |r.value| == n
    ensures r.Ok? ==> forall t :: 0 <= t < n ==> FacingOf(index, verts, light, invLen, t) == Ok(r.value[t])
    ensures r.Ok? <==> forall t :: 0 <= t < n ==> FacingOf(index, verts, light, invLen, t).Ok?
  {
    if n == 0 then Ok([])
    else
      var prev :- FacingLoop(index, verts, light, invLen, n - 1);
      var f :- FacingOf(index, verts, light, invLen, n - 1);
      Ok(prev + [f])
  }

  /** R_SilCullFacing: no facing array at all when numIndex <= 0, else one
      byte per complete triangle. */
  function CullFacing(index: seq<u16>, verts: seq<Vec3>, light: Vec3, invLen: InvLength): (r: Result<Option<seq<byte>>>)
    ensures |index| == 0 ==> r == Ok(None)
    ensures |index| > 0 && r.Ok? ==> r.value.Some? && |r.value.value| == |index| / 3
  {
    if |index| <= 0 then Ok(None)
    else
      var f :- FacingLoop(index, verts, light, invLen, |index| / 3);
      Ok(Some(f))
  }

  /** The three-point Plane leaves the normal zero, so no triangle is ever
      classified as facing: every byte R_SilCullFacing writes is 0. */
  lemma FacingAlwaysZero(index: seq<u16>, verts: seq<Vec3>, light: Vec3, invLen: InvLength)
    requires CullFacing(index, verts, light, invLen).Ok?
    ensures var f := CullFacing(index, verts, light, invLen).value;
            f.Some? ==> forall t :: 0 <= t < |f.value| ==> f.value[t] == 0
  {
    var f := CullFacing(index, verts, light, invLen).value;
    if f.Some? {
      forall t | 0 <= t < |f.value| ensures f.value[t] == 0 {
        assert FacingOf(index, verts, light, invLen, t) == Ok(f.value[t]);
        var a, b, c := index[3 * t], index[3 * t + 1], index[3 * t + 2];
        var v1, v2, v3 := verts[a], verts[b], verts[c];
        var pl := PlaneFromPoints(v1, v2, v3, invLen(Cross(Sub(v3, v1), Sub(v2, v1))));
        ZeroNormalNeverOut(pl, light);
      }
    }
  }

  // --------------------------------------------------------- GetSilhouette

  /** The mesh arrays GetSilhouette reads: the index array (numIndex
      entries) and the vertex positions. */
  datatype Model = Model(index: seq<u16>, verts: seq<Vec3>)

  /** silhouette_t without its entity pointer: numSilEdges is |edges|. */
  datatype Sil = Sil(edges: seq<SilEdge>, facing: seq<byte>)

  /** qEngine::GetSilhouette: NULL for a missing entity or light; otherwise
      the edge records, then the facing bytes, and NULL when no facing
      array was produced. */
  function GetSilhouette(entity: Option<Model>, light: Option<Vec3>, sorted: seq<Edge>, stray: int, past: int, invLen: InvLength): (r: Result<Option<Sil>>)
    requires entity.Some? ==> QsortResult(sorted, EdgeList(entity.value.index))
    ensures entity.None? || light.None? ==> r == Ok(None)
    ensures r.Ok? && r.value.Some? ==>
              entity.Some? && light.Some? &&
              Ok(r.value.value.edges) == FillEdge(entity.value.index, sorted, stray, past) &&
              Ok(Some(r.value.value.facing)) == CullFacing(entity.value.index, entity.value.verts, light.value, invLen)
  {
    if entity.None? || light.None? then Ok(None)
    else
      var m := entity.value;
      var edges :- FillEdge(m.index, sorted, stray, past);
      var facing :- CullFacing(m.index, m.verts, light.value, invLen);
      if facing.None? then Ok(None)
      else Ok(Some(Sil(edges, facing.value)))
  }

  /** For an entity and a light, the NULL-facing branch is unreachable: a
      mesh with fewer than three indices has no edges and stops at
      edges.Last() before facing is computed, and any other mesh gets a
      facing array. */
  lemma GetSilhouetteNeverNullForLoadedInputs(m: Model, light: Vec3, sorted: seq<Edge>, stray: int, past: int, invLen: InvLength)
    requires QsortResult(sorted, EdgeList(m.index))
    ensures |m.index| < 3 ==> GetSilhouette(Some(m), Some(light), sorted, stray, past, invLen) == Abort(LastOnEmpty)
    ensures GetSilhouette(Some(m), Some(light), sorted, stray, past, invLen) != Ok(None)
  {
  }
}

=== FILE: silhouette_cases.dfy ===
/** Small meshes run through the silhouette pipeline, exhibiting the
    defects of qEngine.cpp's index: the stale index reused after pruning,
    the 0 sentinel that hides the edge at position 0, and the uncleared
    word at slot maxIndex. */
module SilhouetteCases {
  import opened Outcomes
  import opened MeshData
  import opened Silhouette

  /** A quad split into triangles (0, 1, 2) and (0, 2, 3): the diagonal
      0 - 2 is the only shared edge. */
  const QuadIndex: seq<u16> := [0, 1, 2, 0, 2, 3]

  /** Its edges sorted by (p1, p2); the end-point pairs are distinct, so
      this is the only qsort outcome. */
  const QuadSorted: seq<Edge> :=
    [Edge(0, 1, 0, 0), Edge(0, 2, 1, 0), Edge(1, 2, 0, 0), Edge(2, 0, 0, 0), Edge(2, 3, 1, 0), Edge(3, 0, 1, 0)]

  lemma QuadEdges()
    ensures EdgeList(QuadIndex) ==
      [Edge(0, 1, 0, 0), Edge(1, 2, 0, 0), Edge(2, 0, 0, 0), Edge(0, 2, 1, 0), Edge(2, 3, 1, 0), Edge(3, 0, 1, 0)]
  {
  }

  lemma QuadSortedIsQsortResult()
    ensures QsortResult(QuadSorted, EdgeList(QuadIndex))
  {
    QuadEdges();
    var a, b, c, d, e, f := Edge(0, 1, 0, 0), Edge(0, 2, 1, 0), Edge(1, 2, 0, 0), Edge(2, 0, 0, 0), Edge(2, 3, 1, 0), Edge(3, 0, 1, 0);
    assert [a, b, c, d, e, f] == [a] + [b] + [c, d] + [e, f];
    assert [a, c, d, b, e, f] == [a] + [c, d] + [b] + [e, f];
  }

  /** The quad's vertex index: slot 0 reads 1 (not 0, the position of the
      first edge leaving vertex 0), and slot 3, one past the maxIndex ints
      allocated, keeps whatever word was there unless that word is 0. */
  lemma QuadIndexing(stray: int)
    ensures Indexing(QuadSorted, None, stray, 0) == Ok([1, 2, 3, if stray == 0 then 5 else stray, 0])
  {
    var s: seq<Edge> := [Edge(0, 1, 0, 0), Edge(0, 2, 1, 0), Edge(1, 2, 0, 0), Edge(2, 0, 0, 0), Edge(2, 3, 1, 0), Edge(3, 0, 1, 0)];
    var t := Allocate(3, stray, 0);
    assert t == [0, 0, 0, stray, 0];
    assert t[0 := 0] == t;
    assert IndexLoop(s, t, 1) == Ok(t);
    assert t[0 := 1] == [1, 0, 0, stray, 0];
    assert IndexLoop(s, t, 2) == Ok([1, 0, 0, stray, 0]);
    assert [1, 0, 0, stray, 0][1 := 2] == [1, 2, 0, stray, 0];
    assert IndexLoop(s, t, 3) == Ok([1, 2, 0, stray, 0]);
    assert [1, 2, 0, stray, 0][2 := 3] == [1, 2, 3, stray, 0];
    assert IndexLoop(s, t, 4) == Ok([1, 2, 3, stray, 0]);
    assert IndexLoop(s, t, 5) == Ok([1, 2, 3, stray, 0]);
    assert [1, 2, 3, stray, 0][3 := 5] == [1, 2, 3, 5, 0];
  }

  /** Pruning the quad keeps the two directions of the diagonal. */
  lemma QuadPrune()
    ensures Prune(QuadSorted, None, 0, 0) == Ok(([Edge(0, 2, 1, 0), Edge(2, 0, 0, 0)], [1, 2, 3, 5, 0]))
  {
    QuadIndexing(0);
    var s: seq<Edge> := [Edge(0, 1, 0, 0), Edge(0, 2, 1, 0), Edge(1, 2, 0, 0), Edge(2, 0, 0, 0), Edge(2, 3, 1, 0), Edge(3, 0, 1, 0)];
    var idx := [1, 2, 3, 5, 0];
    assert HasTwin(s, idx, s[0]) == Ok(false);
    assert s[3].p2 == s[1].p1;
    assert HasTwin(s, idx, s[1]) == Ok(true);
    assert HasTwin(s, idx, s[2]) == Ok(false);
    assert s[1].p2 == s[3].p1;
    assert HasTwin(s, idx, s[3]) == Ok(true);
    assert HasTwin(s, idx, s[4]) == Ok(false);
    assert HasTwin(s, idx, s[5]) == Ok(false);
    assert PruneLoop(s, idx, 1).value == [];
    assert PruneLoop(s, idx, 1).value + [s[1]] == [Edge(0, 2, 1, 0)];
    assert PruneLoop(s, idx, 2) == Ok([Edge(0, 2, 1, 0)]);
    assert PruneLoop(s, idx, 3) == Ok([Edge(0, 2, 1, 0)]);
    assert [Edge(0, 2, 1, 0)] + [s[3]] == [Edge(0, 2, 1, 0), Edge(2, 0, 0, 0)];
    assert PruneLoop(s, idx, 4) == Ok([Edge(0, 2, 1, 0), Edge(2, 0, 0, 0)]);
    assert PruneLoop(s, idx, 5) == Ok([Edge(0, 2, 1, 0), Edge(2, 0, 0, 0)]);
  }

  /** The stale index: R_SilFillEdge looks up the twin of 0 -> 2 in the
      range [3, 5) of the index built for the six sorted edges, but reads
      it from the two-edge pruned list, so operator[] fails on the quad. */
  lemma QuadFillEdgeFails()
    ensures QsortResult(QuadSorted, EdgeList(QuadIndex))
    ensures FillEdge(QuadIndex, QuadSorted, 0, 0) == Abort(IndexOutOfRange)
  {
    QuadSortedIsQsortResult();
    QuadPrune();
    var idx := [1, 2, 3, 5, 0];
    var pruned := [Edge(0, 2, 1, 0), Edge(2, 0, 0, 0)];
    assert PrunedEdges(QuadIndex, QuadSorted, 0, 0) == Ok((pruned, idx));
    assert FindOtherTri(pruned, pruned[0], idx) == Abort(IndexOutOfRange);
    assert RecordLoop(pruned, idx, 1, 6) == Abort(IndexOutOfRange);
  }

  /** Two triangles (0, 1, 2) and (1, 0, 3) sharing the edge 0 - 1, with
      their edges sorted. */
  const PairSorted: seq<Edge> :=
    [Edge(0, 1, 0, 0), Edge(0, 3, 1, 0), Edge(1, 0, 1, 0), Edge(1, 2, 0, 0), Edge(2, 0, 0, 0), Edge(3, 1, 1, 0)]

  /** The sentinel: slot 0 reads 1, so the twin search for 1 -> 0 starts
      after position 0, where its twin 0 -> 1 sits; pruning keeps 0 -> 1
      and drops 1 -> 0, although both directions of the edge exist. */
  lemma PairLosesOneDirection()
    ensures Sorted(PairSorted) && PairSorted[0] == Edge(0, 1, 0, 0) && PairSorted[2] == Edge(1, 0, 1, 0)
    ensures Prune(PairSorted, None, 0, 0) == Ok(([Edge(0, 1, 0, 0)], [1, 2, 4, 5, 0]))
  {
    var s: seq<Edge> := [Edge(0, 1, 0, 0), Edge(0, 3, 1, 0), Edge(1, 0, 1, 0), Edge(1, 2, 0, 0), Edge(2, 0, 0, 0), Edge(3, 1, 1, 0)];
    var t := Allocate(3, 0, 0);
    assert t == [0, 0, 0, 0, 0];
    assert t[0 := 0] == t;
    assert IndexLoop(s, t, 1) == Ok(t);
    assert t[0 := 1] == [1, 0, 0, 0, 0];
    assert IndexLoop(s, t, 2) == Ok([1, 0, 0, 0, 0]);
    assert [1, 0, 0, 0, 0][1 := 2] == [1, 2, 0, 0, 0];
    assert IndexLoop(s, t, 3) == Ok([1, 2, 0, 0, 0]);
    assert IndexLoop(s, t, 4) == Ok([1, 2, 0, 0, 0]);
    assert [1, 2, 0, 0, 0][2 := 4] == [1, 2, 4, 0, 0];
    assert IndexLoop(s, t, 5) == Ok([1, 2, 4, 0, 0]);
    assert [1, 2, 4, 0, 0][3 := 5] == [1, 2, 4, 5, 0];
    var idx := [1, 2, 4, 5, 0];
    assert Indexing(s, None, 0, 0) == Ok(idx);
    assert s[2].p2 == s[0].p1;
    assert HasTwin(s, idx, s[0]) == Ok(true);
    assert HasTwin(s, idx, s[1]) == Ok(false);
    assert HasTwin(s, idx, s[2]) == Ok(false);
    assert HasTwin(s, idx, s[3]) == Ok(false);
    assert HasTwin(s, idx, s[4]) == Ok(false);
    assert HasTwin(s, idx, s[5]) == Ok(false);
    assert PruneLoop(s, idx, 0).value + [s[0]] == [Edge(0, 1, 0, 0)];
    assert PruneLoop(s, idx, 1) == Ok([Edge(0, 1, 0, 0)]);
    assert PruneLoop(s, idx, 2) == Ok([Edge(0, 1, 0, 0)]);
    assert PruneLoop(s, idx, 3) == Ok([Edge(0, 1, 0, 0)]);
    assert PruneLoop(s, idx, 4) == Ok([Edge(0, 1, 0, 0)]);
    assert PruneLoop(s, idx, 5) == Ok([Edge(0, 1, 0, 0)]);
  }
}

=== FILE: tga.dfy ===
/** The screenshot encoding of qEngine::Snapshot: an 18-byte header in the
    layout of the Truevision TGA File Format Specification 2.0, followed
    by the colour buffer with the red and blue byte of every 4-byte pixel
    exchanged (OpenGL's RGBA becomes the BGRA that TGA stores). */
module Tga {
  import opened Outcomes

  /** The header length, fields 1 to 5 of the TGA header. */
  const HeaderLength: nat := 18

  /** Field 3, Image Type 2: uncompressed true-colour. */
  const TrueColour: byte := 2

  /** Field 5.5, Pixel Depth: 32 bits per pixel. */
  const PixelDepth: byte := 32

  /** The header Snapshot writes: all zero, then byte 2 = 2, bytes 12-13
      the low and high byte of the window width (field 5.3), bytes 14-15
      those of the height (field 5.4), and byte 16 = 32.  Both sizes are
      masked with 0xff and 0xff00, so only their low 16 bits survive. */
  function Header(width: nat, height: nat): (h: seq<byte>)
    ensures |h| == HeaderLength
    ensures h[2] == TrueColour && h[16] == PixelDepth
    ensures h[12] as int + 256 * h[13] as int == width % 0x1_0000
    ensures h[14] as int + 256 * h[15] as int == height % 0x1_0000
    ensures forall k :: 0 <= k < HeaderLength && k !in {2, 12, 13, 14, 15, 16} ==> h[k] == 0
  {
    var w := width % 0x1_0000;
    var t := height % 0x1_0000;
    [0, 0, TrueColour, 0, 0, 0, 0, 0, 0, 0, 0, 0,
     w % 0x100, w / 0x100, t % 0x100, t / 0x100, PixelDepth, 0]
  }

  /** Little-endian decoding of a 16-bit header field. */
  function Field16(h: seq<byte>, at: nat): nat
    requires at + 1 < |h|
  {
    h[at] as int + 256 * h[at + 1] as int
  }

  /** A reader of the header recovers the image type, the pixel depth and
      the width and height, for sizes below 2^16. */
  lemma HeaderRoundTrip(width: nat, height: nat)
    requires width < 0x1_0000 && height < 0x1_0000
    ensures var h := Header(width, height);
            h[2] == 2 && h[16] == 32 && Field16(h, 12) == width && Field16(h, 14) == height
  {
  }

  /** The colour buffer after the exchange loop: in each 4-byte pixel byte
      0 and byte 2 trade places and bytes 1 and 3 stay. */
  function SwapRedBlue(data: seq<byte>): (r: seq<byte>)
    requires |data| % 4 == 0
    ensures |r| == |data|
    ensures forall p :: 0 <= p < |data| / 4 ==>
              r[4 * p] == data[4 * p + 2] && r[4 * p + 2] == data[4 * p] &&
              r[4 * p + 1] == data[4 * p + 1] && r[4 * p + 3] == data[4 * p + 3]
  {
    seq(|data|, k requires 0 <= k < |data| =>
      if k % 4 == 0 then data[k + 2] else if k % 4 == 2 then data[k - 2] else data[k])
  }

  /** The exchange is an involution: doing it twice restores the buffer. */
  lemma SwapRedBlueInvolution(data: seq<byte>)
    requires |data| % 4 == 0
    ensures SwapRedBlue(SwapRedBlue(data)) == data
  {
    var r := SwapRedBlue(SwapRedBlue(data));
    forall k | 0 <= k < |data|
      ensures r[k] == data[k]
    {
      var p := k / 4;
      assert k == 4 * p + k % 4;
    }
  }

  /** The pixel count windowWidth * windowHeight as Snapshot computes it:
      a product of two unsigned ints, wrapping modulo 2^32.  calloc, the
      exchange loop and the final Write all take this count. */
  function PixelCount(width: u32, height: u32): (n: u32)
    ensures width * height < 0x1_0000_0000 ==> n == width * height
    ensures n <= width * height
  {
    var product: nat := width * height;
    product % 0x1_0000_0000
  }

  /** A window of 2^16 by 2^16 pixels gives a pixel count of 0: the buffer
      is empty and the file holds the header alone, even though that header
      announces no size either (both fields are 2^16 mod 2^16 = 0). */
  lemma PixelCountWraps()
    ensures PixelCount(0x1_0000, 0x1_0000) == 0
    ensures PixelCount(0x1_0000, 0x1_0001) == 0x1_0000
  {
  }

  /** Snapshot's loop over the windowWidth * windowHeight pixels, moving a
      pointer four bytes at a time. */
  method ConvertPixels(data: seq<byte>, pixels: nat) returns (r: seq<byte>)
    requires |data| == 4 * pixels
    ensures r == SwapRedBlue(data)
  {
    r := data;
    var i := 0;
    while i < pixels
      invariant 0 <= i <= pixels
      invariant |r| == |data|
      invariant forall k :: 0 <= k < 4 * i ==> r[k] == SwapRedBlue(data)[k]
      invariant forall k :: 4 * i <= k < |data| ==> r[k] == data[k]
    {
      var tmp := r[4 * i];
      r := r[4 * i := r[4 * i + 2]];
      r := r[4 * i + 2 := tmp];
      i := i + 1;
    }
  }

  /** The count File::Write receives: its parameter is an int, so the
      unsigned pixel count is read as a 32-bit two's-complement value. */
  function WriteCount(n: u32): (c: int)
    ensures n < 0x8000_0000 ==> c == n
    ensures n >= 0x8000_0000 ==> c < 0 && c % 0x1_0000_0000 == n
  {
    if n < 0x8000_0000 then n else n - 0x1_0000_0000
  }

  /** A 2^16 by 2^15 window has 2^31 pixels, which File::Write receives as
      a negative count. */
  lemma WriteCountTurnsNegative()
    ensures PixelCount(0x1_0000, 0x8000) == 0x8000_0000
    ensures WriteCount(PixelCount(0x1_0000, 0x8000)) == -0x8000_0000
  {
  }

  /** The file Snapshot writes: the header, then the converted buffer.  The
      colour buffer is what calloc and glReadPixels leave in the
      PixelCount(width, height) * 4 bytes allocated.  The pixel data goes
      through File::Write, whose count is an int: from 2^31 pixels on it
      is negative, fwrite receives it as a huge element count and reads
      past the buffer, which is BufferOverrun. */
  method Snapshot(width: u32, height: u32, colour: seq<byte>) returns (r: Result<seq<byte>>)
    requires |colour| == 4 * PixelCount(width, height)
    ensures r.Abort? <==> PixelCount(width, height) >= 0x8000_0000
    ensures r.Abort? ==> r.fault == BufferOverrun
    ensures r.Ok? ==> |r.value| == HeaderLength + 4 * PixelCount(width, height)
    ensures r.Ok? ==> r.value[..HeaderLength] == Header(width, height)
    ensures r.Ok? ==> r.value[HeaderLength..] == SwapRedBlue(colour)
  {
    var header := Header(width, height);
    var pixels := ConvertPixels(colour, PixelCount(width, height));
    if WriteCount(PixelCount(width, height)) < 0 {
      return Abort(BufferOverrun);
    }
    r := Ok(header + pixels);
  }
}
